=== FILE: README.md ===
# Trojitá message-part tree, decryption helpers and their neighbours, in Dafny

This project models the part of the Trojitá mail client that turns one IMAP message into a tree of
displayable parts and decrypts the encrypted ones. It also models four smaller pieces that sit next
to that tree.

- **Part tree** (`MessagePart`). `Cryptography::MessagePart` and its two kinds:
  - proxy parts, which answer every question by asking the remote IMAP model;
  - local parts, which hold their own fields and a fetching state (NONE, LOADING, DONE,
    UNAVAILABLE).

  Parts live in an arena keyed by handle. A parent's handle is always smaller than its children's,
  so the recursive answers (`partId`, `pathToPart`, the display text) terminate on the handle.
- **The model** (`MessageModel`). `index`, `parent`, `rowCount` (which triggers lazy construction
  exactly once per part), `columnCount`, `addIndexMapping`, `insertSubtree` and `mapDataChanged`.
  Every notification the model emits is kept in a log.
- **The factory** (`MessagePartFactory`). `buildProxyTree` mirrors the remote structure. An
  encrypted child is replaced by a local placeholder that keeps the mirrored part as its raw part.
- **The decryption helpers** (`QcaHelper`, `OpenPgpHelper`, `SmimeHelper`, with `DecryptionSession`
  for what they share). They are pure state machines: they read the model and emit effects (payload
  reads, `decryptionFailed`, `dataDecrypted`, key loads). `mimeEntityToPart` converts a parsed MIME
  entity into local parts. This includes the envelope of an embedded message/rfc822 and the
  address-list flattening.
- **The system** (`MessageSystem`). The model, the factory and both helpers, wired together as the
  factory's constructor connects them. The outside world is a sequence of events:
  - the view asks a row count;
  - the remote model reports changed data;
  - the key loader finishes;
  - the crypto library finishes one of a helper's running decryptions. Each decryption is its own
    `QCA::SecureMessage`, so a helper can have several running at once.
- **`Imap::MimeParser`** (`MimeParser`). Converts a parsed entity tree into IMAP tree items.
- **`XtConnect::MessageDownloader`** (`MessageDownloader`). The main-text-part search and the
  bookkeeping of messages waiting for their data.
- **The pure parts of `Composer::MessageComposer`** (`MessageComposer`):
  - recipient grouping and the header lines it writes;
  - `writeHeaderWithMsgIds` with its 78-column wrapping;
  - `generateMessageId` and `generateMimeBoundary`;
  - the CRLF fix before signing;
  - base64 attachment bodies in 57-byte chunks;
  - the attachment header and body;
  - the IMAP CATENATE (RFC 4469) list built by `asCatenateData`;
  - the drag-and-drop validators.
- **The selection rules of `Gui::MultipartAlternativeWidget` and `Gui::MultipartSignedWidget`**
  (`PartWidget`).

Libraries are parameters:
- the MIME library's parser, header accessors and RFC 2231 parameter extraction;
- the transfer decoding;
- the UTF-8 to Latin-1 conversion of `QString::fromStdString(...).toLatin1()`;
- the crypto library's base64 decoder and decryption;
- the source of UUID texts.

A violated `Q_ASSERT` becomes a precondition on the low-level part and model operations. In the
downloader and the system it becomes an explicit `Err(AssertionFailure)` result.

`Base64` is the base64 alphabet and padding of section 4 of RFC 4648, which is what
`QByteArray::toBase64` writes. `Text` holds the string helpers: lower-casing, decimal numbers, CRLF
replacement, joining.

## Model

| member | source | states |
|---|---|---|
| MessagePart.NewLocalFields | src/Cryptography/MessagePart.cpp:121-127 | a new local part has the given MIME type, state NONE, no envelope and no data |
| MessagePart.Alloc | src/Cryptography/MessagePart.cpp:35-41 | a new part gets a fresh handle, no children, no raw part and row 0, and the arena stays well formed |
| MessagePart.Child | src/Cryptography/MessagePart.cpp:65-77 | in column 0 a part is answered exactly when the row is below the child count; in a well-formed arena every answer is a live part |
| MessagePart.SetChild | src/Cryptography/MessagePart.cpp:79-87 | the new child is inserted at the row and gets the parent and that row; no other part changes; the arena stays well formed when the parent's handle is smaller |
| MessagePart.SetRawPart | src/Cryptography/MessagePart.cpp:99-103 | only allowed when there is no raw part yet; sets it and changes nothing else |
| MessagePart.SetFields | src/Cryptography/MessagePart.cpp:149-212 | the field setters change only the local part's fields, never its place in the tree |
| MessagePart.SetFetchingState | src/Cryptography/MessagePart.cpp:139-142 | only the fetching state of that one part changes |
| MessagePart.SetData | src/Cryptography/MessagePart.cpp:133-137 | setting data also moves the state to DONE; nothing else changes |
| MessagePart.NumberingBase | src/Cryptography/MessagePart.cpp:219-229 | the ancestor whose number prefixes a part id is a live part whose handle is no larger than the one the walk starts from |
| PartProperties.SetChildThenChild | src/Cryptography/MessagePart.cpp:65-87 | after setChild, child(row, 0) is the new part, earlier rows are unchanged, later rows shift by one |
| PartProperties.InsertLeavesStaleRows | src/Cryptography/MessagePart.cpp:79-87 | inserting before existing children leaves their stored row one less than their position |
| PartProperties.SetRawPartThenChild | src/Cryptography/MessagePart.cpp:65-103 | after setRawPart, child(0, OFFSET_RAW_CONTENTS) is the raw part and the children are unchanged |
| PartProperties.ProxyReadsThrough | src/Cryptography/MessagePart.cpp:116-119 | one step of the data() dispatch: a proxy answers every role with the remote part's answer; the walk over a whole built tree is FactoryProperties.MirrorWalk |
| PartProperties.SetDataThenData | src/Cryptography/MessagePart.cpp:133-137 | after setData the part reports the data, fetched and not unavailable |
| PartProperties.FetchFlags | src/Cryptography/MessagePart.cpp:242-288 | one step of the data() dispatch: RoleIsFetched is state DONE, RoleIsUnavailable is state UNAVAILABLE, and never both; how the state gets there is SetDataThenData and the system's StatesNeverGoBack |
| PartProperties.MainCidOnlyWhenEmpty | src/Cryptography/MessagePart.cpp:321-326 | one step of the data() dispatch: the multipart/related start value is answered exactly when it is empty |
| PartProperties.Rfc822RolesOnlyForMessages | src/Cryptography/MessagePart.cpp:265-284 | the envelope roles answer nothing unless the part is message/rfc822; for such a part the envelope role answers exactly when an envelope is present, and the others always answer |
| PartProperties.UnicodeTextOnlyForText | src/Cryptography/MessagePart.cpp:291-298 | the Unicode text is answered exactly for text/* parts and is the data decoded under the charset |
| PartProperties.UnknownRolesAnswerNothing | src/Cryptography/MessagePart.cpp:333-337 | any role a local part does not handle is answered with an empty value |
| PartProperties.DisplayShowsPartId | src/Cryptography/MessagePart.cpp:248-252 | the display text of a part that is not a top-level multipart starts with its part id and ": " |
| PartProperties.PathEndsWithRow | src/Cryptography/MessagePart.cpp:231-238 | a path ends with "/" and the part's row |
| PartProperties.SiblingPathsDiffer | src/Cryptography/MessagePart.cpp:231-238 | two siblings with different rows have different paths |
| PartProperties.ForwardedPath | src/Cryptography/MessagePart.cpp:231-238 | the text part of a forwarded message has path "/1/0/0" |
| PartProperties.PartIdAsWrittenDropsMessageNumber | src/Cryptography/MessagePart.cpp:219-229 | as written, the first text part under a multipart inside the second part's message/rfc822 gets id "1", the number of the embedded message itself "2" |
| PartProperties.ForwardedTextAnswersAsWritten | src/Cryptography/MessagePart.cpp:317-318 | RolePartId answers with that as-written id "1" |
| PartProperties.PartIdKeepsMessageNumber | src/Cryptography/MessagePart.cpp:219-229 | the corrected numbering gives the same part the id "2.1" |
| PartProperties.PartIdBelowEmbeddedMessage | src/Cryptography/MessagePart.cpp:219-229 | under the corrected numbering, a part whose parent is a top-level multipart takes the grandparent's non-empty id, a dot and its own row + 1 |
| MessageModel.IndexOf | src/Cryptography/MessageModel.cpp:63-82 | with no parent the index is the root when there is one; below a parent it is valid exactly when the part has that child, and it points at that child |
| MessageModel.ParentOf | src/Cryptography/MessageModel.cpp:84-97 | the parent index is valid exactly when the part has a parent; it carries the child's own row and column 0 |
| MessageModel.RowCount | src/Cryptography/MessageModel.cpp:99-114 | the count is 0/1 at the top and the child count below; construction starts exactly for a local part in state NONE, which becomes LOADING |
| MessageModel.ColumnCount | src/Cryptography/MessageModel.cpp:116-120 | one column when there is a root, none otherwise |
| MessageModel.AddIndexMapping | src/Cryptography/MessageModel.cpp:145-148 | the remote index maps to the new proxy, and a proxy's mapping keeps the model well formed |
| MessageModel.InsertSubtree | src/Cryptography/MessageModel.cpp:150-168 | notifies rows 0 to \|children\| as written (see Findings); below a parent it grafts the children in order; at the top it sets the root to the first child |
| MessageModel.InsertAnnouncesMissingRow | src/Cryptography/MessageModel.cpp:152 | below a part, the announced range has one row more than the part then has, and its last row does not exist |
| MessageModel.InsertSubtreeIntended | src/Cryptography/MessageModel.cpp:150-168 | the same graft; below a part the announced range is exactly the rows the part now has, every one of them present; nothing is announced for no parts |
| MessageModel.GraftModel | src/Cryptography/MessageModel.cpp:153-162 | the graft keeps the model well formed and the map unchanged |
| MessageModel.Graft | src/Cryptography/MessageModel.cpp:157-162 | the children end up in order below the part, each pointing back at it and, when they are distinct, carrying its row; a local parent becomes DONE; nothing else changes |
| MessageModel.AttachChildren | src/Cryptography/MessageModel.cpp:157-159 | the setChild loop attaches every child in order |
| MessageModel.GraftDone | src/Cryptography/MessageModel.cpp:160-162 | after the loop, the state of a local parent moves to DONE and the graft is complete |
| MessageModel.ParentsLinked | src/Cryptography/MessageModel.cpp:157-159 | every grafted child points back at the parent |
| MessageModel.MapDataChanged | src/Cryptography/MessageModel.cpp:44-57 | nothing happens without a root or a mapped top-left; otherwise one dataChanged is logged, and an unmapped bottom-right gets an empty entry |
| ModelProperties.ForwardedChange | src/Cryptography/MessageModel.cpp:44-57 | a forwarded change names proxies of the remote indexes, whose data is the remote data |
| ModelProperties.EmptyEntryForwardedLater | src/Cryptography/MessageModel.cpp:51-55 | after a change with an unmapped bottom-right, a later change of that index is forwarded with a null part |
| ModelProperties.RowCountTwice | src/Cryptography/MessageModel.cpp:99-114 | a second rowCount on the same index starts nothing and changes nothing |
| MessagePartFactory.NewProxy | src/Cryptography/MessagePart.cpp:105-110 | a new proxy is allocated and registered in the index map |
| MessagePartFactory.MirrorChildren | src/Cryptography/MessagePartFactory.cpp:44-64 | the loop adds one child per remote child, leaving earlier parts untouched |
| MessagePartFactory.MirrorNext | src/Cryptography/MessagePartFactory.cpp:47-62 | one loop step adds the i-th child and continues to the end |
| MessagePartFactory.MirrorOne | src/Cryptography/MessagePartFactory.cpp:49-61 | one remote child becomes exactly one new child of the destination |
| MessagePartFactory.BuildProxy | src/Cryptography/MessagePartFactory.cpp:49-50 | the new proxy points at the remote child and has the destination as its parent |
| MessagePartFactory.AttachRawProxy | src/Cryptography/MessagePartFactory.cpp:51-53 | a raw proxy is attached exactly when the remote child has a raw-contents child |
| MessagePartFactory.Install | src/Cryptography/MessagePartFactory.cpp:54-61 | the proxy or its placeholder becomes the i-th child |
| MessagePartFactory.AttachPart | src/Cryptography/MessagePartFactory.cpp:56 | a plain child is attached directly |
| MessagePartFactory.InstallPlaceholder | src/Cryptography/MessagePartFactory.cpp:57-60 | an encrypted child is replaced by a new placeholder |
| MessagePartFactory.NewPlaceholder | src/Cryptography/MessagePartFactory.cpp:58-59 | the placeholder is a new local part of the child's MIME type whose raw part is the proxy |
| MessagePartFactory.BuildMessageTree | src/Cryptography/MessagePartFactory.cpp:72-78 | a new root proxy is inserted at the top, with one pair of rows-inserted notifications |
| FactoryProperties.BuildMessageTreeMirrors | src/Cryptography/MessagePartFactory.cpp:44-79 | the built tree mirrors the remote message: a proxy per part, and a placeholder holding the proxy for every encrypted part |
| FactoryProperties.MirrorChildrenMirrors | src/Cryptography/MessagePartFactory.cpp:46-63 | after the loop, every child of the destination mirrors its remote child |
| FactoryProperties.MirrorOneMirrors | src/Cryptography/MessagePartFactory.cpp:49-61 | the child installed for one remote child mirrors it |
| FactoryProperties.BuildProxyMirrors | src/Cryptography/MessagePartFactory.cpp:49-53 | the new proxy mirrors its remote child, raw part included |
| FactoryProperties.RawProxyMirrors | src/Cryptography/MessagePartFactory.cpp:51-53 | the raw proxy mirrors the remote raw-contents child |
| FactoryProperties.InstallMirrors | src/Cryptography/MessagePartFactory.cpp:54-61 | installing keeps the mirror relation for the child slot |
| FactoryProperties.MirrorWalk | src/Cryptography/MessagePartFactory.cpp:44-64 | following the same rows through plain parts reaches a proxy of the same remote part, which answers every role like it |
| DecryptionSession.ChildOf | src/Cryptography/MessageModel.cpp:63-82 | the child index below an index is valid exactly when the part has that child |
| DecryptionSession.Fetched | src/Cryptography/MessagePart.cpp:242-244 | only a valid index can report being fetched |
| QcaHelper.ErrorText | src/Cryptography/QCAHelper.cpp:43-62 | without the crypto library the text is fixed; with it, exactly the ten known codes have a non-empty text |
| QcaHelper.ErrorTextsDistinct | src/Cryptography/QCAHelper.cpp:46-56 | different known codes have different texts |
| QcaHelper.ErrorTextIdentifiesCode | src/Cryptography/QCAHelper.cpp:46-56 | the code can be recovered from the length of its text |
| QcaHelper.HandleEventReady | src/Cryptography/QCAHelper.cpp:64-76 | a null event gets no answer; a password event is answered with the empty password; any other event gets an answer other than a password, under the same id |
| QcaHelper.ToMailAddress | src/Cryptography/QCAHelper.cpp:122-126 | a mailbox becomes an address with its label, source route, mailbox and domain |
| QcaHelper.MailboxListToQList | src/Cryptography/QCAHelper.cpp:118-129 | one address per mailbox, in order |
| QcaHelper.AddressListLength | src/Cryptography/QCAHelper.cpp:131-155 | a group contributes one address per member and a single address one |
| QcaHelper.AddressListAppend | src/Cryptography/QCAHelper.cpp:131-155 | flattening distributes over concatenation of lists |
| QcaHelper.MailboxesAsAddresses | src/Cryptography/QCAHelper.cpp:131-155 | single mailboxes, or one group of them, flatten like the mailbox list |
| QcaHelper.StoreInterestingFields | src/Cryptography/QCAHelper.cpp:79-116 | the charset is always copied; format and DelSp only when a format is given; the disposition only when present; the filename from the disposition, else from the content type, else left alone |
| QcaHelper.StoreFieldsIdempotent | src/Cryptography/QCAHelper.cpp:79-116 | storing the same header twice equals storing it once |
| QcaHelper.EnvelopeOf | src/Cryptography/QCAHelper.cpp:164-186 | the envelope's address lists are the flattened header lists; sender and In-Reply-To have at most one entry, present exactly when the header has the field |
| QcaHelper.MimeEntityToPart | src/Cryptography/QCAHelper.cpp:157-202 | the new part and everything below it are DONE, and the result is the recursive conversion of the entity |
| QcaHelper.LeafToPart | src/Cryptography/QCAHelper.cpp:193-200 | a leaf keeps its stored fields and its decoded data |
| QcaHelper.ContainerToPart | src/Cryptography/QCAHelper.cpp:162-200 | a container gets its sub-entities as children in order, with an envelope for message/rfc822 |
| QcaHelper.ContainerShell | src/Cryptography/QCAHelper.cpp:161-187 | the container part is allocated first, with its MIME type and envelope |
| QcaHelper.AttachParts | src/Cryptography/QCAHelper.cpp:188-192 | the children are converted and attached in order, each with its row |
| QcaHelper.AppendPart | src/Cryptography/QCAHelper.cpp:189-191 | one sub-entity becomes the next child |
| QcaHelper.BuiltChildren | src/Cryptography/QCAHelper.cpp:188-192 | a converted container has one converted child per sub-entity, at its row |
| OpenPgpHelper.Decrypt | src/Cryptography/OpenPGPHelper.cpp:76-93 | without the crypto library or its OpenPGP support it fails with the passphrase error text; otherwise it remembers the part, requests control and ciphertext, and runs the data check once |
| OpenPgpHelper.HandleDataChanged | src/Cryptography/OpenPGPHelper.cpp:95-120 | nothing happens until both parts are fetched; then it disconnects and either fails on a missing "Version: 1" or starts a decryption of the ciphertext up to its first NUL byte, which is what passing `QByteArray::data()` as a C string delivers |
| OpenPgpHelper.DecryptionFinishedFor | src/Cryptography/OpenPGPHelper.cpp:184-210 | failure emits the error text; success emits the converted children of the decrypted message, for the container the decryption was started for |
| OpenPgpHelper.DecryptionFinished | src/Cryptography/OpenPGPHelper.cpp:207 | as written, the parts are handed over for the container the helper remembers when the decryption finishes |
| SmimeHelper.Decrypt | src/Cryptography/SMIMEHelper.cpp:68-87 | without CMS support it fails; otherwise it loads a key when none is loaded, reads the ciphertext and checks once |
| SmimeHelper.HandleDataChanged | src/Cryptography/SMIMEHelper.cpp:89-110 | nothing happens until the data is fetched and a key is loaded; then it disconnects and decrypts the payload, with CRLF turned into LF and then base64-decoded |
| SmimeHelper.PrivateKeyLoaded | src/Cryptography/SMIMEHelper.cpp:51-66 | a bad key emits the load failure; a good key is stored and the data check runs again |
| SmimeHelper.DecryptionFinishedFor | src/Cryptography/SMIMEHelper.cpp:112-138 | failure emits the error text; success emits one part, the parsed message or a text/plain part holding the plaintext, for the container the decryption was started for |
| SmimeHelper.DecryptionFinished | src/Cryptography/SMIMEHelper.cpp:136 | as written, the part is handed over for the container the helper remembers when the decryption finishes |
| Text.UpToNul | src/Cryptography/OpenPGPHelper.cpp:116 | what a C string carries: a prefix without NUL, the whole text exactly when it has no NUL, and otherwise cut right before the first NUL |
| Text.CrlfToLfRemovesPairs | src/Cryptography/SMIMEHelper.cpp:99-100 | after replacing CRLF by LF no CRLF pair is left, for an input without CR CR LF |
| MessageSystem.Open | src/Cryptography/MessageModel.cpp:31-42 | a message without parts fails the assertion; the model opens exactly when the message has parts and its root is not encrypted, and then it mirrors the remote message below a root proxy, with no build triggered and an empty trace |
| MessageSystem.GraftOne | src/Cryptography/MessagePartFactory.cpp:40-41 | only dataDecrypted changes the model; it succeeds exactly when insertSubtree's assertions hold, and grafts the parts |
| MessageSystem.GraftAll | src/Cryptography/MessagePartFactory.cpp:40-41 | effects without dataDecrypted leave the model alone |
| MessageSystem.Emit | src/Cryptography/MessagePartFactory.cpp:40-41 | the effects are appended to the trace, key loads and started decryptions are counted, and only grafts change the model |
| MessageSystem.BuildSubtree | src/Cryptography/MessagePartFactory.cpp:66-72 | multipart/encrypted goes to the OpenPGP helper, application/pkcs7-mime to the S/MIME helper, with the payload reads each one makes |
| MessageSystem.PgpBuild | src/Cryptography/MessagePartFactory.cpp:68-69 | the OpenPGP branch leaves the S/MIME helper alone and reads control and ciphertext first |
| MessageSystem.SmimeBuild | src/Cryptography/MessagePartFactory.cpp:70-71 | the S/MIME branch leaves the OpenPGP helper alone and reads the ciphertext |
| MessageSystem.ViewRowCountStep | src/Cryptography/MessageModel.cpp:99-114 | a row count on an untouched local part records one build and moves it to LOADING; on anything else it changes nothing |
| MessageSystem.SourceChangedStep | src/Cryptography/MessageModel.cpp:44-57 | a remote change is forwarded, and only a connected helper reacts to it |
| MessageSystem.PgpDataChanged | src/Cryptography/OpenPGPHelper.cpp:95-104 | a disconnected OpenPGP helper ignores change notifications |
| MessageSystem.SmimeDataChanged | src/Cryptography/SMIMEHelper.cpp:89-97 | a disconnected S/MIME helper ignores change notifications |
| MessageSystem.KeyLoadStep | src/Cryptography/SMIMEHelper.cpp:42-66 | without PKCS#12 the load finishes unheard; a bad key emits the failure; a good one stores the key |
| MessageSystem.DecryptFinishedStep | src/Cryptography/OpenPGPHelper.cpp:184-210 | one of the helper's running decryptions ends, so the count drops by one; a failed decryption only logs the failure; a successful one emits dataDecrypted for the container the helper remembers now; the other helper is untouched |
| MessageSystem.Deliver | src/Cryptography/MessagePartFactory.cpp:35-42 | an event that cannot arrive in this state is refused: a finished decryption arrives whenever one of that helper's decryptions is running, whatever container the helper works for now; only a finish lowers the running count, by one; every delivered event keeps the invariant, only moves fetching states forward, and only appends to the trace and the builds |
| MessageSystem.Run | src/Cryptography/MessagePartFactory.cpp:35-42 | the same holds for any sequence of events |
| SystemProperties.StatesNeverGoBack | src/Cryptography/MessageModel.cpp:108-111 | over any run, a DONE part stays DONE and a part that left NONE never returns to it |
| SystemProperties.TriggeredOnce | src/Cryptography/MessageModel.cpp:108-111 | over any run, no part's construction is triggered twice, and every triggered part has left NONE |
| SystemProperties.RowCountAgainChangesNothing | src/Cryptography/MessageModel.cpp:99-114 | asking the same row count again changes nothing |
| SystemProperties.FailureLeavesModel | src/Cryptography/OpenPGPHelper.cpp:190-193 | a failed decryption leaves the model exactly as it was, so the container stays LOADING; the helper is Failed and the error text is logged |
| SystemProperties.NoSecondDecryption | src/Cryptography/OpenPGPHelper.cpp:95-104 | once the OpenPGP helper has disconnected, no sequence of remote changes starts another decryption: the helper and its running count stay as they are |
| SystemProperties.OpenedPlaceholder | src/Cryptography/MessagePartFactory.cpp:54-61 | after opening, an encrypted child of the root is a NONE placeholder without children whose raw part mirrors the remote part |
| SystemProperties.PgpTrigger | src/Cryptography/OpenPGPHelper.cpp:76-89 | the first row count of an encrypted placeholder moves it to LOADING and starts the OpenPGP helper, which reads control then ciphertext |
| SystemProperties.PgpPlaceholderWaits | tests/Cryptography/test_Cryptography_PGP.cpp:81-87 | in the test scenario the encrypted part has no rows and is not fetched after its first row count |
| SystemProperties.NotFetchedWhileLoading | src/Cryptography/MessagePart.cpp:242-244 | a local part that is not DONE is not fetched |
| SystemProperties.FetchedWhenDone | src/Cryptography/MessagePart.cpp:242-244 | a DONE local part is fetched |
| SystemProperties.PgpSuccessGrafts | src/Cryptography/OpenPGPHelper.cpp:194-207 | a successful OpenPGP decryption makes the container DONE with one child per decrypted sub-entity |
| SystemProperties.SmimeSuccessGrafts | src/Cryptography/SMIMEHelper.cpp:121-136 | a successful S/MIME decryption makes the container DONE with the one new part as its child |
| SystemProperties.PgpDecryptionOutcome | tests/Cryptography/test_Cryptography_PGP.cpp:97-101 | after the OpenPGP decryption finishes, the container is fetched exactly when the decryption succeeded |
| SystemProperties.SmimeDecryptionOutcome | src/Cryptography/SMIMEHelper.cpp:112-138 | after the S/MIME decryption finishes, the container is fetched exactly when the decryption succeeded |
| SystemProperties.InFlightFinishGraftsAtNewTarget | src/Cryptography/OpenPGPHelper.cpp:76-93 | with a decryption running, a row count on a second placeholder re-targets the helper; the running decryption's success then fills the second placeholder and leaves every other part's state, its own container's included, as it was |
| SystemProperties.SecondFinishAsserts | src/Cryptography/MessageModel.cpp:154 | a successful finish for a remembered container that already has children violates insertSubtree's assertion |
| SystemProperties.IntendedFinishGraftsOwnContainer | src/Cryptography/OpenPGPHelper.cpp:184-210 | with the container carried by the decryption, success fills exactly that container and makes it DONE, whatever the helper remembers now |
| MimeParser.StoreInterestingFields | src/Imap/Parser/MimeParser.cpp:22-39 | charset, protocol and file name change only to a non-empty value; encoding and disposition are always set, each after the UTF-8 to Latin-1 round trip; nothing else changes |
| MimeParser.StoreFieldsIdempotent | src/Imap/Parser/MimeParser.cpp:22-39 | storing the same header twice equals storing it once |
| MimeParser.CreateTreeItems | src/Imap/Parser/MimeParser.cpp:41-64 | an item has the entity's type/subtype and is DONE; a multipart has one child per sub-entity and no data; any other entity has no children, its body after the UTF-8 to Latin-1 round trip as raw data, and those same bytes decoded with the converted encoding as data |
| MimeParser.CreateChildren | src/Imap/Parser/MimeParser.cpp:49-55 | one item per remaining sub-entity |
| MimeParser.ParseMessage | src/Imap/Parser/MimeParser.cpp:14-20 | the parent's children become the single parsed root; nothing else of the parent changes |
| MimeParser.ChildrenConverted | src/Imap/Parser/MimeParser.cpp:47-55 | the j-th child item is the conversion of the j-th sub-entity |
| MimeParser.CreatedAllDone | src/Imap/Parser/MimeParser.cpp:62 | every item at any depth is DONE |
| MimeParser.CreatedFieldsNonEmpty | src/Imap/Parser/MimeParser.cpp:25-35 | every optional field set at any depth holds a non-empty value |
| MimeParser.ItemsFollowEntities | src/Imap/Parser/MimeParser.cpp:41-64 | a path reaches an item exactly when it reaches an entity through multiparts, and that item is the entity's conversion |
| MessageDownloader.FindMainPart | src/XtConnect/MessageDownloader.cpp:170-174 | an invalid index gives "Invalid index"; a valid one is searched |
| MessageDownloader.SearchItem | src/XtConnect/MessageDownloader.cpp:175-216 | a found path leads to a text/plain part and comes with no message; no result comes with a non-empty message |
| MessageDownloader.SearchChildren | src/XtConnect/MessageDownloader.cpp:197-210 | the result is the first child from i on whose search succeeds, with that child's path |
| MessageDownloader.SearchFindsMainPart | src/XtConnect/MessageDownloader.cpp:170-217 | the search succeeds exactly when the part has a main part by the reference definition |
| MessageDownloader.MultipartTakesFirstSuitable | src/XtConnect/MessageDownloader.cpp:197-213 | a multipart's result is its first child that has a main part |
| MessageDownloader.MultipartSearchesChildren | src/XtConnect/MessageDownloader.cpp:197-213 | a multipart's result is the children's search from row 0 |
| MessageDownloader.FindMainPartOfMessage | src/XtConnect/MessageDownloader.cpp:219-239 | not loaded exactly without parts; cannot determine exactly when the search fails; otherwise a text/plain part that is loading or found with its data |
| MessageDownloader.CannotDetermineMeansNoMainPart | src/XtConnect/MessageDownloader.cpp:227-230 | cannot determine exactly when the first part has no main part |
| MessageDownloader.PendingMessages | src/XtConnect/MessageDownloader.cpp:241-244 | no pending messages exactly when none is recorded |
| MessageDownloader.Collect | src/XtConnect/MessageDownloader.cpp:50-73 | the metadata holds the header, body and envelope flags and the main part status |
| MessageDownloader.RequestDownload | src/XtConnect/MessageDownloader.cpp:42-83 | a complete message is handed over at once and not recorded; otherwise its metadata is recorded |
| MessageDownloader.RequestRecordsPending | src/XtConnect/MessageDownloader.cpp:80-82 | an incomplete message is pending afterwards, counted once, and asking again changes nothing |
| MessageDownloader.Absorb | src/XtConnect/MessageDownloader.cpp:109-145 | only the header, the text, the not-yet-seen message row and the main part matter; each sets its flag and flags never go back |
| MessageDownloader.Finish | src/XtConnect/MessageDownloader.cpp:147-167 | a complete message is handed over with its header, body and main text (or the failure message), then released and forgotten |
| MessageDownloader.SlotDataChanged | src/XtConnect/MessageDownloader.cpp:85-168 | irrelevant changes do nothing; otherwise only that message's flags grow, and a hand-over removes it |
| MessageDownloader.HandedOverOnce | src/XtConnect/MessageDownloader.cpp:147-167 | a handed-over message leaves the pending count lower by one, and further changes of it do nothing |
| MessageComposer.Select | src/Composer/MessageComposer.cpp:530-548 | the addresses of one kind never outnumber the recipients |
| MessageComposer.SelectAppend | src/Composer/MessageComposer.cpp:530-548 | selecting from concatenated lists concatenates the selections, in order |
| MessageComposer.GroupRecipients | src/Composer/MessageComposer.cpp:530-548 | the To and Cc lists are the recipients of each kind, in order |
| MessageComposer.RecipientList | src/Composer/MessageComposer.cpp:510-519 | no addresses give no text; otherwise the header starts with the prefix and ends with CRLF |
| MessageComposer.WriteRecipientList | src/Composer/MessageComposer.cpp:510-519 | the loop writes exactly the joined recipient header |
| MessageComposer.RecipientHeaders | src/Composer/MessageComposer.cpp:550-553 | no headers without To or Cc recipients; To comes first |
| MessageComposer.BccNeverWritten | src/Composer/MessageComposer.cpp:539-540 | a Bcc recipient anywhere in the list does not change the headers |
| MessageComposer.MsgIdTail | src/Composer/MessageComposer.cpp:601-612 | the id list always ends with CRLF |
| MessageComposer.MsgIdHeader | src/Composer/MessageComposer.cpp:593-613 | no ids give no header; otherwise it starts with the name and a colon and ends with CRLF |
| MessageComposer.MsgIdTailUnfolds | src/Composer/MessageComposer.cpp:601-612 | with the line breaks removed, the tail is every id in angle brackets after a space |
| MessageComposer.MsgIdHeaderUnfolds | src/Composer/MessageComposer.cpp:593-613 | unfolding the wrapped header gives the name, a colon and every id in order |
| MessageComposer.StripBraces | src/Composer/MessageComposer.cpp:485 | the result holds no braces |
| MessageComposer.GenerateMessageId | src/Composer/MessageComposer.cpp:473-486 | no host gives no id; otherwise the id ends with "@" and the host and has no braces before it |
| MessageComposer.MessageIdLine | src/Composer/MessageComposer.cpp:561-564 | an empty id writes no line; otherwise the line is Message-ID in angle brackets |
| MessageComposer.GenerateMimeBoundary | src/Composer/MessageComposer.cpp:489-499 | the boundary starts with "trojita=_" and has no braces after it |
| MessageComposer.EnsureCrlf | src/Composer/MessageComposer.cpp:671-673 | the result ends with CRLF, extends the message by at most two characters, and equals it exactly when it already ended with CRLF |
| MessageComposer.EnsureCrlfIdempotent | src/Composer/MessageComposer.cpp:671-673 | fixing twice equals fixing once |
| MessageComposer.Chunks | src/Composer/MessageComposer.cpp:655-661 | the chunks concatenate to the data; all are non-empty, at most 57 bytes, and all but the last exactly 57 |
| MessageComposer.WriteBase64Body | src/Composer/MessageComposer.cpp:655-665 | the read loop writes exactly the base64 body |
| MessageComposer.Base64LinesFit | src/Composer/MessageComposer.cpp:658-660 | every base64 line is at most 76 characters, all but the last exactly 76, and each decodes back to its chunk |
| MessageComposer.ChunkLine | src/Composer/MessageComposer.cpp:658-660 | a chunk of at most 57 bytes encodes to at most 76 characters, exactly 76 when full, and decodes back |
| MessageComposer.AnyReadsFit | src/Composer/MessageComposer.cpp:655-661 | whatever sizes the device's reads of at most 57 bytes have, each written line is at most 76 characters and decodes back to that read |
| MessageComposer.AttachmentHeader | src/Composer/MessageComposer.cpp:615-642 | fails exactly for an attachment neither local nor on IMAP; otherwise it starts with the boundary line and ends with a blank line |
| MessageComposer.AttachmentBody | src/Composer/MessageComposer.cpp:644-667 | fails for a non-local or vanished attachment with the matching text; otherwise the raw data, base64-encoded when its transfer encoding is base64 |
| MessageComposer.EnsureTextTail | src/Composer/MessageComposer.cpp:896-898 | the list ends with a text item, alternates, and has the same URLs |
| MessageComposer.AppendText | src/Composer/MessageComposer.cpp:899-903 | writing appends to the last text item only |
| MessageComposer.AppendUrl | src/Composer/MessageComposer.cpp:911 | an URL item is added after the text, and the URLs grow by that URL |
| MessageComposer.FlattenAppendUrl | src/Composer/MessageComposer.cpp:905-912 | flattening the list after an URL item is added appends the content fetched from that URL |
| MessageComposer.CatenateOne | src/Composer/MessageComposer.cpp:895-913 | one attachment adds its URL when it has one, and fails exactly when its header fails or, without a URL, its body fails |
| MessageComposer.CatenateAll | src/Composer/MessageComposer.cpp:894-916 | the URLs of the list are those of the attachments, in order |
| MessageComposer.AsCatenateData | src/Composer/MessageComposer.cpp:879-922 | no attachments give one text item; otherwise the list alternates, holds the attachments' URLs in order, and ends with the closing delimiter |
| MessageComposer.CatenateOneMatches | src/Composer/MessageComposer.cpp:899-912 | with URLs replaced by the fetched bodies, one attachment adds its header and body |
| MessageComposer.CatenateAllMatches | src/Composer/MessageComposer.cpp:894-913 | with URLs replaced by the fetched bodies, the attachments add what asRawMessage writes for them |
| MessageComposer.CatenateMatchesRawMessage | src/Composer/MessageComposer.cpp:879-922 | whenever asRawMessage succeeds, the CATENATE list succeeds and flattens to the same message |
| MessageComposer.ValidateDropImapMessage | src/Composer/MessageComposer.cpp:289-312 | a list of messages is accepted exactly when the stream is good, the mailbox is known, there is at least one UID and UIDVALIDITY is nonzero |
| MessageComposer.ValidateDropImapPart | src/Composer/MessageComposer.cpp:355-373 | a part is accepted exactly when the stream is good, the mailbox is known, UIDVALIDITY and UID are nonzero and the path is not empty |
| PartWidget.FilteredForEmbedding | src/Gui/PartWidget.cpp:41-44 | an option survives exactly when it is in the embedding mask |
| PartWidget.FilteredTwice | src/Gui/PartWidget.cpp:41-44 | filtering twice equals filtering once |
| PartWidget.PreferredTextIndex | src/Gui/PartWidget.cpp:68-90 | the first loop returns the last child of the liked textual type, or -1 |
| PartWidget.LastIndexOfIsLast | src/Gui/PartWidget.cpp:84-89 | the reference index holds the type and no later child does; it is -1 exactly when no child does |
| PartWidget.PreferredIndexChoice | src/Gui/PartWidget.cpp:92-95 | the shown tab is the last child of the liked type, or the last child when there is none |
| PartWidget.AppendedPreferredWins | src/Gui/PartWidget.cpp:92-95 | a liked child added at the end becomes the shown one |
| PartWidget.AlternativeTabs | src/Gui/PartWidget.cpp:95-134 | one tab per child, with its options, caption and warning icon; the current tab is the preferred index |
| PartWidget.OnlyPreferredVisible | src/Gui/PartWidget.cpp:104-107 | when the mask passes PART_IS_HIDDEN and the parent is visible, exactly the preferred child is created visible |
| PartWidget.WarningMatchesCaption | src/Gui/PartWidget.cpp:113-131 | a tab carries the warning icon exactly when its caption is the raw MIME type (for a type that is not itself one of the two short captions) |
| PartWidget.SignedWidgetLayout | src/Gui/PartWidget.cpp:175-191 | one child is shown under the malformed title, two are verified, any other count gives only a label; children get the filtered options |
| PartWidget.CountLabelNamesCount | src/Gui/PartWidget.cpp:181-182 | the malformed-count label names the count in decimal |

## Left out

- Qt plumbing is not modelled: signals and slots, `QModelIndex` internals, `QVariant` conversions, widget creation and layout, translation of texts. The message texts are the untranslated source strings.
- The remote IMAP model is not modelled. It is an immutable tree of parts addressed by row paths. Lazy fetching on the IMAP side appears only as the payload reads a helper makes.
- The MIME library (mimetic) is not modelled. The parser, its header accessors, `extractRfc2231Param`, `decodeContentTransferEncoding` and `decodeTransportEncoding` are parameters. So is the UTF-8 to Latin-1 conversion (`latin1OfUtf8`) that `MimeParser` applies to the encoding, the disposition and the raw body.
- The crypto library (QCA) is not modelled:
  - decryption results arrive as events carrying either plaintext or an error code;
  - `QCA::Base64` with line breaks enabled is a parameter, because its padding and whitespace handling are outside the source;
  - error codes follow the declaration order of `QCA::SecureMessage::Error`.
- The passphrase and event handler thread of `QCAHelper` is not modelled. Only the decision of `handleEventReady` is.
- `OFFSET_RAW_CONTENTS` is 4, from `Imap::Mailbox::TreeItem`. MailboxTree.h is not part of this model.
- MessageSystem.Deliver: a helper's running decryptions are counted, not told apart. As written, `decryptionFinished` does not depend on which of them finished; the event carries the plaintext or the error code.
- SystemProperties.InFlightFinishGraftsAtNewTarget: stated for the OpenPGP helper only. The S/MIME helper has the same pattern (`SmimeHelper.DecryptionFinished` against `SmimeHelper.DecryptionFinishedFor`) but no system-level lemma of its own.
- `MessageSystem.Open`: a message whose root part is itself of an encrypted type gives `Err(NotModelled)`. The source would hand a remote index to a helper, and that path is not covered.
- `MessageSystem.BuildSubtree`: the factory's proxy branch for a non-encrypted local part gives `Err(NotModelled)`. Only placeholders reach `buildSubtree` from `rowCount`, and every placeholder has an encrypted type.
- `OpenPgpHelper.Decrypt`: the two `Q_ASSERT`s of `decrypt` (OpenPGPHelper.cpp:82-83) are a precondition. In the system they become `Err(AssertionFailure)`.
- OpenPGP's own `storeInterestingFields` and `mimeEntityToPart` (OpenPGPHelper.cpp:122-182) are modelled by the QCAHelper versions with the envelope switched off. They differ only in not building the envelope of an embedded message.
- `MessageComposer.MsgIdHeader`: the contract does not bound the line length. It states the header's content (through `MsgIdHeaderUnfolds`) and its framing.
- Composer parts that are not modelled:
  - `writeCommonMessageBeginning`'s From, Subject, Date, User-Agent and Organization lines;
  - RFC 2047 encoding;
  - format=flowed wrapping and quoted-printable encoding of the body;
  - signing and encryption (`signRawMessage`, `encryptRawMessage`), apart from the CRLF fix;
  - the attachment model (preloading, content disposition headers, MIME types), whose values are fields of `Attachment`;
  - the drag-and-drop stream decoding;
  - `QUuid` randomness, which is a text parameter.

  The `MessageComposer` row model and its setters are Qt model code.
- MessageComposer.WriteBase64Body: the line split assumes that every `read(57)` but the last returns a full 57 bytes, as a file or an in-memory buffer does. A device that returns short reads splits the lines elsewhere; for that case only `AnyReadsFit` is stated (each line at most 76 characters and decoding back to its read), not the exact line boundaries.
- MimeParser.StoreInterestingFields: charset, protocol and file name are kept as the parameter's bytes. The UTF-8 decoding of `QString::fromStdString` into a `QString` is not modelled for them; only encoding, disposition and the raw body go through `latin1OfUtf8`.
- `MessageComposer.AsCatenateData`: on failure the source leaves a partially filled list in its output argument. The model returns only the error.
- `PartWidget` parts that are not modelled:
  - the numeric values of `PartLoadingOption` and of `MASK_PROPAGATE_WHEN_EMBEDDING`, which is a parameter (PartWidgetFactory.h is not part of this model);
  - the gpgme signature verification of a two-part multipart/signed (PartWidget.cpp:193-285);
  - `quoteMe`, `reloadContents` and `eventFilter`;
  - `GenericMultipartWidget` and `Message822Widget`.
- `MessageDownloader`: `lastModel` and its connection are not modelled. All messages come from one mailbox snapshot. `Q_ASSERT(uid)` is a property of that snapshot: UIDs are never 0.

## Findings

| source | as written | input that shows it | evidently intended | confidence | as-written member | corrected member |
|---|---|---|---|---|---|---|
| src/Cryptography/MessagePart.cpp:219-229 | `partId` prefixes a part's number with its parent's id, and a top-level multipart has the empty id. So below a multipart that is the body of an embedded message/rfc822, the enclosing message's number is lost. | A message whose second part is message/rfc822, whose body is a multipart holding a text part. The text part gets id "1", the same as the first part of the outer message, while the embedded message itself is "2". | The IMAP part specifier of section 6.4.5 of RFC 3501, "2.1": the multipart is skipped but the message number is kept. | not executed | PartProperties.PartIdAsWrittenDropsMessageNumber | PartProperties.PartIdKeepsMessageNumber |
| src/Cryptography/OpenPGPHelper.cpp:76-93, :207 | `decrypt` overwrites the one remembered container (`m_partIndex`), and `decryptionFinished` hands the plaintext over for whatever container is remembered when it runs. The same holds in SMIMEHelper.cpp:68-87 and :136. | Open a message with two OpenPGP parts. Fetch the first, so that its decryption starts. Then expand the second before its data is there. When the first decryption succeeds, its plaintext is grafted below the second part, and the first stays LOADING. The second's own decryption later finds a container with rows and trips the assertion of MessageModel.cpp:154. | Each decryption hands its plaintext to the container it was started for. | not executed | SystemProperties.InFlightFinishGraftsAtNewTarget | SystemProperties.IntendedFinishGraftsOwnContainer |
| src/Cryptography/MessageModel.cpp:152 | `beginInsertRows(parent, 0, children.size())` takes an inclusive last row, so it announces one row more than is inserted. | Decrypting into a placeholder two parts: rows 0 to 2 are announced, but the placeholder then has rows 0 and 1. | `children.size() - 1`, and no announcement when nothing is inserted. | not executed | MessageModel.InsertAnnouncesMissingRow | MessageModel.InsertSubtreeIntended |

=== FILE: base64.dfy ===
/** Base64 content transfer encoding (section 6.8 of RFC 2045) over byte strings. Bytes are the
    characters below 256. */
module Base64 {
  import opened Wrappers

  predicate IsBytes(s: string) {
    forall i | 0 <= i < |s| :: s[i] as int < 256
  }

  /** The base64 alphabet: A-Z, a-z, 0-9, '+', '/'. */
  function EncodeDigit(v: int): (c: char)
    requires 0 <= v < 64
    ensures DecodeDigit(c) == v
  {
    if v < 26 then ('A' as int + v) as char
    else if v < 52 then ('a' as int + (v - 26)) as char
    else if v < 62 then ('0' as int + (v - 52)) as char
    else if v == 62 then '+'
    else '/'
  }

  /** The value of an alphabet character, or -1 for any other character (the padding '=' included). */
  function DecodeDigit(c: char): (v: int)
    ensures -1 <= v < 64
    ensures c == '=' ==> v == -1
  {
    if 'A' <= c <= 'Z' then c as int - 'A' as int
    else if 'a' <= c <= 'z' then c as int - 'a' as int + 26
    else if '0' <= c <= '9' then c as int - '0' as int + 52
    else if c == '+' then 62
    else if c == '/' then 63
    else -1
  }

  /** Three bytes as four 6-bit digits, most significant bits first. */
  function EncodeBlock(b0: int, b1: int, b2: int): (r: string)
    requires 0 <= b0 < 256 && 0 <= b1 < 256 && 0 <= b2 < 256
    ensures |r| == 4
  {
    [EncodeDigit(b0 / 4), EncodeDigit((b0 % 4) * 16 + b1 / 16), EncodeDigit((b1 % 16) * 4 + b2 / 64), EncodeDigit(b2 % 64)]
  }

  /** Four 6-bit digits as three bytes. */
  function DecodeBlock(d0: int, d1: int, d2: int, d3: int): (r: string)
    requires 0 <= d0 < 64 && 0 <= d1 < 64 && 0 <= d2 < 64 && 0 <= d3 < 64
    ensures |r| == 3 && IsBytes(r)
  {
    [(d0 * 4 + d1 / 16) as char, ((d1 % 16) * 16 + d2 / 4) as char, ((d2 % 4) * 64 + d3) as char]
  }

  /** QByteArray::toBase64: every three bytes become four characters; a final group of one or two
      bytes is padded with '='. */
  function Encode(s: string): (r: string)
    requires IsBytes(s)
    ensures |r| % 4 == 0 && (|r| == 0 <==> |s| == 0)
    ensures |s| <= 3 ==> |r| <= 4
    decreases |s|
  {
    if |s| == 0 then []
    else if |s| == 1 then EncodeBlock(s[0] as int, 0, 0)[..2] + "=="
    else if |s| == 2 then EncodeBlock(s[0] as int, s[1] as int, 0)[..3] + "="
    else EncodeBlock(s[0] as int, s[1] as int, s[2] as int) + Encode(s[3..])
  }

  /** Base64 decoding of an unbroken string: groups of four alphabet characters, the last group
      possibly ending in "=" or "=="; anything else is rejected. */
  function Decode(s: string): (r: Option<string>)
    ensures r.Some? ==> IsBytes(r.value)
    decreases |s|
  {
    if |s| == 0 then Some([])
    else if |s| < 4 then None
    else
      var d0, d1, d2, d3 := DecodeDigit(s[0]), DecodeDigit(s[1]), DecodeDigit(s[2]), DecodeDigit(s[3]);
      if d0 < 0 || d1 < 0 then None
      else if |s| == 4 && s[2] == '=' && s[3] == '=' then Some(DecodeBlock(d0, d1, 0, 0)[..1])
      else if |s| == 4 && d2 >= 0 && s[3] == '=' then Some(DecodeBlock(d0, d1, d2, 0)[..2])
      else if d2 < 0 || d3 < 0 then None
      else
        match Decode(s[4..])
        case None => None
        case Some(rest) => Some(DecodeBlock(d0, d1, d2, d3) + rest)
  }

  /** Splitting three bytes into digits and joining them again gives the bytes back. */
  lemma {:induction false} BlockRoundTrip(b0: int, b1: int, b2: int)
    requires 0 <= b0 < 256 && 0 <= b1 < 256 && 0 <= b2 < 256
    ensures DecodeBlock(b0 / 4, (b0 % 4) * 16 + b1 / 16, (b1 % 16) * 4 + b2 / 64, b2 % 64)
            == [b0 as char, b1 as char, b2 as char]
  {
    var d1 := (b0 % 4) * 16 + b1 / 16;
    var d2 := (b1 % 16) * 4 + b2 / 64;
    assert d1 / 16 == b0 % 4 && d1 % 16 == b1 / 16;
    assert d2 / 4 == b1 % 16 && d2 % 4 == b2 / 64;
  }

  /** Decoding undoes encoding. */
  lemma {:induction false} RoundTrip(s: string)
    requires IsBytes(s)
    ensures Decode(Encode(s)) == Some(s)
    decreases |s|
  {
    if |s| == 1 {
      RoundTripOne(s);
    } else if |s| == 2 {
      RoundTripTwo(s);
    } else if |s| == 3 {
      RoundTripThree(s);
    } else if |s| > 3 {
      RoundTrip(s[3..]);
      RoundTripStep(s);
    }
  }

  lemma {:induction false} RoundTripOne(s: string)
    requires IsBytes(s) && |s| == 1
    ensures Decode(Encode(s)) == Some(s)
  {
    var b0 := s[0] as int;
    assert Encode(s) == EncodeBlock(b0, 0, 0)[..2] + "==";
    DecodeOne(b0);
    assert [b0 as char] == s;
  }

  lemma {:induction false} DecodeOne(b0: int)
    requires 0 <= b0 < 256
    ensures Decode(EncodeBlock(b0, 0, 0)[..2] + "==") == Some([b0 as char])
  {
    var e := EncodeBlock(b0, 0, 0)[..2] + "==";
    BlockRoundTrip(b0, 0, 0);
    assert DecodeDigit(e[0]) == b0 / 4;
    assert DecodeDigit(e[1]) == (b0 % 4) * 16;
    assert |e| == 4 && e[2] == '=' && e[3] == '=';
    var blk := DecodeBlock(b0 / 4, (b0 % 4) * 16, 0, 0);
    assert blk[0] == b0 as char;
    assert blk[..1] == [b0 as char];
    assert Decode(e) == Some(blk[..1]);
  }

  lemma {:induction false} RoundTripTwo(s: string)
    requires IsBytes(s) && |s| == 2
    ensures Decode(Encode(s)) == Some(s)
  {
    var b0, b1 := s[0] as int, s[1] as int;
    assert Encode(s) == EncodeBlock(b0, b1, 0)[..3] + "=";
    DecodeTwo(b0, b1);
    assert [b0 as char, b1 as char] == s;
  }

  lemma {:induction false} DecodeTwo(b0: int, b1: int)
    requires 0 <= b0 < 256 && 0 <= b1 < 256
    ensures Decode(EncodeBlock(b0, b1, 0)[..3] + "=") == Some([b0 as char, b1 as char])
  {
    var e := EncodeBlock(b0, b1, 0)[..3] + "=";
    BlockRoundTrip(b0, b1, 0);
    assert DecodeDigit(e[0]) == b0 / 4;
    assert DecodeDigit(e[1]) == (b0 % 4) * 16 + b1 / 16;
    assert DecodeDigit(e[2]) == (b1 % 16) * 4;
    assert |e| == 4 && e[2] != '=' && e[3] == '=';
    var blk := DecodeBlock(b0 / 4, (b0 % 4) * 16 + b1 / 16, (b1 % 16) * 4, 0);
    assert blk[0] == b0 as char && blk[1] == b1 as char;
    assert blk[..2] == [b0 as char, b1 as char];
    assert Decode(e) == Some(DecodeBlock(b0 / 4, (b0 % 4) * 16 + b1 / 16, (b1 % 16) * 4, 0)[..2]);
  }

  lemma {:induction false} RoundTripThree(s: string)
    requires IsBytes(s) && |s| == 3
    ensures Decode(Encode(s)) == Some(s)
  {
    var b0, b1, b2 := s[0] as int, s[1] as int, s[2] as int;
    assert Encode(s[3..]) == [];
    assert Encode(s) == EncodeBlock(b0, b1, b2);
    DecodeLast(b0, b1, b2);
    assert [b0 as char, b1 as char, b2 as char] == s;
  }

  lemma {:induction false} DecodeLast(b0: int, b1: int, b2: int)
    requires 0 <= b0 < 256 && 0 <= b1 < 256 && 0 <= b2 < 256
    ensures Decode(EncodeBlock(b0, b1, b2)) == Some([b0 as char, b1 as char, b2 as char])
  {
    var e := EncodeBlock(b0, b1, b2);
    BlockRoundTrip(b0, b1, b2);
    var d0, d1, d2, d3 := DecodeDigit(e[0]), DecodeDigit(e[1]), DecodeDigit(e[2]), DecodeDigit(e[3]);
    assert d0 == b0 / 4 && d1 == (b0 % 4) * 16 + b1 / 16;
    assert d2 == (b1 % 16) * 4 + b2 / 64 && d3 == b2 % 64;
    assert e[4..] == [];
    assert Decode(e) == Some(DecodeBlock(d0, d1, d2, d3) + []);
    assert DecodeBlock(d0, d1, d2, d3) + [] == [b0 as char, b1 as char, b2 as char];
  }

  lemma {:induction false} RoundTripStep(s: string)
    requires IsBytes(s) && |s| > 3
    requires Decode(Encode(s[3..])) == Some(s[3..])
    ensures Decode(Encode(s)) == Some(s)
  {
    var b0, b1, b2 := s[0] as int, s[1] as int, s[2] as int;
    var rest := Encode(s[3..]);
    var e := EncodeBlock(b0, b1, b2) + rest;
    assert Encode(s) == e;
    assert |rest| % 4 == 0 && |rest| > 0;
    DecodeStep(b0, b1, b2, rest, s[3..]);
    SplitFirstThree(s);
  }

  lemma {:induction false} SplitFirstThree(s: string)
    requires |s| >= 3 && IsBytes(s)
    ensures [(s[0] as int) as char, (s[1] as int) as char, (s[2] as int) as char] + s[3..] == s
  {
    assert s == s[..3] + s[3..];
  }

  lemma {:induction false} DecodeStep(b0: int, b1: int, b2: int, rest: string, decoded: string)
    requires 0 <= b0 < 256 && 0 <= b1 < 256 && 0 <= b2 < 256
    requires Decode(rest) == Some(decoded) && |rest| % 4 == 0 && |rest| > 0
    ensures Decode(EncodeBlock(b0, b1, b2) + rest) == Some([b0 as char, b1 as char, b2 as char] + decoded)
  {
    var e := EncodeBlock(b0, b1, b2) + rest;
    BlockRoundTrip(b0, b1, b2);
    var d0, d1, d2, d3 := DecodeDigit(e[0]), DecodeDigit(e[1]), DecodeDigit(e[2]), DecodeDigit(e[3]);
    assert d0 == b0 / 4 && d1 == (b0 % 4) * 16 + b1 / 16;
    assert d2 == (b1 % 16) * 4 + b2 / 64 && d3 == b2 % 64;
    assert e[4..] == rest && |e| > 4;
    assert Decode(e) == Some(DecodeBlock(d0, d1, d2, d3) + decoded);
  }

  /** Every started group of three bytes becomes four characters. */
  lemma {:induction false} EncodedLength(s: string)
    requires IsBytes(s)
    ensures |Encode(s)| == (|s| + 2) / 3 * 4
    decreases |s|
  {
    var n := |s|;
    if n > 3 {
      EncodedLength(s[3..]);
      assert |Encode(s)| == 4 + |Encode(s[3..])|;
      assert (n + 2) / 3 == (n - 1) / 3 + 1;
    } else if n == 3 {
      assert Encode(s) == EncodeBlock(s[0] as int, s[1] as int, s[2] as int) + Encode(s[3..]);
    }
  }
}

=== FILE: decryption_session.dfy ===
/** What the two decryption helpers share: the progress of a decryption, the effects a helper asks
    of its environment, and the reads a helper makes through the message model. */
module DecryptionSession {
  import opened Wrappers
  import opened Text
  import opened ItemRoles
  import opened SourceModel
  import opened MessagePart
  import opened MessageModel

  /** What a helper last did: nothing yet, wait for data, hand a ciphertext to the crypto library,
      hand decrypted parts over, or report a failure. With several decryptions running, a finish
      sets this whatever the helper is waiting for. */
  datatype Phase = Idle | AwaitingData | Decrypting | Emitted | Failed

  /** What a helper asks of its environment. `RequestPayload` is a read of the part data that makes
      the remote model fetch it; `DecryptionFailed` and `DataDecrypted` are the helper's signals;
      `StartDecrypt` hands input to the crypto library; `LoadKeyBundle` starts loading a key file. */
  datatype Effect =
    | RequestPayload(index: Index)
    | DecryptionFailed(message: string)
    | StartDecrypt(input: string)
    | DataDecrypted(container: Index, parts: seq<Handle>)
    | LoadKeyBundle(path: string)

  /** The index is invalid or points at a live part. */
  predicate IndexIn(m: Model, idx: Index) {
    idx.Valid? ==> idx.part in m.arena.nodes
  }

  /** QModelIndex::child: the model's index below a valid index, the invalid index below an invalid
      one. */
  function ChildOf(m: Model, idx: Index, row: nat, column: int): (r: Index)
    requires ModelWf(m) && IndexIn(m, idx)
    requires column == OFFSET_RAW_CONTENTS ==> row == 0
    requires column != OFFSET_RAW_CONTENTS ==> column == 0
    ensures IndexIn(m, r)
    ensures idx.Invalid? ==> r.Invalid?
    ensures idx.Valid? ==> (r.Valid? <==> Child(m.arena, idx.part, row, column).Some?)
    ensures r.Valid? ==> Some(r.part) == Child(m.arena, idx.part, row, column)
  {
    if idx.Invalid? then Invalid else IndexOf(m, row, column, idx)
  }

  /** RoleIsFetched read through the model; an invalid index answers an empty value, read as false. */
  function Fetched(m: Model, t: SourceTree, idx: Index): (b: bool)
    requires ModelWf(m) && IndexIn(m, idx)
    ensures b ==> idx.Valid?
  {
    idx.Valid? && ToBool(ModelData(m, t, idx, RoleIsFetched))
  }

  /** RolePartData read through the model as bytes. */
  function Payload(m: Model, t: SourceTree, idx: Index): string
    requires ModelWf(m) && IndexIn(m, idx)
  {
    if idx.Invalid? then [] else ToBytes(ModelData(m, t, idx, RolePartData))
  }
}

=== FILE: factory_properties.dfy ===
/** The proxy tree built by the factory mirrors the remote structure: same shape, one proxy per
    remote part and per raw-contents part, and a NONE placeholder in place of every encrypted part. */
module FactoryProperties {
  import opened Wrappers
  import opened ItemRoles
  import opened SourceModel
  import opened MessagePart
  import opened MessageModel
  import opened MessagePartFactory

  /** The raw-contents slot of the proxy `h` mirrors the remote part: present exactly when the remote
      part has raw contents, and then a childless proxy of the raw index, below `h`. */
  predicate RawMirrors(a: Arena, h: Handle, src: SourceIndex, node: SourcePart)
    requires h in a.nodes
  {
    var raw := a.nodes[h].raw;
    (raw.Some? <==> node.raw.Some?)
    && (raw.Some? ==> h < raw.value && raw.value in a.nodes
                      && a.nodes[raw.value] == Node(Some(h), [], None, 0, Proxy(src + [RawStep])))
  }

  /** The part `h` is a proxy of `src`, whose remote part is `node`, and its children and raw part
      mirror those of `node`. */
  predicate Mirrors(a: Arena, t: SourceTree, h: Handle, src: SourceIndex, node: SourcePart)
    decreases node, 1
  {
    h in a.nodes && a.nodes[h].kind == Proxy(src)
    && RawMirrors(a, h, src, node)
    && ChildrenMirror(a, t, h, src, node)
  }

  /** The children of `h` stand for the children of `node`, one for one and in order. */
  predicate ChildrenMirror(a: Arena, t: SourceTree, h: Handle, src: SourceIndex, node: SourcePart)
    decreases node, 0
  {
    h in a.nodes
    && |a.nodes[h].children| == |node.children|
    && forall i | 0 <= i < |node.children| :: ChildMirrors(a, t, h, i, src + [ChildStep(i)], node.children[i])
  }

  /** Child `i` of `dest` stands for the remote part `cnode` at `csrc`: a mirroring proxy, or, for an
      encrypted type, a fresh placeholder of that type whose raw part is the mirroring proxy. The
      proxy inside a placeholder keeps `dest` as its parent and row 0. */
  predicate ChildMirrors(a: Arena, t: SourceTree, dest: Handle, i: nat, csrc: SourceIndex, cnode: SourcePart)
    decreases cnode, 2
  {
    dest in a.nodes && i < |a.nodes[dest].children|
    && var c := a.nodes[dest].children[i];
       dest < c && c in a.nodes && a.nodes[c].parent == Some(dest) && a.nodes[c].row == i
       && var mime := ToBytes(Lookup(cnode, RolePartMimeType));
          if !IsEncryptedType(mime) then Mirrors(a, t, c, csrc, cnode)
          else
            a.nodes[c].kind == Local(NewLocalFields(mime)) && a.nodes[c].children == []
            && a.nodes[c].raw.Some? && dest < a.nodes[c].raw.value && a.nodes[c].raw.value in a.nodes
            && a.nodes[a.nodes[c].raw.value].parent == Some(dest) && a.nodes[a.nodes[c].raw.value].row == 0
            && Mirrors(a, t, a.nodes[c].raw.value, csrc, cnode)
  }

  /** Parts above `h` in handle order may change freely; `h` itself keeps its kind, raw part and
      children. Then `h` still mirrors its remote part. */
  lemma {:induction false} MirrorsFrame(a: Arena, b: Arena, t: SourceTree, h: Handle, src: SourceIndex, node: SourcePart)
    requires Mirrors(a, t, h, src, node)
    requires forall x | x in a.nodes && x > h :: x in b.nodes && b.nodes[x] == a.nodes[x]
    requires h in b.nodes && b.nodes[h].kind == a.nodes[h].kind && b.nodes[h].raw == a.nodes[h].raw
    requires b.nodes[h].children == a.nodes[h].children
    ensures Mirrors(b, t, h, src, node)
    decreases node, 1
  {
    ChildrenMirrorFrame(a, b, t, h, src, node);
  }

  lemma {:induction false} ChildrenMirrorFrame(a: Arena, b: Arena, t: SourceTree, h: Handle, src: SourceIndex, node: SourcePart)
    requires ChildrenMirror(a, t, h, src, node)
    requires forall x | x in a.nodes && x > h :: x in b.nodes && b.nodes[x] == a.nodes[x]
    requires h in b.nodes && b.nodes[h].children == a.nodes[h].children
    ensures ChildrenMirror(b, t, h, src, node)
    decreases node, 0
  {
    forall i | 0 <= i < |node.children|
      ensures ChildMirrors(b, t, h, i, src + [ChildStep(i)], node.children[i])
    {
      ChildMirrorsFrame(a, b, t, h, i, src + [ChildStep(i)], node.children[i]);
    }
  }

  lemma {:induction false} ChildMirrorsFrame(a: Arena, b: Arena, t: SourceTree, dest: Handle, i: nat, csrc: SourceIndex, cnode: SourcePart)
    requires ChildMirrors(a, t, dest, i, csrc, cnode)
    requires forall x | x in a.nodes && x > dest :: x in b.nodes && b.nodes[x] == a.nodes[x]
    requires dest in b.nodes && i < |b.nodes[dest].children| && b.nodes[dest].children[i] == a.nodes[dest].children[i]
    ensures ChildMirrors(b, t, dest, i, csrc, cnode)
    decreases cnode, 2
  {
    var c := a.nodes[dest].children[i];
    var mime := ToBytes(Lookup(cnode, RolePartMimeType));
    if !IsEncryptedType(mime) {
      MirrorsFrame(a, b, t, c, csrc, cnode);
    } else {
      MirrorsFrame(a, b, t, a.nodes[c].raw.value, csrc, cnode);
    }
  }

  /** Building below `dest` leaves every older part above `dest` and the first `keep` children of
      `dest` as they were. */
  lemma {:induction false} FrameAbove(m: Model, r: Model, dest: Handle, keep: nat)
    requires dest in m.arena.nodes && keep <= |m.arena.nodes[dest].children|
    requires Wf(m.arena) && BuildFrame(m, r, dest, keep, m.arena.next)
    ensures forall x | x in m.arena.nodes && x > dest :: x in r.arena.nodes && r.arena.nodes[x] == m.arena.nodes[x]
    ensures dest in r.arena.nodes && keep <= |r.arena.nodes[dest].children|
    ensures forall j | 0 <= j < keep :: r.arena.nodes[dest].children[j] == m.arena.nodes[dest].children[j]
  {
    forall x | x in m.arena.nodes && x > dest
      ensures x in r.arena.nodes && r.arena.nodes[x] == m.arena.nodes[x]
    {
      assert NodeWf(m.arena, x);
    }
    forall j | 0 <= j < keep
      ensures r.arena.nodes[dest].children[j] == m.arena.nodes[dest].children[j]
    {
      assert r.arena.nodes[dest].children[..keep][j] == m.arena.nodes[dest].children[..keep][j];
    }
  }

  /** The first `n` children of `dest` stand for the first `n` children of `node`. */
  predicate PrefixMirrors(a: Arena, t: SourceTree, dest: Handle, src: SourceIndex, node: SourcePart, n: nat)
    requires n <= |node.children|
  {
    forall j | 0 <= j < n :: ChildMirrors(a, t, dest, j, src + [ChildStep(j)], node.children[j])
  }

  /** One unfolding of buildProxyTree's loop. */
  lemma {:induction false} MirrorChildrenUnfold(m: Model, t: SourceTree, src: SourceIndex, node: SourcePart, dest: Handle, i: nat)
    requires ModelWf(m) && Resolve(t.message, src) == Some(node)
    requires dest in m.arena.nodes && i <= |node.children| && ChildCount(m.arena, dest) == i
    ensures i == |node.children| ==> MirrorChildren(m, t, src, node, dest, i) == m
    ensures i < |node.children| ==>
              ChildIndex(t, src, i, 0) == Some(src + [ChildStep(i)])
              && Resolve(t.message, src + [ChildStep(i)]) == Some(node.children[i])
              && var m1 := MirrorOne(m, t, src + [ChildStep(i)], node.children[i], dest, i);
                 MirrorChildren(m, t, src, node, dest, i) == MirrorChildren(m1, t, src, node, dest, i + 1)
  {
    if i < |node.children| {
      ChildIndexResolves(t, src, i, 0);
      assert MirrorChildren(m, t, src, node, dest, i) == MirrorNext(m, t, src, node, dest, i, src + [ChildStep(i)]);
    }
  }

  /** buildProxyTree from child `i` on completes the mirror of `node` below `dest`. */
  lemma {:induction false} MirrorChildrenMirrors(m: Model, t: SourceTree, src: SourceIndex, node: SourcePart, dest: Handle, i: nat)
    requires ModelWf(m) && Resolve(t.message, src) == Some(node)
    requires dest in m.arena.nodes && i <= |node.children| && ChildCount(m.arena, dest) == i
    requires PrefixMirrors(m.arena, t, dest, src, node, i)
    ensures PrefixMirrors(MirrorChildren(m, t, src, node, dest, i).arena, t, dest, src, node, |node.children|)
    decreases node, |node.children| - i
  {
    MirrorChildrenUnfold(m, t, src, node, dest, i);
    if i < |node.children| {
      var childSrc := src + [ChildStep(i)];
      ChildIndexResolves(t, src, i, 0);
      var m1 := MirrorOne(m, t, childSrc, node.children[i], dest, i);
      MirrorOneMirrors(m, t, childSrc, node.children[i], dest, i);
      FrameAbove(m, m1, dest, i);
      PrefixFrame(m.arena, m1.arena, t, dest, src, node, i);
      MirrorChildrenMirrors(m1, t, src, node, dest, i + 1);
    }
  }

  lemma {:induction false} PrefixFrame(a: Arena, b: Arena, t: SourceTree, dest: Handle, src: SourceIndex, node: SourcePart, i: nat)
    requires i < |node.children| && dest in a.nodes && i <= |a.nodes[dest].children|
    requires PrefixMirrors(a, t, dest, src, node, i)
    requires ChildMirrors(b, t, dest, i, src + [ChildStep(i)], node.children[i])
    requires forall x | x in a.nodes && x > dest :: x in b.nodes && b.nodes[x] == a.nodes[x]
    requires dest in b.nodes && i <= |b.nodes[dest].children|
    requires forall j | 0 <= j < i :: b.nodes[dest].children[j] == a.nodes[dest].children[j]
    ensures PrefixMirrors(b, t, dest, src, node, i + 1)
  {
    forall j | 0 <= j < i
      ensures ChildMirrors(b, t, dest, j, src + [ChildStep(j)], node.children[j])
    {
      ChildMirrorsFrame(a, b, t, dest, j, src + [ChildStep(j)], node.children[j]);
    }
  }

  /** One iteration of buildProxyTree's loop leaves child `i` of `dest` mirroring the remote child. */
  lemma {:induction false} MirrorOneMirrors(m: Model, t: SourceTree, childSrc: SourceIndex, child: SourcePart, dest: Handle, i: nat)
    requires ModelWf(m) && Resolve(t.message, childSrc) == Some(child)
    requires dest in m.arena.nodes && ChildCount(m.arena, dest) == i
    ensures ChildMirrors(MirrorOne(m, t, childSrc, child, dest, i).arena, t, dest, i, childSrc, child)
    decreases child, |child.children| + 2
  {
    var (m3, part) := BuildProxy(m, t, childSrc, child, dest);
    BuildProxyMirrors(m, t, childSrc, child, dest);
    var mime := ToBytes(SourceData(t, childSrc, RolePartMimeType));
    assert mime == ToBytes(Lookup(child, RolePartMimeType));
    InstallMirrors(m3, t, mime, part, dest, i, childSrc, child);
  }

  /** Installing a mirroring proxy (or its placeholder) as child `i` of `dest`. */
  lemma {:induction false} InstallMirrors(m: Model, t: SourceTree, mime: string, part: Handle, dest: Handle, i: nat, src: SourceIndex, node: SourcePart)
    requires ModelWf(m) && part in m.arena.nodes && dest in m.arena.nodes && dest < part
    requires ChildCount(m.arena, dest) == i
    requires mime == ToBytes(Lookup(node, RolePartMimeType))
    requires Mirrors(m.arena, t, part, src, node) && m.arena.nodes[part].parent == Some(dest) && m.arena.nodes[part].row == 0
    ensures ChildMirrors(Install(m, mime, part, dest, i).arena, t, dest, i, src, node)
  {
    var r := Install(m, mime, part, dest, i);
    if !IsEncryptedType(mime) {
      assert r == AttachPart(m, part, dest, i);
      assert r.arena == SetChild(m.arena, dest, i, part);
    } else {
      assert r == InstallPlaceholder(m, mime, part, dest, i);
      var (a1, dummy) := Alloc(m.arena, Some(dest), Local(NewLocalFields(mime)));
      var a2 := SetRawPart(a1, dummy, part);
      assert r.arena == SetChild(a2, dest, i, dummy);
    }
    MirrorsFrame(m.arena, r.arena, t, part, src, node);
  }

  /** The proxy built for a remote part mirrors it. */
  lemma {:induction false} BuildProxyMirrors(m: Model, t: SourceTree, childSrc: SourceIndex, child: SourcePart, dest: Handle)
    requires ModelWf(m) && Resolve(t.message, childSrc) == Some(child)
    requires dest in m.arena.nodes
    ensures var (r, part) := BuildProxy(m, t, childSrc, child, dest);
            Mirrors(r.arena, t, part, childSrc, child) && r.arena.nodes[part].row == 0
            && r.arena.nodes[part].parent == Some(dest)
    decreases child, |child.children| + 1
  {
    var (m1, part) := NewProxy(m, Some(dest), childSrc);
    var m2 := MirrorChildren(m1, t, childSrc, child, part, 0);
    MirrorChildrenMirrors(m1, t, childSrc, child, part, 0);
    assert ChildrenMirror(m2.arena, t, part, childSrc, child);
    var m3 := AttachRawProxy(m2, t, childSrc, part);
    ChildrenMirrorFrame(m2.arena, m3.arena, t, part, childSrc, child);
    RawProxyMirrors(m2, t, childSrc, child, part);
  }

  /** The raw-contents proxy attached to a fresh proxy mirrors the remote raw contents. */
  lemma {:induction false} RawProxyMirrors(m: Model, t: SourceTree, src: SourceIndex, node: SourcePart, part: Handle)
    requires ModelWf(m) && Resolve(t.message, src) == Some(node)
    requires part in m.arena.nodes && m.arena.nodes[part].raw.None?
    ensures RawMirrors(AttachRawProxy(m, t, src, part).arena, part, src, node)
  {
    if node.raw.Some? {
      ChildIndexResolves(t, src, 0, OFFSET_RAW_CONTENTS);
    }
  }

  /** The model built for a message whose own type is not encrypted has a parentless proxy of the
      message as its root, whose children mirror the message's parts. */
  lemma {:induction false} BuildMessageTreeMirrors(m: Model, t: SourceTree)
    requires ModelWf(m) && m.root.None?
    requires !IsEncryptedType(ToBytes(SourceData(t, [], RolePartMimeType)))
    ensures var r := BuildMessageTree(m, t);
            r.root.Some? && r.root.value in r.arena.nodes && r.arena.nodes[r.root.value].parent.None?
            && r.arena.nodes[r.root.value].kind == Proxy([])
            && ChildrenMirror(r.arena, t, r.root.value, [], t.message)
  {
    var (m1, root) := NewProxy(m, None, []);
    var m2 := MirrorChildren(m1, t, [], t.message, root, 0);
    MirrorChildrenMirrors(m1, t, [], t.message, root, 0);
  }

  /** The remote part reached from `p` by following child rows. */
  function SourceWalk(p: SourcePart, rows: seq<nat>): Option<SourcePart>
    decreases |rows|
  {
    if rows == [] then Some(p)
    else if rows[0] < |p.children| then SourceWalk(p.children[rows[0]], rows[1..])
    else None
  }

  /** The source index steps of a path of child rows. */
  function RowSteps(rows: seq<nat>): (r: SourceIndex)
    ensures |r| == |rows|
    decreases |rows|
  {
    if rows == [] then [] else [ChildStep(rows[0])] + RowSteps(rows[1..])
  }

  /** The part reached from `h` by asking for child (row, 0) row after row, as MessageModel::index
      does. */
  function PartWalk(a: Arena, h: Handle, rows: seq<nat>): Option<Handle>
    requires Wf(a) && h in a.nodes
    decreases |rows|
  {
    if rows == [] then Some(h)
    else match Child(a, h, rows[0], 0)
      case None => None
      case Some(c) => PartWalk(a, c, rows[1..])
  }

  /** No remote part along the path below `p` has an encrypted type, so no placeholder interrupts
      the mirror. */
  predicate PlainPath(p: SourcePart, rows: seq<nat>)
    decreases |rows|
  {
    rows != [] && rows[0] < |p.children| ==>
      !IsEncryptedType(ToBytes(Lookup(p.children[rows[0]], RolePartMimeType)))
      && PlainPath(p.children[rows[0]], rows[1..])
  }

  /** Following the same rows in the mirror as in the remote structure reaches a proxy of the same
      remote part, which answers every role as that part does. */
  lemma {:induction false} MirrorWalk(a: Arena, t: SourceTree, h: Handle, src: SourceIndex, node: SourcePart,
                                      rows: seq<nat>, role: Role)
    requires Wf(a) && h in a.nodes && a.nodes[h].kind == Proxy(src)
    requires ChildrenMirror(a, t, h, src, node) && Resolve(t.message, src) == Some(node)
    requires SourceWalk(node, rows).Some? && PlainPath(node, rows)
    ensures var r := PartWalk(a, h, rows);
            r.Some? && r.value in a.nodes && a.nodes[r.value].kind == Proxy(src + RowSteps(rows))
            && Resolve(t.message, src + RowSteps(rows)) == SourceWalk(node, rows)
            && Data(a, t, r.value, role) == Lookup(SourceWalk(node, rows).value, role)
  {
    MirrorReach(a, t, h, src, node, rows);
    var r := PartWalk(a, h, rows);
    assert Data(a, t, r.value, role) == SourceData(t, src + RowSteps(rows), role);
  }

  /** The part reached by MirrorWalk and the remote part it stands for. */
  lemma {:induction false} MirrorReach(a: Arena, t: SourceTree, h: Handle, src: SourceIndex, node: SourcePart,
                                       rows: seq<nat>)
    requires Wf(a) && h in a.nodes && a.nodes[h].kind == Proxy(src)
    requires ChildrenMirror(a, t, h, src, node) && Resolve(t.message, src) == Some(node)
    requires SourceWalk(node, rows).Some? && PlainPath(node, rows)
    ensures var r := PartWalk(a, h, rows);
            r.Some? && r.value in a.nodes && a.nodes[r.value].kind == Proxy(src + RowSteps(rows))
            && Resolve(t.message, src + RowSteps(rows)) == SourceWalk(node, rows)
    decreases |rows|
  {
    if rows == [] {
      assert src + RowSteps(rows) == src;
    } else {
      var c := WalkStep(a, t, h, src, node, rows);
      MirrorReach(a, t, c, src + [ChildStep(rows[0])], node.children[rows[0]], rows[1..]);
    }
  }

  /** The first row of a walk: the child it reaches, and the rest of the walk from there. */
  lemma {:induction false} WalkStep(a: Arena, t: SourceTree, h: Handle, src: SourceIndex, node: SourcePart,
                                    rows: seq<nat>) returns (c: Handle)
    requires Wf(a) && h in a.nodes
    requires ChildrenMirror(a, t, h, src, node) && Resolve(t.message, src) == Some(node)
    requires SourceWalk(node, rows).Some? && PlainPath(node, rows) && rows != []
    ensures rows[0] < |node.children| && c in a.nodes && a.nodes[c].kind == Proxy(src + [ChildStep(rows[0])])
    ensures ChildrenMirror(a, t, c, src + [ChildStep(rows[0])], node.children[rows[0]])
    ensures Resolve(t.message, src + [ChildStep(rows[0])]) == Some(node.children[rows[0]])
    ensures PartWalk(a, h, rows) == PartWalk(a, c, rows[1..])
    ensures SourceWalk(node, rows) == SourceWalk(node.children[rows[0]], rows[1..])
    ensures PlainPath(node.children[rows[0]], rows[1..])
    ensures src + RowSteps(rows) == src + [ChildStep(rows[0])] + RowSteps(rows[1..])
  {
    SourceWalkStep(node, rows);
    var i := rows[0];
    MirrorStep(a, t, h, src, node, i);
    c := a.nodes[h].children[i];
    PartWalkStep(a, h, rows, c);
    RowStepsStep(src, rows);
  }

  lemma {:induction false} SourceWalkStep(node: SourcePart, rows: seq<nat>)
    requires SourceWalk(node, rows).Some? && PlainPath(node, rows) && rows != []
    ensures rows[0] < |node.children| && !IsEncryptedType(ToBytes(Lookup(node.children[rows[0]], RolePartMimeType)))
    ensures SourceWalk(node, rows) == SourceWalk(node.children[rows[0]], rows[1..])
    ensures PlainPath(node.children[rows[0]], rows[1..])
  {
  }

  lemma {:induction false} PartWalkStep(a: Arena, h: Handle, rows: seq<nat>, c: Handle)
    requires Wf(a) && h in a.nodes && rows != [] && Child(a, h, rows[0], 0) == Some(c)
    ensures PartWalk(a, h, rows) == PartWalk(a, c, rows[1..])
  {
  }

  lemma {:induction false} RowStepsStep(src: SourceIndex, rows: seq<nat>)
    requires rows != []
    ensures src + RowSteps(rows) == src + [ChildStep(rows[0])] + RowSteps(rows[1..])
  {
  }

  /** One step of MirrorWalk: child `i` of a mirroring proxy is again a mirroring proxy. */
  lemma {:induction false} MirrorStep(a: Arena, t: SourceTree, h: Handle, src: SourceIndex, node: SourcePart, i: nat)
    requires Wf(a) && h in a.nodes
    requires ChildrenMirror(a, t, h, src, node) && Resolve(t.message, src) == Some(node)
    requires i < |node.children| && !IsEncryptedType(ToBytes(Lookup(node.children[i], RolePartMimeType)))
    ensures i < |a.nodes[h].children| && Child(a, h, i, 0) == Some(a.nodes[h].children[i])
    ensures var c := a.nodes[h].children[i];
            c in a.nodes && a.nodes[c].kind == Proxy(src + [ChildStep(i)])
            && ChildrenMirror(a, t, c, src + [ChildStep(i)], node.children[i])
            && Resolve(t.message, src + [ChildStep(i)]) == Some(node.children[i])
  {
    assert ChildMirrors(a, t, h, i, src + [ChildStep(i)], node.children[i]);
    var c := a.nodes[h].children[i];
    assert Mirrors(a, t, c, src + [ChildStep(i)], node.children[i]);
    assert ChildrenMirror(a, t, c, src + [ChildStep(i)], node.children[i]);
    ResolveAppend(t.message, src, ChildStep(i));
  }
}

=== FILE: imap_message.dfy ===
/** Address and envelope records handed from the MIME adapter to the part tree
    (Imap::Message::MailAddress and Imap::Message::Envelope). */
module ImapMessage {

  /** One mailbox: display name, source route, local part and host. */
  datatype MailAddress = MailAddress(name: string, adl: string, mailbox: string, host: string)

  /** Envelope of an embedded message/rfc822 part. The date is kept as the header's text:
      its parsing into a timestamp is done by a library this model does not cover. */
  datatype Envelope = Envelope(
    date: string,
    subject: string,
    from: seq<MailAddress>,
    sender: seq<MailAddress>,
    replyTo: seq<MailAddress>,
    to: seq<MailAddress>,
    cc: seq<MailAddress>,
    bcc: seq<MailAddress>,
    inReplyTo: seq<string>,
    messageId: string)
}

=== FILE: item_roles.dfy ===
/** The closed set of data roles a part answers (Imap::Mailbox::ItemRoles plus the Qt display roles
    the part tree implements) and the values those queries return (QVariant). */
module ItemRoles {
  import opened ImapMessage
  import opened Text

  datatype Role =
    | RoleIsFetched
    | RoleIsUnavailable
    | RolePartData
    | RolePartUnicodeText
    | RolePartMimeType
    | RolePartCharset
    | RolePartContentFormat
    | RolePartContentDelSp
    | RolePartEncoding
    | RolePartBodyFldId
    | RolePartBodyDisposition
    | RolePartFileName
    | RolePartOctets
    | RolePartId
    | RolePartPathToPart
    | RolePartMultipartRelatedMainCid
    | RolePartIsTopLevelMultipart
    | RolePartForceFetchFromCache
    | RolePartBufferPtr
    | RoleMessageEnvelope
    | RoleMessageHeaderReferences
    | RoleMessageHeaderListPost
    | RoleMessageHeaderListPostNo
    | RolePartMessageIndex
    | RoleMessageUid
    | RoleMailboxName
    | RoleMailboxUidValidity
    | RoleMessageMessageId
    | DisplayRole
    | ToolTipRole
    | FontRole
    | OtherRole(code: int)
  {
    /** The roles only a message/rfc822 part answers. */
    predicate IsRfc822Role() {
      this in {RoleMessageEnvelope, RoleMessageHeaderReferences, RoleMessageHeaderListPost, RoleMessageHeaderListPostNo}
    }

    /** The roles the message model answers from the message itself, not from a part. */
    predicate IsMessageRole() {
      this in {RolePartMessageIndex, RoleMessageUid, RoleMailboxName, RoleMailboxUidValidity}
    }
  }

  /** A QVariant as far as the core inspects it. */
  datatype Value =
    | Null
    | Bool(b: bool)
    | Bytes(s: string)
    | Number(n: int)
      /** Text of `data` decoded under `charset`; the decoder itself is outside the model. */
    | DecodedText(data: string, charset: string)
    | EnvelopeValue(envelope: Envelope)
    | ByteList(items: seq<string>)
    | UrlList(urls: seq<string>)
    | ItalicFont
      /** The address of the part's own data buffer. */
    | BufferAddress(data: string)
      /** The source index of the message the model displays. */
    | MessageIndexValue

  /** QVariant::toBool for the values the core converts. */
  function ToBool(v: Value): bool {
    match v
    case Bool(b) => b
    case Number(n) => n != 0
    case Bytes(s) => s != "" && s != "0" && ToLower(s) != "false"
    case _ => false
  }

  /** QVariant::toByteArray / toString for the values the core converts; anything else is empty. */
  function ToBytes(v: Value): string {
    match v
    case Bytes(s) => s
    case _ => ""
  }

  /** QVariant::isValid */
  predicate IsValid(v: Value) {
    !v.Null?
  }
}

=== FILE: message_composer.dfy ===
/** Composer::MessageComposer: the pure parts of serialising a composed message. Covered are the
    recipient headers, the message-id headers, the Message-ID and MIME boundary shapes, the CRLF
    fix before signing, the base64 attachment body, and the CATENATE segment list (RFC 4469). Also
    covered are the validation of dropped IMAP messages and parts. Header encoders, date formatting,
    quoted-printable and the UUID source are not described: they appear as strings the caller supplies. */
module MessageComposer {
  import opened Wrappers
  import opened Text
  import Base64

  // ---------------------------------------------------------------------------------------------
  // Recipients

  datatype RecipientKind = ADDRESS_TO | ADDRESS_CC | ADDRESS_BCC | ADDRESS_FROM | ADDRESS_SENDER | ADDRESS_REPLY_TO

  /** A recipient and its address as already rendered by MailAddress::asMailHeader. */
  datatype Recipient = Recipient(kind: RecipientKind, header: string)

  /** writeCommonMessageBeginning asserts that only To, Cc and Bcc recipients occur. */
  predicate OnlyRecipientKinds(rs: seq<Recipient>) {
    forall i | 0 <= i < |rs| :: rs[i].kind in {ADDRESS_TO, ADDRESS_CC, ADDRESS_BCC}
  }

  /** The rendered addresses of the recipients of one kind, in input order. */
  function Select(rs: seq<Recipient>, kind: RecipientKind): (r: seq<string>)
    ensures |r| <= |rs|
    decreases |rs|
  {
    if rs == [] then []
    else Select(rs[..|rs| - 1], kind) + (if rs[|rs| - 1].kind == kind then [rs[|rs| - 1].header] else [])
  }

  const RecipientSeparator := ",\r\n "

  /** processListOfRecipientsIntoHeader as a string: nothing for no addresses, otherwise the prefix,
      the addresses separated by a comma and a folding line break, and a final CRLF. */
  function RecipientList(prefix: string, addresses: seq<string>): (r: string)
    ensures addresses == [] <==> r == []
    ensures addresses != [] ==> StartsWith(r, prefix) && EndsWith(r, "\r\n")
  {
    if addresses == [] then []
    else
      var r := prefix + Join(addresses, RecipientSeparator) + "\r\n";
      assert r[..|prefix|] == prefix;
      r
  }

  /** processListOfRecipientsIntoHeader as written: a loop appending every address but the last
      with the separator, then the last one with CRLF. */
  method WriteRecipientList(prefix: string, addresses: seq<string>) returns (out: string)
    ensures out == RecipientList(prefix, addresses)
  {
    out := [];
    if addresses != [] {
      out := out + prefix;
      var i := 0;
      while i < |addresses| - 1
        invariant 0 <= i <= |addresses| - 1
        invariant i == 0 ==> out == prefix
        invariant i > 0 ==> out == prefix + Join(addresses[..i], RecipientSeparator) + RecipientSeparator
      {
        if i > 0 {
          JoinSnoc(addresses[..i], addresses[i], RecipientSeparator);
        }
        assert addresses[..i + 1] == addresses[..i] + [addresses[i]];
        assert i == 0 ==> addresses[..i + 1] == [addresses[i]];
        out := out + addresses[i] + RecipientSeparator;
        i := i + 1;
      }
      var n := |addresses|;
      if n > 1 {
        JoinSnoc(addresses[..n - 1], addresses[n - 1], RecipientSeparator);
        assert addresses[..n - 1] + [addresses[n - 1]] == addresses;
      }
      out := out + addresses[n - 1] + "\r\n";
    }
  }

  /** The grouping loop of writeCommonMessageBeginning: To and Cc addresses are collected
      separately, each in input order, and Bcc recipients are skipped. */
  method GroupRecipients(rs: seq<Recipient>) returns (to: seq<string>, cc: seq<string>)
    requires OnlyRecipientKinds(rs)
    ensures to == Select(rs, ADDRESS_TO) && cc == Select(rs, ADDRESS_CC)
  {
    to, cc := [], [];
    var i := 0;
    while i < |rs|
      invariant 0 <= i <= |rs|
      invariant to == Select(rs[..i], ADDRESS_TO) && cc == Select(rs[..i], ADDRESS_CC)
    {
      assert rs[..i + 1][..i] == rs[..i];
      if rs[i].kind == ADDRESS_TO {
        to := to + [rs[i].header];
      } else if rs[i].kind == ADDRESS_CC {
        cc := cc + [rs[i].header];
      }
      i := i + 1;
    }
    assert rs[..|rs|] == rs;
  }

  /** The recipient headers of writeCommonMessageBeginning: one To header, then one Cc header, each
      only when it has addresses. */
  function RecipientHeaders(rs: seq<Recipient>): (r: string)
    requires OnlyRecipientKinds(rs)
    ensures r == [] <==> Select(rs, ADDRESS_TO) == [] && Select(rs, ADDRESS_CC) == []
    ensures Select(rs, ADDRESS_TO) != [] ==> StartsWith(r, "To: ")
    ensures Select(rs, ADDRESS_TO) == [] && Select(rs, ADDRESS_CC) != [] ==> StartsWith(r, "Cc: ")
  {
    var to := RecipientList("To: ", Select(rs, ADDRESS_TO));
    var cc := RecipientList("Cc: ", Select(rs, ADDRESS_CC));
    assert (to + cc)[..|to|] == to;
    assert to == [] ==> to + cc == cc;
    to + cc
  }

  // ---------------------------------------------------------------------------------------------
  // Message-id headers

  /** The rest of writeHeaderWithMsgIds from the i-th id on, with `charCount` characters already on
      the current line. A line break is inserted before an id other than the first when the line
      is not empty and the id would take it past 75 characters. */
  function MsgIdTail(ids: seq<string>, i: nat, charCount: int): (r: string)
    requires i <= |ids|
    ensures EndsWith(r, "\r\n")
    decreases |ids| - i
  {
    if i == |ids| then "\r\n"
    else
      var wrap := i != 0 && charCount != 0 && charCount + |ids[i]| > 78 - 3;
      var count := if wrap then 0 else charCount;
      var tail := MsgIdTail(ids, i + 1, count + |ids[i]| + 3);
      var r := (if wrap then "\r\n" else "") + IdItem(ids[i]) + tail;
      assert r[|r| - 2..] == tail[|tail| - 2..];
      r
  }

  /** MessageComposer::writeHeaderWithMsgIds: nothing for no ids, otherwise `name:` followed by every
      id as ` <id>`, folded as above, and a final CRLF (section 3.6.4 of RFC 5322). */
  function MsgIdHeader(name: string, ids: seq<string>): (r: string)
    ensures ids == [] <==> r == []
    ensures ids != [] ==> StartsWith(r, name + ":") && EndsWith(r, "\r\n")
  {
    if ids == [] then []
    else
      var tail := MsgIdTail(ids, 0, |name| + 1);
      var r := name + ":" + tail;
      assert r[..|name + ":"|] == name + ":";
      assert r[|r| - 2..] == tail[|tail| - 2..];
      r
  }

  /** Unfolding (section 2.2.3 of RFC 5322): every CRLF followed by a space is removed. */
  function Unfold(s: string): (r: string)
    decreases |s|
  {
    if |s| >= 3 && s[0] == '\r' && s[1] == '\n' && s[2] == ' ' then Unfold(s[2..])
    else if s == [] then []
    else [s[0]] + Unfold(s[1..])
  }

  /** The ids, each as ` <id>`, on one line. */
  function WrappedIds(ids: seq<string>): string
    decreases |ids|
  {
    if ids == [] then [] else IdItem(ids[0]) + WrappedIds(ids[1..])
  }

  predicate NoCr(s: string) {
    forall k | 0 <= k < |s| :: s[k] != '\r'
  }

  /** Text without CR passes through unfolding unchanged. */
  lemma {:induction false} UnfoldNoCr(p: string, x: string)
    requires NoCr(p)
    ensures Unfold(p + x) == p + Unfold(x)
    decreases |p|
  {
    if p != [] {
      assert (p + x)[0] == p[0] && p[0] != '\r';
      assert (p + x)[1..] == p[1..] + x;
      assert NoCr(p[1..]) by {
        forall k | 0 <= k < |p| - 1 ensures p[1..][k] != '\r' {
          assert p[1..][k] == p[k + 1];
        }
      }
      UnfoldNoCr(p[1..], x);
      assert Unfold(p + x) == [p[0]] + Unfold((p + x)[1..]);
      assert [p[0]] + p[1..] == p;
    } else {
      assert p + x == x;
    }
  }

  /** A line break followed by a space disappears. */
  lemma {:induction false} UnfoldBreak(y: string)
    requires |y| > 0 && y[0] == ' '
    ensures Unfold("\r\n" + y) == Unfold(y)
  {
    assert ("\r\n" + y)[2..] == y;
  }

  /** One id as the writer puts it on the line. */
  function IdItem(id: string): string {
    " <" + id + ">"
  }

  lemma {:induction false} IdItemNoCr(id: string)
    requires NoCr(id)
    ensures NoCr(IdItem(id)) && IdItem(id)[0] == ' '
  {
    var item := IdItem(id);
    forall k | 0 <= k < |item| ensures item[k] != '\r' {
      if 2 <= k < 2 + |id| {
        assert item[k] == id[k - 2];
      }
    }
  }

  /** One step of the writer: the optional break, the i-th id, and the rest. */
  lemma {:induction false} MsgIdTailStep(ids: seq<string>, i: nat, charCount: int)
    requires i < |ids|
    ensures var wrap := i != 0 && charCount != 0 && charCount + |ids[i]| > 78 - 3;
            var tail := MsgIdTail(ids, i + 1, (if wrap then 0 else charCount) + |ids[i]| + 3);
            MsgIdTail(ids, i, charCount) == if wrap then "\r\n" + (IdItem(ids[i]) + tail) else IdItem(ids[i]) + tail
  {
    var wrap := i != 0 && charCount != 0 && charCount + |ids[i]| > 78 - 3;
    var tail := MsgIdTail(ids, i + 1, (if wrap then 0 else charCount) + |ids[i]| + 3);
    if wrap {
      AppendAssoc("\r\n", IdItem(ids[i]), tail);
    } else {
      assert "" + IdItem(ids[i]) == IdItem(ids[i]);
    }
  }

  lemma {:induction false} WrappedIdsStep(ids: seq<string>, i: nat)
    requires i < |ids|
    ensures WrappedIds(ids[i..]) == IdItem(ids[i]) + WrappedIds(ids[i + 1..])
  {
    assert ids[i..][0] == ids[i] && ids[i..][1..] == ids[i + 1..];
  }

  /** Unfolding an id item, with or without the break before it, keeps the item and unfolds what follows. */
  lemma {:induction false} UnfoldItem(item: string, tail: string, wrap: bool, rest: string)
    requires NoCr(item) && |item| > 0 && item[0] == ' '
    requires Unfold(tail) == rest + "\r\n"
    ensures Unfold(if wrap then "\r\n" + (item + tail) else item + tail) == (item + rest) + "\r\n"
  {
    UnfoldNoCr(item, tail);
    if wrap {
      UnfoldBreak(item + tail);
    }
    AppendAssoc(item, rest, "\r\n");
  }

  /** Folding only inserts line breaks between ids: unfolding the tail gives the ids on one line. */
  lemma {:induction false} MsgIdTailUnfolds(ids: seq<string>, i: nat, charCount: int)
    requires i <= |ids|
    requires forall k | 0 <= k < |ids| :: NoCr(ids[k])
    ensures Unfold(MsgIdTail(ids, i, charCount)) == WrappedIds(ids[i..]) + "\r\n"
    decreases |ids| - i
  {
    if i == |ids| {
      assert ids[i..] == [];
    } else {
      var wrap := i != 0 && charCount != 0 && charCount + |ids[i]| > 78 - 3;
      var next := (if wrap then 0 else charCount) + |ids[i]| + 3;
      MsgIdTailUnfolds(ids, i + 1, next);
      MsgIdTailUnfoldsStep(ids, i, charCount);
    }
  }

  /** The step of MsgIdTailUnfolds: the claim for the ids after the i-th gives it for the i-th on. */
  lemma {:induction false} MsgIdTailUnfoldsStep(ids: seq<string>, i: nat, charCount: int)
    requires i < |ids| && NoCr(ids[i])
    requires var wrap := i != 0 && charCount != 0 && charCount + |ids[i]| > 78 - 3;
             Unfold(MsgIdTail(ids, i + 1, (if wrap then 0 else charCount) + |ids[i]| + 3)) == WrappedIds(ids[i + 1..]) + "\r\n"
    ensures Unfold(MsgIdTail(ids, i, charCount)) == WrappedIds(ids[i..]) + "\r\n"
  {
    var wrap := i != 0 && charCount != 0 && charCount + |ids[i]| > 78 - 3;
    var tail := MsgIdTail(ids, i + 1, (if wrap then 0 else charCount) + |ids[i]| + 3);
    MsgIdTailStep(ids, i, charCount);
    IdItemNoCr(ids[i]);
    UnfoldItem(IdItem(ids[i]), tail, wrap, WrappedIds(ids[i + 1..]));
    WrappedIdsStep(ids, i);
  }

  /** The header writer's partner: unfolded, the header is `name:` and the ids in order on one line. */
  lemma {:induction false} MsgIdHeaderUnfolds(name: string, ids: seq<string>)
    requires ids != [] && NoCr(name)
    requires forall k | 0 <= k < |ids| :: NoCr(ids[k])
    ensures Unfold(MsgIdHeader(name, ids)) == name + ":" + WrappedIds(ids) + "\r\n"
  {
    var tail := MsgIdTail(ids, 0, |name| + 1);
    MsgIdTailUnfolds(ids, 0, |name| + 1);
    assert NoCr(name + ":") by {
      forall k | 0 <= k < |name| + 1 ensures (name + ":")[k] != '\r' {
        if k < |name| {
          assert (name + ":")[k] == name[k];
        }
      }
    }
    UnfoldNoCr(name + ":", tail);
    assert ids[0..] == ids;
  }

  // ---------------------------------------------------------------------------------------------
  // Message-ID, MIME boundary, signing

  /** QByteArray::replace("{", "").replace("}", ""): every brace removed. */
  function StripBraces(s: string): (r: string)
    ensures forall k | 0 <= k < |r| :: r[k] != '{' && r[k] != '}'
    ensures |r| <= |s|
    decreases |s|
  {
    if s == [] then []
    else (if s[0] == '{' || s[0] == '}' then [] else [s[0]]) + StripBraces(s[1..])
  }

  /** MessageComposer::generateMessageId, with the textual form of the random UUID passed in:
      nothing when the sender has no host, otherwise the UUID without braces, `@` and the host. */
  function GenerateMessageId(host: string, uuidText: string): (r: string)
    ensures host == [] <==> r == []
    ensures host != [] ==>
              EndsWith(r, "@" + host)
              && forall k | 0 <= k < |r| - |host| - 1 :: r[k] != '{' && r[k] != '}'
  {
    if host == [] then []
    else
      var id := StripBraces(uuidText);
      var r := id + "@" + host;
      assert r[|r| - |host| - 1..] == "@" + host;
      assert forall k | 0 <= k < |id| :: r[k] == id[k];
      r
  }

  /** The Message-ID header line writeCommonMessageBeginning writes: only for a non-empty id. */
  function MessageIdLine(messageId: string): (r: string)
    ensures messageId == [] <==> r == []
    ensures messageId != [] ==> StartsWith(r, "Message-ID: <") && EndsWith(r, ">\r\n")
  {
    if messageId == [] then []
    else
      var r := "Message-ID: <" + messageId + ">\r\n";
      assert r[..13] == "Message-ID: <";
      assert r[|r| - 3..] == ">\r\n";
      r
  }

  const BoundaryPrefix := "trojita=_"

  /** MessageComposer::generateMimeBoundary, with the textual UUID passed in. */
  function GenerateMimeBoundary(uuidText: string): (r: string)
    ensures StartsWith(r, BoundaryPrefix)
    ensures forall k | |BoundaryPrefix| <= k < |r| :: r[k] != '{' && r[k] != '}'
  {
    var id := StripBraces(uuidText);
    var r := BoundaryPrefix + id;
    assert r[..|BoundaryPrefix|] == BoundaryPrefix;
    assert forall k | |BoundaryPrefix| <= k < |r| :: r[k] == id[k - |BoundaryPrefix|];
    r
  }

  /** The CRLF fix at the start of signRawMessage (section 5 of RFC 3156): the message is extended
      by CRLF unless it already ends with it. */
  function EnsureCrlf(message: string): (r: string)
    ensures EndsWith(r, "\r\n")
    ensures StartsWith(r, message) && |r| <= |message| + 2
    ensures EndsWith(message, "\r\n") <==> r == message
  {
    if EndsWith(message, "\r\n") then message
    else
      var r := message + "\r\n";
      assert r[..|message|] == message;
      assert r[|r| - 2..] == "\r\n";
      r
  }

  /** Fixing twice is fixing once. */
  lemma {:induction false} EnsureCrlfIdempotent(message: string)
    ensures EnsureCrlf(EnsureCrlf(message)) == EnsureCrlf(message)
  {
  }

  // ---------------------------------------------------------------------------------------------
  // Attachments

  datatype Cte = CTE_BASE64 | CTE_7BIT | CTE_8BIT | CTE_BINARY

  /** An AttachmentItem as the serialiser sees it: its caption, MIME type, rendered
      Content-Disposition header, suggested transfer encoding, whether it is available locally,
      its raw data (`None` when rawData() yields no device) and its IMAP URL (empty when it has none). */
  datatype Attachment = Attachment(
    caption: string, mimeType: string, dispositionHeader: string, cte: Cte,
    local: bool, raw: Option<Bytes>, imapUrl: string)

  /** The contents of a QByteArray: every character is a byte. */
  type Bytes = s: string | Base64.IsBytes(s)

  /** Base64 reads its input in chunks of 76*6/8 = 57 bytes. */
  const ChunkSize := 76 * 6 / 8

  /** The chunks of the input: every one but the last exactly 57 bytes, together the whole input. */
  function Chunks(data: string): (r: seq<string>)
    requires Base64.IsBytes(data)
    ensures Concat(r) == data
    ensures forall i | 0 <= i < |r| :: 0 < |r[i]| <= ChunkSize && Base64.IsBytes(r[i])
    ensures forall i | 0 <= i < |r| - 1 :: |r[i]| == ChunkSize
    decreases |data|
  {
    if data == [] then []
    else
      var n := if |data| < ChunkSize then |data| else ChunkSize;
      var rest := Chunks(data[n..]);
      var r := [data[..n]] + rest;
      assert r[1..] == rest;
      assert data[..n] + data[n..] == data;
      r
  }

  /** Every chunk encoded, each followed by CRLF. */
  function EncodeLines(chunks: seq<string>): string
    requires forall i | 0 <= i < |chunks| :: Base64.IsBytes(chunks[i])
    decreases |chunks|
  {
    if chunks == [] then [] else Base64.Encode(chunks[0]) + "\r\n" + EncodeLines(chunks[1..])
  }

  /** The base64 branch of writeAttachmentBody as a whole. */
  function Base64Body(data: string): string
    requires Base64.IsBytes(data)
  {
    EncodeLines(Chunks(data))
  }

  /** The base64 branch of writeAttachmentBody as written: read up to 57 bytes from the device,
      write their base64 form and CRLF, until the device is exhausted. */
  method WriteBase64Body(data: Bytes) returns (out: string)
    ensures out == Base64Body(data)
  {
    out := [];
    var rest: Bytes := data;
    while rest != []
      invariant out + Base64Body(rest) == Base64Body(data)
      decreases |rest|
    {
      var n := if |rest| < ChunkSize then |rest| else ChunkSize;
      Base64BodyAdvance(rest, n, out);
      out := out + Base64.Encode(rest[..n]) + "\r\n";
      rest := rest[n..];
    }
  }

  /** The loop invariant of WriteBase64Body carries over one read. */
  lemma {:induction false} Base64BodyAdvance(rest: Bytes, n: nat, out: string)
    requires rest != [] && n == if |rest| < ChunkSize then |rest| else ChunkSize
    ensures Base64.IsBytes(rest[..n]) && Base64.IsBytes(rest[n..])
    ensures out + Base64.Encode(rest[..n]) + "\r\n" + Base64Body(rest[n..]) == out + Base64Body(rest)
  {
    var line := Base64.Encode(rest[..n]) + "\r\n";
    Base64BodyStep(rest, n);
    AppendAssoc(out, line, Base64Body(rest[n..]));
    AppendAssoc(out, Base64.Encode(rest[..n]), "\r\n");
  }

  /** One read: the next chunk's line, then the rest. */
  lemma {:induction false} Base64BodyStep(rest: Bytes, n: nat)
    requires rest != [] && n == if |rest| < ChunkSize then |rest| else ChunkSize
    ensures Base64.IsBytes(rest[..n]) && Base64.IsBytes(rest[n..])
    ensures Base64Body(rest) == Base64.Encode(rest[..n]) + "\r\n" + Base64Body(rest[n..])
  {
    assert Base64.IsBytes(rest[n..]) by {
      forall k | 0 <= k < |rest| - n ensures rest[n..][k] as int < 256 {
        assert rest[n..][k] == rest[n + k];
      }
    }
    assert Base64.IsBytes(rest[..n]) by {
      forall k | 0 <= k < n ensures rest[..n][k] as int < 256 {
        assert rest[..n][k] == rest[k];
      }
    }
    assert Chunks(rest) == [rest[..n]] + Chunks(rest[n..]);
  }

  /** Each base64 line holds at most 76 characters, exactly 76 for all but the last one, and
      decodes back to its chunk; the chunks together are the input (section 6.8 of RFC 2045). */
  lemma {:induction false} Base64LinesFit(data: string)
    requires Base64.IsBytes(data)
    ensures var chunks := Chunks(data);
            Concat(chunks) == data
            && (forall i | 0 <= i < |chunks| :: |Base64.Encode(chunks[i])| <= 76)
            && (forall i | 0 <= i < |chunks| - 1 :: |Base64.Encode(chunks[i])| == 76)
            && (forall i | 0 <= i < |chunks| :: Base64.Decode(Base64.Encode(chunks[i])) == Some(chunks[i]))
  {
    var chunks := Chunks(data);
    forall i | 0 <= i < |chunks|
      ensures |Base64.Encode(chunks[i])| <= 76
      ensures i < |chunks| - 1 ==> |Base64.Encode(chunks[i])| == 76
      ensures Base64.Decode(Base64.Encode(chunks[i])) == Some(chunks[i])
    {
      ChunkLine(chunks[i]);
    }
  }

  /** One chunk's line: at most 76 characters, exactly 76 for a full chunk, and it decodes back. */
  lemma {:induction false} ChunkLine(c: string)
    requires Base64.IsBytes(c) && |c| <= ChunkSize
    ensures |Base64.Encode(c)| <= 76 && (|c| == ChunkSize ==> |Base64.Encode(c)| == 76)
    ensures Base64.Decode(Base64.Encode(c)) == Some(c)
  {
    Base64.EncodedLength(c);
    Base64.RoundTrip(c);
    assert ChunkSize == 57;
    var q := (|c| + 2) / 3;
    assert q <= 19 && (|c| == 57 ==> q == 19);
  }

  /** Whatever a device returns for each read(57), each line stays within 76 characters and decodes
      back to the bytes of that read; only the "exactly 76" of the full-read split depends on every
      read but the last returning all 57 bytes. */
  lemma {:induction false} AnyReadsFit(pieces: seq<string>)
    requires forall i | 0 <= i < |pieces| :: Base64.IsBytes(pieces[i]) && |pieces[i]| <= ChunkSize
    ensures forall i | 0 <= i < |pieces| ::
              |Base64.Encode(pieces[i])| <= 76 && Base64.Decode(Base64.Encode(pieces[i])) == Some(pieces[i])
  {
    forall i | 0 <= i < |pieces|
      ensures |Base64.Encode(pieces[i])| <= 76 && Base64.Decode(Base64.Encode(pieces[i])) == Some(pieces[i])
    {
      ChunkLine(pieces[i]);
    }
  }

  function NotAvailableText(caption: string): string {
    "Attachment " + caption + " is not available"
  }

  function DisappearedText(caption: string): string {
    "Attachment " + caption + " disappeared"
  }

  function CteHeader(cte: Cte): string {
    match cte
    case CTE_BASE64 => "Content-Transfer-Encoding: base64\r\n"
    case CTE_7BIT => "Content-Transfer-Encoding: 7bit\r\n"
    case CTE_8BIT => "Content-Transfer-Encoding: 8bit\r\n"
    case CTE_BINARY => "Content-Transfer-Encoding: binary\r\n"
  }

  /** MessageComposer::writeAttachmentHeader: fails only for an attachment that is neither available
      locally nor reachable by URL; otherwise the boundary delimiter and the part's headers. */
  function AttachmentHeader(a: Attachment, boundary: string): (r: Result<string, string>)
    ensures r.Err? <==> !a.local && a.imapUrl == []
    ensures r.Err? ==> r.error == NotAvailableText(a.caption)
    ensures r.Ok? ==> StartsWith(r.value, "\r\n--" + boundary + "\r\n") && EndsWith(r.value, "\r\n\r\n")
  {
    if !a.local && a.imapUrl == [] then Err(NotAvailableText(a.caption))
    else
      var delimiter := "\r\n--" + boundary + "\r\n";
      var h := delimiter + "Content-Type: " + a.mimeType + "\r\n" + a.dispositionHeader + CteHeader(a.cte) + "\r\n";
      assert h[..|delimiter|] == delimiter;
      assert h[|h| - 4..] == "\r\n\r\n";
      Ok(h)
  }

  /** MessageComposer::writeAttachmentBody: fails when the attachment is not available locally or
      its data has gone; otherwise base64 lines or the raw data, by the suggested encoding. */
  function AttachmentBody(a: Attachment): (r: Result<string, string>)
    ensures r.Err? <==> !a.local || a.raw.None?
    ensures r.Err? ==> r.error == (if !a.local then NotAvailableText(a.caption) else DisappearedText(a.caption))
    ensures r.Ok? && a.cte != CTE_BASE64 ==> r.value == a.raw.value
    ensures r.Ok? && a.cte == CTE_BASE64 ==> r.value == Base64Body(a.raw.value)
  {
    if !a.local then Err(NotAvailableText(a.caption))
    else if a.raw.None? then Err(DisappearedText(a.caption))
    else if a.cte == CTE_BASE64 then Ok(Base64Body(a.raw.value))
    else Ok(a.raw.value)
  }

  function ClosingDelimiter(boundary: string): string {
    "\r\n--" + boundary + "--\r\n"
  }

  /** The unsigned, unencrypted part of MessageComposer::asRawMessage: the common beginning and
      body, then every attachment's header and body, then the closing delimiter when there are
      attachments. This is the reference the CATENATE list must reproduce. */
  function RawMessage(initial: string, atts: seq<Attachment>, boundary: string): (r: Result<string, string>)
  {
    if atts == [] then Ok(initial)
    else
      match RawParts(atts, boundary)
      case Err(e) => Err(e)
      case Ok(parts) => Ok(initial + parts + ClosingDelimiter(boundary))
  }

  function RawParts(atts: seq<Attachment>, boundary: string): Result<string, string>
    decreases |atts|
  {
    if atts == [] then Ok([])
    else
      match AttachmentHeader(atts[0], boundary)
      case Err(e) => Err(e)
      case Ok(h) =>
        match AttachmentBody(atts[0])
        case Err(e) => Err(e)
        case Ok(b) =>
          match RawParts(atts[1..], boundary)
          case Err(e) => Err(e)
          case Ok(rest) => Ok(h + b + rest)
  }

  // ---------------------------------------------------------------------------------------------
  // CATENATE

  datatype CatenateKind = CATENATE_TEXT | CATENATE_URL

  /** Imap::Mailbox::CatenatePair: literal text, or the URL of a message part on the server. */
  datatype CatenatePair = CatenatePair(kind: CatenateKind, data: string)

  /** The list starts with text and never has two segments of the same kind in a row. */
  predicate Alternates(t: seq<CatenatePair>) {
    |t| > 0 && t[0].kind == CATENATE_TEXT
    && forall i, j | 0 <= i < |t| && 0 <= j < |t| && j == i + 1 :: t[i].kind != t[j].kind
  }

  /** The URLs of the list, in order. */
  function Urls(t: seq<CatenatePair>): seq<string>
    decreases |t|
  {
    if t == [] then []
    else Urls(t[..|t| - 1]) + (if t[|t| - 1].kind == CATENATE_URL then [t[|t| - 1].data] else [])
  }

  /** The IMAP URLs of the attachments that have one, in order. */
  function AttachmentUrls(atts: seq<Attachment>): seq<string>
    decreases |atts|
  {
    if atts == [] then []
    else (if atts[0].imapUrl != [] then [atts[0].imapUrl] else []) + AttachmentUrls(atts[1..])
  }

  /** The message the server assembles from the list, `fetch` giving the bytes behind a URL. */
  function Flatten(t: seq<CatenatePair>, fetch: string -> string): string
    decreases |t|
  {
    if t == [] then []
    else
      var last := t[|t| - 1];
      Flatten(t[..|t| - 1], fetch) + (if last.kind == CATENATE_TEXT then last.data else fetch(last.data))
  }

  /** A text segment at the end of the list, appending an empty one when the last is a URL. */
  function EnsureTextTail(t: seq<CatenatePair>): (r: seq<CatenatePair>)
    requires Alternates(t)
    ensures Alternates(r) && r[|r| - 1].kind == CATENATE_TEXT
    ensures Urls(r) == Urls(t)
  {
    if t[|t| - 1].kind == CATENATE_TEXT then t
    else
      var r := t + [CatenatePair(CATENATE_TEXT, [])];
      assert r[..|r| - 1] == t;
      r
  }

  /** Appends text to the final text segment. */
  function AppendText(t: seq<CatenatePair>, s: string): (r: seq<CatenatePair>)
    requires Alternates(t) && t[|t| - 1].kind == CATENATE_TEXT
    ensures Alternates(r) && |r| == |t| && r[|r| - 1].kind == CATENATE_TEXT
    ensures r[|r| - 1].data == t[|t| - 1].data + s
    ensures Urls(r) == Urls(t)
  {
    var r := t[..|t| - 1] + [CatenatePair(CATENATE_TEXT, t[|t| - 1].data + s)];
    ReplaceLastAlternates(t, r[|r| - 1]);
    assert r[..|r| - 1] == t[..|t| - 1];
    r
  }

  /** Replacing the last segment by one of the same kind keeps the list alternating. */
  lemma {:induction false} ReplaceLastAlternates(t: seq<CatenatePair>, p: CatenatePair)
    requires Alternates(t) && p.kind == t[|t| - 1].kind
    ensures Alternates(t[..|t| - 1] + [p])
  {
    var r := t[..|t| - 1] + [p];
    forall i, j | 0 <= i < j < |r| && j == i + 1 ensures r[i].kind != r[j].kind {
      assert r[i] == t[i];
      if j < |t| - 1 {
        assert r[j] == t[j];
      }
    }
  }

  /** Appends a URL segment after the final text segment. */
  function AppendUrl(t: seq<CatenatePair>, url: string): (r: seq<CatenatePair>)
    requires Alternates(t) && t[|t| - 1].kind == CATENATE_TEXT
    ensures Alternates(r) && r[|r| - 1].kind == CATENATE_URL
    ensures Urls(r) == Urls(t) + [url]
  {
    var r := t + [CatenatePair(CATENATE_URL, url)];
    assert r[..|r| - 1] == t;
    r
  }

  lemma {:induction false} FlattenTextTail(t: seq<CatenatePair>, fetch: string -> string)
    requires Alternates(t)
    ensures Flatten(EnsureTextTail(t), fetch) == Flatten(t, fetch)
  {
    var r := EnsureTextTail(t);
    if r != t {
      assert r[..|r| - 1] == t;
    }
  }

  lemma {:induction false} FlattenAppendText(t: seq<CatenatePair>, s: string, fetch: string -> string)
    requires Alternates(t) && t[|t| - 1].kind == CATENATE_TEXT
    ensures Flatten(AppendText(t, s), fetch) == Flatten(t, fetch) + s
  {
    var r := AppendText(t, s);
    assert r[..|r| - 1] == t[..|t| - 1];
  }

  lemma {:induction false} FlattenAppendUrl(t: seq<CatenatePair>, url: string, fetch: string -> string)
    requires Alternates(t) && t[|t| - 1].kind == CATENATE_TEXT
    ensures Flatten(AppendUrl(t, url), fetch) == Flatten(t, fetch) + fetch(url)
  {
    var r := AppendUrl(t, url);
    assert r[..|r| - 1] == t;
  }

  /** One pass of the attachment loop of asCatenateData: the header goes into a text segment; an
      attachment with an IMAP URL becomes a URL segment, any other has its body written as text. */
  function CatenateOne(t: seq<CatenatePair>, a: Attachment, boundary: string): (r: Result<seq<CatenatePair>, string>)
    requires Alternates(t)
    ensures r.Ok? ==> Alternates(r.value)
    ensures r.Ok? ==> Urls(r.value) == Urls(t) + (if a.imapUrl != [] then [a.imapUrl] else [])
    ensures r.Err? <==> AttachmentHeader(a, boundary).Err? || (a.imapUrl == [] && AttachmentBody(a).Err?)
  {
    var t1 := EnsureTextTail(t);
    match AttachmentHeader(a, boundary)
    case Err(e) => Err(e)
    case Ok(h) =>
      var t2 := AppendText(t1, h);
      if a.imapUrl == [] then
        match AttachmentBody(a)
        case Err(e) => Err(e)
        case Ok(b) => Ok(AppendText(t2, b))
      else Ok(AppendUrl(t2, a.imapUrl))
  }

  /** The attachment loop of asCatenateData over `atts`, stopping at the first failure. */
  function CatenateAll(t: seq<CatenatePair>, atts: seq<Attachment>, boundary: string): (r: Result<seq<CatenatePair>, string>)
    requires Alternates(t)
    ensures r.Ok? ==> Alternates(r.value) && Urls(r.value) == Urls(t) + AttachmentUrls(atts)
    decreases |atts|
  {
    if atts == [] then Ok(t)
    else
      match CatenateOne(t, atts[0], boundary)
      case Err(e) => Err(e)
      case Ok(t1) =>
        var r := CatenateAll(t1, atts[1..], boundary);
        AppendAssoc(Urls(t), if atts[0].imapUrl != [] then [atts[0].imapUrl] else [], AttachmentUrls(atts[1..]));
        r
  }

  /** MessageComposer::asCatenateData, with the common beginning and body already rendered as
      `initial`. The list starts with one text segment holding them; with attachments it ends with a
      text segment carrying the closing delimiter. A failure yields the error message; the partially
      built list the source leaves behind is not modelled. */
  function AsCatenateData(initial: string, atts: seq<Attachment>, boundary: string): (r: Result<seq<CatenatePair>, string>)
    ensures atts == [] ==> r == Ok([CatenatePair(CATENATE_TEXT, initial)])
    ensures r.Ok? ==> Alternates(r.value) && Urls(r.value) == AttachmentUrls(atts)
    ensures r.Ok? && atts != [] ==>
              r.value[|r.value| - 1].kind == CATENATE_TEXT
              && EndsWith(r.value[|r.value| - 1].data, ClosingDelimiter(boundary))
  {
    var t := [CatenatePair(CATENATE_TEXT, initial)];
    assert Urls(t) == [] by {
      assert t[..0] == [];
    }
    if atts == [] then Ok(t)
    else
      match CatenateAll(t, atts, boundary)
      case Err(e) => Err(e)
      case Ok(t1) =>
        var t2 := EnsureTextTail(t1);
        var r := AppendText(t2, ClosingDelimiter(boundary));
        var last := r[|r| - 1].data;
        assert last[|last| - |ClosingDelimiter(boundary)|..] == ClosingDelimiter(boundary);
        Ok(r)
  }

  /** Replacing every URL segment by the bytes behind it gives exactly the message asRawMessage
      writes, when every attachment can be written out and every URL stands for its attachment's body. */
  lemma {:induction false} CatenateMatchesRawMessage(initial: string, atts: seq<Attachment>, boundary: string, fetch: string -> string)
    requires RawMessage(initial, atts, boundary).Ok?
    requires forall i | 0 <= i < |atts| :: atts[i].imapUrl != [] ==> AttachmentBody(atts[i]) == Ok(fetch(atts[i].imapUrl))
    ensures AsCatenateData(initial, atts, boundary).Ok?
    ensures Flatten(AsCatenateData(initial, atts, boundary).value, fetch) == RawMessage(initial, atts, boundary).value
  {
    if atts != [] {
      var t := [CatenatePair(CATENATE_TEXT, initial)];
      assert Flatten(t, fetch) == initial by {
        assert t[..0] == [];
      }
      CatenateAllMatches(t, atts, boundary, fetch);
      var t1 := CatenateAll(t, atts, boundary).value;
      FlattenTextTail(t1, fetch);
      FlattenAppendText(EnsureTextTail(t1), ClosingDelimiter(boundary), fetch);
    }
  }

  lemma {:induction false} CatenateAllMatches(t: seq<CatenatePair>, atts: seq<Attachment>, boundary: string, fetch: string -> string)
    requires Alternates(t)
    requires RawParts(atts, boundary).Ok?
    requires forall i | 0 <= i < |atts| :: atts[i].imapUrl != [] ==> AttachmentBody(atts[i]) == Ok(fetch(atts[i].imapUrl))
    ensures CatenateAll(t, atts, boundary).Ok?
    ensures Flatten(CatenateAll(t, atts, boundary).value, fetch) == Flatten(t, fetch) + RawParts(atts, boundary).value
    decreases |atts|
  {
    if atts != [] {
      RawPartsStep(atts, boundary);
      CatenateOneMatches(t, atts[0], boundary, fetch);
      CatenateAllMatches(CatenateOne(t, atts[0], boundary).value, atts[1..], boundary, fetch);
      CatenateAllMatchesStep(t, atts, boundary, fetch);
    }
  }

  /** The step of CatenateAllMatches: the claim for the list after the first attachment gives it for
      the whole list. */
  lemma {:induction false} CatenateAllMatchesStep(t: seq<CatenatePair>, atts: seq<Attachment>, boundary: string, fetch: string -> string)
    requires atts != [] && Alternates(t)
    requires RawParts(atts, boundary).Ok?
    requires CatenateOne(t, atts[0], boundary).Ok?
    requires Flatten(CatenateOne(t, atts[0], boundary).value, fetch)
             == Flatten(t, fetch) + AttachmentHeader(atts[0], boundary).value + AttachmentBody(atts[0]).value
    requires var t1 := CatenateOne(t, atts[0], boundary).value;
             CatenateAll(t1, atts[1..], boundary).Ok?
             && Flatten(CatenateAll(t1, atts[1..], boundary).value, fetch) == Flatten(t1, fetch) + RawParts(atts[1..], boundary).value
    ensures CatenateAll(t, atts, boundary).Ok?
    ensures Flatten(CatenateAll(t, atts, boundary).value, fetch) == Flatten(t, fetch) + RawParts(atts, boundary).value
  {
    RawPartsStep(atts, boundary);
    CatenateAllStep(t, atts, boundary);
    var h, b := AttachmentHeader(atts[0], boundary).value, AttachmentBody(atts[0]).value;
    AppendAssoc(Flatten(t, fetch), h, b);
    AppendAssoc(Flatten(t, fetch), h + b, RawParts(atts[1..], boundary).value);
  }

  /** RawParts of a non-empty list, once its first attachment has been written out. */
  lemma {:induction false} RawPartsStep(atts: seq<Attachment>, boundary: string)
    requires atts != []
    requires RawParts(atts, boundary).Ok?
    ensures AttachmentHeader(atts[0], boundary).Ok? && AttachmentBody(atts[0]).Ok?
    ensures RawParts(atts[1..], boundary).Ok?
    ensures RawParts(atts, boundary).value
            == AttachmentHeader(atts[0], boundary).value + AttachmentBody(atts[0]).value + RawParts(atts[1..], boundary).value
  {
  }

  /** CatenateAll of a non-empty list continues from the list CatenateOne leaves. */
  lemma {:induction false} CatenateAllStep(t: seq<CatenatePair>, atts: seq<Attachment>, boundary: string)
    requires atts != [] && Alternates(t)
    requires CatenateOne(t, atts[0], boundary).Ok?
    ensures CatenateAll(t, atts, boundary) == CatenateAll(CatenateOne(t, atts[0], boundary).value, atts[1..], boundary)
  {
  }

  /** One attachment: its header and its body, literally or behind the URL, follow the list so far. */
  lemma {:induction false} CatenateOneMatches(t: seq<CatenatePair>, a: Attachment, boundary: string, fetch: string -> string)
    requires Alternates(t)
    requires AttachmentHeader(a, boundary).Ok? && AttachmentBody(a).Ok?
    requires a.imapUrl != [] ==> AttachmentBody(a) == Ok(fetch(a.imapUrl))
    ensures CatenateOne(t, a, boundary).Ok?
    ensures Flatten(CatenateOne(t, a, boundary).value, fetch)
            == Flatten(t, fetch) + AttachmentHeader(a, boundary).value + AttachmentBody(a).value
  {
    var t1 := EnsureTextTail(t);
    var h := AttachmentHeader(a, boundary).value;
    var t2 := AppendText(t1, h);
    FlattenTextTail(t, fetch);
    FlattenAppendText(t1, h, fetch);
    if a.imapUrl == [] {
      FlattenAppendText(t2, AttachmentBody(a).value, fetch);
    } else {
      FlattenAppendUrl(t2, a.imapUrl, fetch);
    }
  }

  // ---------------------------------------------------------------------------------------------
  // Drop validation

  /** MessageComposer::validateDropImapMessage over the decoded stream: the stream read cleanly,
      the mailbox exists, at least one UID was passed and UIDVALIDITY is not zero. */
  function ValidateDropImapMessage(streamOk: bool, mailboxKnown: bool, uidValidity: nat, uids: seq<nat>): (r: bool)
    ensures r <==> streamOk && mailboxKnown && |uids| >= 1 && uidValidity != 0
    ensures !streamOk || !mailboxKnown ==> !r
  {
    if !streamOk then false
    else if !mailboxKnown then false
    else if |uids| < 1 then false
    else if uidValidity == 0 then false
    else true
  }

  /** MessageComposer::validateDropImapPart over the decoded stream: the stream read cleanly, the
      mailbox exists, and UIDVALIDITY, UID and part path are all present. */
  function ValidateDropImapPart(streamOk: bool, mailboxKnown: bool, uidValidity: nat, uid: nat, path: string): (r: bool)
    ensures r <==> streamOk && mailboxKnown && uidValidity != 0 && uid != 0 && path != []
    ensures !streamOk || !mailboxKnown ==> !r
  {
    if !streamOk then false
    else if !mailboxKnown then false
    else if uidValidity == 0 || uid == 0 || path == [] then false
    else true
  }

  /** The two validators agree: a dropped part that passes names a message whose drop would pass,
      and a message drop fails only for a reason a part drop shares or for an empty UID list. */
  lemma {:induction false} PartDropNamesValidMessage(streamOk: bool, mailboxKnown: bool, uidValidity: nat, uid: nat, path: string)
    ensures ValidateDropImapPart(streamOk, mailboxKnown, uidValidity, uid, path) ==>
              ValidateDropImapMessage(streamOk, mailboxKnown, uidValidity, [uid])
    ensures ValidateDropImapMessage(streamOk, mailboxKnown, uidValidity, [uid]) && uid != 0 && path != [] ==>
              ValidateDropImapPart(streamOk, mailboxKnown, uidValidity, uid, path)
  {
  }

  // ---------------------------------------------------------------------------------------------
  // Properties of the recipient headers

  /** Selecting from two lists one after the other is selecting from their concatenation: the
      input order is kept. */
  lemma {:induction false} SelectAppend(a: seq<Recipient>, b: seq<Recipient>, kind: RecipientKind)
    ensures Select(a + b, kind) == Select(a, kind) + Select(b, kind)
    decreases |b|
  {
    if b == [] {
      assert a + b == a;
    } else {
      var n := |b|;
      assert (a + b)[..|a + b| - 1] == a + b[..n - 1];
      SelectAppend(a, b[..n - 1], kind);
    }
  }

  /** A Bcc recipient, wherever it occurs, changes nothing in the written headers (section 3.6.3
      of RFC 5322 leaves blind copies out of the message). */
  lemma {:induction false} BccNeverWritten(a: seq<Recipient>, header: string, b: seq<Recipient>)
    requires OnlyRecipientKinds(a) && OnlyRecipientKinds(b)
    ensures OnlyRecipientKinds(a + [Recipient(ADDRESS_BCC, header)] + b)
    ensures RecipientHeaders(a + [Recipient(ADDRESS_BCC, header)] + b) == RecipientHeaders(a + b)
  {
    var bcc := [Recipient(ADDRESS_BCC, header)];
    assert OnlyRecipientKinds(a + bcc + b) by {
      forall i | 0 <= i < |a + bcc + b| ensures (a + bcc + b)[i].kind in {ADDRESS_TO, ADDRESS_CC, ADDRESS_BCC} {
        if i < |a| {
          assert (a + bcc + b)[i] == a[i];
        } else if i > |a| {
          assert (a + bcc + b)[i] == b[i - |a| - 1];
        }
      }
    }
    assert OnlyRecipientKinds(a + b) by {
      forall i | 0 <= i < |a + b| ensures (a + b)[i].kind in {ADDRESS_TO, ADDRESS_CC, ADDRESS_BCC} {
        if i < |a| {
          assert (a + b)[i] == a[i];
        } else {
          assert (a + b)[i] == b[i - |a|];
        }
      }
    }
    forall kind | kind in {ADDRESS_TO, ADDRESS_CC}
      ensures Select(a + bcc + b, kind) == Select(a + b, kind)
    {
      SelectAppend(a + bcc, b, kind);
      SelectAppend(a, bcc, kind);
      SelectAppend(a, b, kind);
      assert Select(bcc, kind) == [] by {
        assert bcc[..0] == [];
      }
    }
  }
}

=== FILE: message_downloader.dfy ===
/** XtConnect::MessageDownloader: waits until a message's header, body text, envelope and main
    text part are all available in the IMAP model, then hands them over in one notification and
    asks the model to release the message's data. The IMAP model is seen through a snapshot of its
    messages, keyed by UID; a message's body parts form an immutable tree. */
module MessageDownloader {
  import opened Wrappers
  import opened Text

  // ---------------------------------------------------------------------------------------------
  // The IMAP model as the downloader sees it

  /** A body part: its MIME type (RolePartMimeType), its data (RolePartData, `None` while not
      fetched) and its children in row order. */
  datatype Item = Item(mimeType: string, data: Option<string>, children: seq<Item>)

  /** A message: whether its envelope is known (RoleMessageMessageId, RoleMessageSubject and
      RoleMessageDate are valid), the data of its HEADER and TEXT pseudo-parts, and its body parts
      (`parts[0]` is the index `child(0, 0)` of the message). */
  datatype Message = Message(envelope: bool, header: Option<string>, text: Option<string>, parts: seq<Item>)

  /** The messages of the model by UID. A UID is never 0 (section 2.3.1.1 of RFC 3501). */
  type Mailbox = map<nat, Message>

  predicate MailboxWf(mb: Mailbox) {
    0 !in mb
  }

  /** A model index: a message row, its HEADER or TEXT pseudo-part, a body part reached by child
      rows from the message, or any index outside a message. */
  datatype ModelIndex =
    | Invalid
    | Elsewhere(id: nat)
    | MessageRow(uid: nat)
    | HeaderCell(uid: nat)
    | TextCell(uid: nat)
    | PartCell(uid: nat, path: seq<nat>)

  /** Model::findMessageForItem: the message an index belongs to, if any. */
  function MessageOf(a: ModelIndex): Option<nat> {
    match a
    case MessageRow(uid) => Some(uid)
    case HeaderCell(uid) => Some(uid)
    case TextCell(uid) => Some(uid)
    case PartCell(uid, _) => Some(uid)
    case _ => None
  }

  /** The part reached from `it` by following child rows `path`. */
  function ItemAt(it: Item, path: seq<nat>): Option<Item>
    decreases |path|
  {
    if path == [] then Some(it)
    else if path[0] < |it.children| then ItemAt(it.children[path[0]], path[1..])
    else None
  }

  /** The part of a message at a path whose first row selects among the message's body parts. */
  function PartAt(msg: Message, path: seq<nat>): Option<Item> {
    if path != [] && path[0] < |msg.parts| then ItemAt(msg.parts[path[0]], path[1..]) else None
  }

  // ---------------------------------------------------------------------------------------------
  // MessageDownloader::findMainPart

  const InvalidIndexText := "Invalid index"
  const HtmlOnlyText := "A HTML message without a plaintext counterpart"
  const BadRfc822Text := "Unsupported message/rfc822 formatting"

  function UnsuitableText(mimeType: string): string {
    "This is a " + mimeType + " formatted message whose parts are not suitable for diplaying here"
  }

  function UnsupportedText(mimeType: string): string {
    "MIME type " + mimeType + " is not supported"
  }

  /** The outcome of the search: the main part's path relative to where the search started (the
      index the source leaves valid) and the explanation it returns. */
  datatype Search = Search(found: Option<seq<nat>>, message: string)

  /** The independent description of a part that holds a main text part: it is text/plain, or a
      message/rfc822 with exactly one child that holds one, or a multipart with some child that
      holds one. MIME types compare without regard to ASCII case. */
  predicate HasMainPart(it: Item)
    decreases it
  {
    var mime := ToLower(it.mimeType);
    mime == "text/plain"
    || (mime == "message/rfc822" && |it.children| == 1 && HasMainPart(it.children[0]))
    || (mime != "text/html" && mime != "message/rfc822" && StartsWith(mime, "multipart/")
        && exists i | 0 <= i < |it.children| :: HasMainPart(it.children[i]))
  }

  /** MessageDownloader::findMainPart on an index that may be invalid. */
  function FindMainPart(part: Option<Item>): (r: Search)
    ensures part.None? ==> r == Search(None, InvalidIndexText)
    ensures part.Some? ==> r == SearchItem(part.value)
  {
    match part
    case None => Search(None, InvalidIndexText)
    case Some(it) => SearchItem(it)
  }

  /** MessageDownloader::findMainPart on a valid index. A found part is a text/plain part below the
      start and comes with an empty explanation; otherwise the explanation is never empty. */
  function SearchItem(it: Item): (r: Search)
    ensures r.found.Some? ==>
              r.message == [] && ItemAt(it, r.found.value).Some?
              && ToLower(ItemAt(it, r.found.value).value.mimeType) == "text/plain"
    ensures r.found.None? ==> r.message != []
    decreases it, 1
  {
    var mime := ToLower(it.mimeType);
    if mime == "text/plain" then Search(Some([]), [])
    else if mime == "text/html" then Search(None, HtmlOnlyText)
    else if mime == "message/rfc822" then
      if |it.children| != 1 then Search(None, BadRfc822Text)
      else
        var s := SearchItem(it.children[0]);
        match s.found
        case None => s
        case Some(p) => Search(Some([0] + p), s.message)
    else if StartsWith(mime, "multipart/") then
      match SearchChildren(it, 0)
      case None => Search(None, UnsuitableText(mime))
      case Some(p) => Search(Some(p), [])
    else Search(None, UnsupportedText(mime))
  }

  /** The loop over the children of a multipart, from row i on: the path found by the first child
      whose own search succeeds, or `None` when no child from row i on succeeds. */
  function SearchChildren(it: Item, i: nat): (r: Option<seq<nat>>)
    requires i <= |it.children|
    ensures r.Some? ==>
              |r.value| > 0 && i <= r.value[0] < |it.children|
              && SearchItem(it.children[r.value[0]]).found == Some(r.value[1..])
              && forall j | i <= j < r.value[0] :: SearchItem(it.children[j]).found.None?
    ensures r.None? ==> forall j | i <= j < |it.children| :: SearchItem(it.children[j]).found.None?
    decreases it, 0, |it.children| - i
  {
    if i == |it.children| then None
    else
      match SearchItem(it.children[i]).found
      case Some(p) =>
        assert ([i] + p)[1..] == p;
        Some([i] + p)
      case None => SearchChildren(it, i + 1)
  }

  // ---------------------------------------------------------------------------------------------
  // MessageDownloader::findMainPartOfMessage

  datatype MainPartStatus = MAINPART_FOUND | MAINPART_MESSAGE_NOT_LOADED | MAINPART_PART_LOADING | MAINPART_PART_CANNOT_DETERMINE

  /** The status and the three out-parameters: the main part's index (a path from the message),
      the explanation, and the main part's data. */
  datatype MainPart = MainPart(status: MainPartStatus, index: Option<seq<nat>>, partMessage: string, partData: string)

  /** MessageDownloader::findMainPartOfMessage. `partMessage` is the caller's variable, which is
      only overwritten once the message has a first body part. The checks run in the order: body
      parts present, main part found, main part's data fetched. */
  function FindMainPartOfMessage(msg: Message, partMessage: string): (r: MainPart)
    ensures r.status == MAINPART_MESSAGE_NOT_LOADED <==> msg.parts == []
    ensures r.status == MAINPART_MESSAGE_NOT_LOADED ==> r.index.None? && r.partMessage == partMessage
    ensures r.status == MAINPART_PART_CANNOT_DETERMINE <==> msg.parts != [] && SearchItem(msg.parts[0]).found.None?
    ensures r.status == MAINPART_PART_CANNOT_DETERMINE ==> r.index.None? && r.partMessage != []
    ensures r.status in {MAINPART_PART_LOADING, MAINPART_FOUND} ==>
              r.index.Some? && PartAt(msg, r.index.value).Some?
              && ToLower(PartAt(msg, r.index.value).value.mimeType) == "text/plain" && r.partMessage == []
    ensures r.status == MAINPART_PART_LOADING <==> r.index.Some? && PartAt(msg, r.index.value).value.data.None?
    ensures r.status == MAINPART_FOUND ==> Some(r.partData) == PartAt(msg, r.index.value).value.data
    ensures r.status != MAINPART_FOUND ==> r.partData == []
  {
    if msg.parts == [] then MainPart(MAINPART_MESSAGE_NOT_LOADED, None, partMessage, [])
    else
      var s := FindMainPart(Some(msg.parts[0]));
      match s.found
      case None => MainPart(MAINPART_PART_CANNOT_DETERMINE, None, s.message, [])
      case Some(p) =>
        var index := [0] + p;
        assert index[1..] == p;
        var data := PartAt(msg, index).value.data;
        if data.None? then MainPart(MAINPART_PART_LOADING, Some(index), s.message, [])
        else MainPart(MAINPART_FOUND, Some(index), s.message, data.value)
  }

  // ---------------------------------------------------------------------------------------------
  // Pending downloads

  /** MessageDownloader::MessageMetadata */
  datatype Metadata = Metadata(
    hasHeader: bool, hasBody: bool, hasMessage: bool, hasMainPart: bool, mainPartFailed: bool,
    headerData: string, bodyData: string, partMessage: string, mainPart: Option<seq<nat>>)

  /** What the downloader tells the world: messageDownloaded(message, header, body, main part text)
      and Model::releaseMessageData(message). */
  datatype Notice = Downloaded(uid: nat, header: string, body: string, mainPart: string) | Released(uid: nat)

  /** m_parts: the pending downloads by UID. */
  type Downloader = map<nat, Metadata>

  /** The four conditions for handing a message over. */
  predicate Complete(meta: Metadata) {
    meta.hasHeader && meta.hasBody && meta.hasMessage && meta.hasMainPart
  }

  /** MessageDownloader::pendingMessages */
  function PendingMessages(d: Downloader): (n: nat)
    ensures n == 0 <==> d == map[]
  {
    if d == map[] then 0 else assert d.Keys != {}; |d|
  }

  /** The metadata requestDownload collects for a message. */
  function Collect(msg: Message): (r: (Metadata, MainPart))
    ensures r.1 == FindMainPartOfMessage(msg, [])
    ensures r.0.hasHeader == msg.header.Some? && r.0.hasBody == msg.text.Some? && r.0.hasMessage == msg.envelope
    ensures r.0.hasMainPart <==> r.1.status in {MAINPART_FOUND, MAINPART_PART_CANNOT_DETERMINE}
    ensures r.0.mainPartFailed <==> r.1.status == MAINPART_PART_CANNOT_DETERMINE
    ensures r.0.mainPart == r.1.index && r.0.partMessage == r.1.partMessage
    ensures r.0.hasHeader ==> r.0.headerData == msg.header.value
    ensures r.0.hasBody ==> r.0.bodyData == msg.text.value
  {
    var mp := FindMainPartOfMessage(msg, []);
    (Metadata(msg.header.Some?, msg.text.Some?, msg.envelope,
              mp.status == MAINPART_FOUND || mp.status == MAINPART_PART_CANNOT_DETERMINE,
              mp.status == MAINPART_PART_CANNOT_DETERMINE,
              msg.header.GetOr([]), msg.text.GetOr([]), mp.partMessage, mp.index),
     mp)
  }

  /** MessageDownloader::requestDownload. A message that is complete already is handed over at
      once, with the main part's data or, when no main part can be determined, the explanation;
      otherwise its metadata is recorded as pending, replacing any earlier entry. */
  function RequestDownload(d: Downloader, mb: Mailbox, uid: nat): (r: (Downloader, seq<Notice>))
    requires MailboxWf(mb) && uid in mb
    ensures Complete(Collect(mb[uid]).0) <==> r.0 == d && |r.1| == 1
    ensures Complete(Collect(mb[uid]).0) ==>
              var (meta, mp) := Collect(mb[uid]);
              r.1 == [Downloaded(uid, mb[uid].header.value, mb[uid].text.value,
                                 if mp.status == MAINPART_FOUND then mp.partData else mp.partMessage)]
    ensures !Complete(Collect(mb[uid]).0) ==> r == (d[uid := Collect(mb[uid]).0], [])
  {
    var (meta, mp) := Collect(mb[uid]);
    if Complete(meta) then
      (d, [Downloaded(uid, meta.headerData, meta.bodyData,
                      if mp.status == MAINPART_FOUND then mp.partData else meta.partMessage)])
    else (d[uid := meta], [])
  }

  /** A violated Q_ASSERT in slotDataChanged. */
  datatype Failure = AssertionFailure

  /** The flags of a pending entry only ever go from false to true. */
  predicate FlagsGrow(m0: Metadata, m1: Metadata) {
    (m0.hasHeader ==> m1.hasHeader) && (m0.hasBody ==> m1.hasBody)
    && (m0.hasMessage ==> m1.hasMessage) && (m0.hasMainPart ==> m1.hasMainPart)
    && (m0.mainPartFailed ==> m1.mainPartFailed)
  }

  /** The entry update for a change notification on cell `a` of message `uid`; `None` when the
      notification concerns nothing the entry waits for. */
  function Absorb(it: Metadata, msg: Message, uid: nat, a: ModelIndex): (r: Option<Result<Metadata, Failure>>)
    ensures r.Some? && r.value.Ok? ==> FlagsGrow(it, r.value.value)
    ensures r.None? <==>
              a != HeaderCell(uid) && a != TextCell(uid) && !(a == MessageRow(uid) && !it.hasMessage)
              && !(it.mainPart.Some? && a == PartCell(uid, it.mainPart.value))
    ensures a == HeaderCell(uid) ==>
              r == Some(if msg.header.None? then Err(AssertionFailure)
                        else Ok(it.(hasHeader := true, headerData := msg.header.value)))
    ensures a == TextCell(uid) ==>
              r == Some(if msg.text.None? then Err(AssertionFailure)
                        else Ok(it.(hasBody := true, bodyData := msg.text.value)))
    ensures r.Some? && r.value.Err? && a == MessageRow(uid) ==> msg.parts == []
  {
    if a == HeaderCell(uid) then
      Some(if msg.header.None? then Err(AssertionFailure) else Ok(it.(hasHeader := true, headerData := msg.header.value)))
    else if a == TextCell(uid) then
      Some(if msg.text.None? then Err(AssertionFailure) else Ok(it.(hasBody := true, bodyData := msg.text.value)))
    else if a == MessageRow(uid) && !it.hasMessage then
      var mp := FindMainPartOfMessage(msg, it.partMessage);
      var it1 := it.(hasMessage := true, mainPart := mp.index, partMessage := mp.partMessage);
      Some(match mp.status
           case MAINPART_FOUND => Ok(it1.(hasMainPart := true))
           case MAINPART_MESSAGE_NOT_LOADED => Err(AssertionFailure)
           case MAINPART_PART_CANNOT_DETERMINE => Ok(it1.(mainPartFailed := true, hasMainPart := true))
           case MAINPART_PART_LOADING => Ok(it1))
    else if it.mainPart.Some? && a == PartCell(uid, it.mainPart.value) then
      Some(Ok(it.(hasMainPart := true)))
    else None
  }

  /** The final step of slotDataChanged: a complete entry is handed over, the message's data
      released and the entry erased; an incomplete one is stored back. */
  function Finish(d: Downloader, msg: Message, uid: nat, it: Metadata): (r: Result<(Downloader, seq<Notice>), Failure>)
    ensures !Complete(it) ==> r == Ok((d[uid := it], []))
    ensures Complete(it) && r.Ok? ==>
              r.value.0 == d - {uid} && |r.value.1| == 2
              && r.value.1[0].Downloaded? && r.value.1[0].uid == uid && r.value.1[1] == Released(uid)
              && r.value.1[0].header == it.headerData && r.value.1[0].body == it.bodyData
              && (it.mainPartFailed ==> r.value.1[0].mainPart == it.partMessage)
              && (!it.mainPartFailed ==>
                    it.mainPart.Some? && PartAt(msg, it.mainPart.value).Some?
                    && Some(r.value.1[0].mainPart) == PartAt(msg, it.mainPart.value).value.data)
    ensures Complete(it) && r.Err? ==>
              !msg.envelope || (!it.mainPartFailed && (it.mainPart.None? || PartAt(msg, it.mainPart.value).None?
                                                        || PartAt(msg, it.mainPart.value).value.data.None?))
  {
    if !Complete(it) then Ok((d[uid := it], []))
    else
      var data := if it.mainPart.Some? && PartAt(msg, it.mainPart.value).Some? then PartAt(msg, it.mainPart.value).value.data else None;
      if !it.mainPartFailed && data.None? then Err(AssertionFailure)
      else if !msg.envelope then Err(AssertionFailure)
      else
        var text := if it.mainPartFailed then it.partMessage else data.value;
        Ok((d - {uid}, [Downloaded(uid, it.headerData, it.bodyData, text), Released(uid)]))
  }

  /** MessageDownloader::slotDataChanged for the range from `a` to `b`. Invalid indices, ranges of
      more than one cell, indices outside a known message, messages not pending and cells the entry
      does not wait for are ignored. */
  function SlotDataChanged(d: Downloader, mb: Mailbox, a: ModelIndex, b: ModelIndex): (r: Result<(Downloader, seq<Notice>), Failure>)
    requires MailboxWf(mb)
    ensures a.Invalid? || a != b || MessageOf(a).None? || MessageOf(a).value !in mb || MessageOf(a).value !in d ==>
              r == Ok((d, []))
    ensures r.Ok? ==> r.value.0.Keys <= d.Keys && forall u | u in r.value.0 :: FlagsGrow(d[u], r.value.0[u])
    ensures r.Ok? ==> forall u | u in d && u != MessageOf(a).GetOr(0) :: u in r.value.0 && r.value.0[u] == d[u]
    ensures r.Ok? && r.value.1 != [] ==>
              MessageOf(a).Some? && r.value.0 == d - {MessageOf(a).value}
              && r.value.1[0].Downloaded? && r.value.1[0].uid == MessageOf(a).value
              && r.value.1[1..] == [Released(MessageOf(a).value)]
    ensures r.Ok? && r.value.1 == [] ==> r.value.0.Keys == d.Keys
  {
    if a.Invalid? || a != b || MessageOf(a).None? then Ok((d, []))
    else
      var uid := MessageOf(a).value;
      if uid !in mb || uid !in d then Ok((d, []))
      else
        match Absorb(d[uid], mb[uid], uid, a)
        case None => Ok((d, []))
        case Some(Err(f)) => Err(f)
        case Some(Ok(it)) =>
          var r := Finish(d, mb[uid], uid, it);
          assert r.Ok? && r.value.1 != [] ==> r.value.1[1..] == [Released(uid)];
          r
  }

  // ---------------------------------------------------------------------------------------------
  // Properties

  /** The search succeeds exactly on the parts the independent description accepts. */
  lemma {:induction false} SearchFindsMainPart(it: Item)
    ensures SearchItem(it).found.Some? <==> HasMainPart(it)
    decreases it
  {
    var mime := ToLower(it.mimeType);
    if mime == "message/rfc822" && |it.children| == 1 {
      SearchFindsMainPart(it.children[0]);
    } else if mime != "text/plain" && mime != "text/html" && mime != "message/rfc822" && StartsWith(mime, "multipart/") {
      forall j | 0 <= j < |it.children| ensures SearchItem(it.children[j]).found.Some? <==> HasMainPart(it.children[j]) {
        SearchFindsMainPart(it.children[j]);
      }
      var r := SearchChildren(it, 0);
      if r.Some? {
        assert HasMainPart(it.children[r.value[0]]);
      }
    }
  }

  /** Inside a multipart, the chosen child is the first one, in row order, that holds a main part. */
  lemma {:induction false} MultipartTakesFirstSuitable(it: Item)
    requires StartsWith(ToLower(it.mimeType), "multipart/")
    requires SearchItem(it).found.Some?
    ensures var k := SearchItem(it).found.value[0];
            k < |it.children| && HasMainPart(it.children[k])
            && forall j | 0 <= j < k :: !HasMainPart(it.children[j])
  {
    MultipartSearchesChildren(it);
    var k := SearchItem(it).found.value[0];
    SearchFindsMainPart(it.children[k]);
    forall j | 0 <= j < k ensures !HasMainPart(it.children[j]) {
      SearchFindsMainPart(it.children[j]);
    }
  }

  /** A multipart type is none of the types findMainPart tests first. */
  lemma {:induction false} MultipartSearchesChildren(it: Item)
    requires StartsWith(ToLower(it.mimeType), "multipart/")
    ensures SearchItem(it).found == SearchChildren(it, 0)
  {
    var mime := ToLower(it.mimeType);
    assert mime[0] == 'm' && mime[1] == 'u' && mime[2] == 'l';
    assert mime != "text/plain" && mime != "text/html" && mime != "message/rfc822";
  }

  /** The status is CANNOT_DETERMINE exactly when the message's first body part holds no main
      text part by the independent description. */
  lemma {:induction false} CannotDetermineMeansNoMainPart(msg: Message, partMessage: string)
    requires msg.parts != []
    ensures FindMainPartOfMessage(msg, partMessage).status == MAINPART_PART_CANNOT_DETERMINE <==> !HasMainPart(msg.parts[0])
  {
    SearchFindsMainPart(msg.parts[0]);
  }

  /** Once a message has been handed over its entry is gone: no later notification hands it over
      again until it is requested anew, and the pending count went down by one. */
  lemma {:induction false} HandedOverOnce(d: Downloader, mb: Mailbox, a: ModelIndex, b: ModelIndex, a2: ModelIndex, b2: ModelIndex)
    requires MailboxWf(mb)
    requires SlotDataChanged(d, mb, a, b).Ok? && SlotDataChanged(d, mb, a, b).value.1 != []
    ensures var d1 := SlotDataChanged(d, mb, a, b).value.0;
            MessageOf(a).Some? && MessageOf(a).value !in d1 && PendingMessages(d1) + 1 == PendingMessages(d)
            && (MessageOf(a2) == MessageOf(a) ==> SlotDataChanged(d1, mb, a2, b2) == Ok((d1, [])))
  {
    var d1 := SlotDataChanged(d, mb, a, b).value.0;
    var uid := MessageOf(a).value;
    assert d1.Keys == d.Keys - {uid};
    assert d != map[] by { assert uid in d; }
    if d1 == map[] {
      assert d.Keys == {uid};
    } else {
      assert d1.Keys != {};
    }
  }

  /** A request for a message that is not complete yet leaves it pending, and the pending count
      counts it once however often it is requested. */
  lemma {:induction false} RequestRecordsPending(d: Downloader, mb: Mailbox, uid: nat)
    requires MailboxWf(mb) && uid in mb
    requires !Complete(Collect(mb[uid]).0)
    ensures var d1 := RequestDownload(d, mb, uid).0;
            uid in d1 && PendingMessages(d1) == PendingMessages(d) + (if uid in d then 0 else 1)
            && RequestDownload(d1, mb, uid).0 == d1
  {
    var d1 := RequestDownload(d, mb, uid).0;
    assert d1.Keys == d.Keys + {uid};
    assert d1 != map[] by { assert uid in d1; }
    assert d1.Keys != {};
    if d == map[] {
      assert d1.Keys == {uid};
    } else {
      assert d.Keys != {};
    }
  }
}

=== FILE: message_model.dfy ===
/** The item model over the part tree (src/Cryptography/MessageModel.cpp): index navigation, lazy
    row counting, grafting of built or decrypted subtrees, and forwarding of change notifications
    from the remote structure. */
module MessageModel {
  import opened Wrappers
  import opened ItemRoles
  import opened SourceModel
  import opened MessagePart

  /** A model index: invalid, or a row and column pointing at a part. */
  datatype Index = Invalid | Valid(row: int, column: int, part: Handle)

  /** An index as emitted in dataChanged; its part may be missing. */
  datatype Cell = Cell(row: int, column: int, part: Option<Handle>)

  /** The notifications the model emits, in order. */
  datatype Notification =
    | RowsAboutToBeInserted(parent: Index, first: int, last: int)
    | RowsInserted(parent: Index, first: int, last: int)
    | DataChanged(topLeft: Cell, bottomRight: Cell)

  /** The part arena, the root part, the source-index-to-part map, and the notifications emitted so
      far. A map entry may be empty: reading a missing key of the map inserts one. */
  datatype Model = Model(arena: Arena, root: Option<Handle>, mapping: map<SourceIndex, Option<Handle>>, log: seq<Notification>)

  const EmptyModel := Model(EmptyArena, None, map[], [])

  /** Every mapped part is a live proxy of the source index it is mapped from. */
  predicate MapConsistent(a: Arena, mp: map<SourceIndex, Option<Handle>>) {
    forall s | s in mp && mp[s].Some? :: mp[s].value in a.nodes && a.nodes[mp[s].value].kind == Proxy(s)
  }

  /** Every proxy was registered for its source index when it was made. */
  predicate ProxiesMapped(a: Arena, mp: map<SourceIndex, Option<Handle>>) {
    forall h | h in a.nodes && a.nodes[h].kind.Proxy? :: a.nodes[h].kind.source in mp
  }

  predicate ModelWf(m: Model) {
    Wf(m.arena)
    && (m.root.Some? ==> m.root.value in m.arena.nodes)
    && MapConsistent(m.arena, m.mapping)
    && ProxiesMapped(m.arena, m.mapping)
  }

  /** MessageModel::index. Below the invalid index every (row, column) names the root part; below a
      part it names that part's child. */
  function IndexOf(m: Model, row: nat, column: int, parent: Index): (r: Index)
    requires ModelWf(m)
    requires parent.Valid? ==> parent.part in m.arena.nodes
    requires parent.Valid? ==> (column == OFFSET_RAW_CONTENTS ==> row == 0) && (column != OFFSET_RAW_CONTENTS ==> column == 0)
    ensures r.Valid? ==> r.part in m.arena.nodes && r.row == row && r.column == column
    ensures parent.Invalid? ==> (r.Valid? <==> m.root.Some?) && (r.Valid? ==> Some(r.part) == m.root)
    ensures parent.Valid? ==> (r.Valid? <==> Child(m.arena, parent.part, row, column).Some?)
    ensures parent.Valid? && r.Valid? ==> Some(r.part) == Child(m.arena, parent.part, row, column)
  {
    var child := if parent.Invalid? then m.root else Child(m.arena, parent.part, row, column);
    match child
    case None => Invalid
    case Some(c) => Valid(row, column, c)
  }

  /** MessageModel::parent. The parent's index is built with the child's row, not with the row of
      the parent itself. */
  function ParentOf(m: Model, child: Index): (r: Index)
    requires ModelWf(m)
    requires child.Valid? ==> child.part in m.arena.nodes
    ensures r.Valid? ==> r.part in m.arena.nodes && r.column == 0
    ensures r.Valid? <==> child.Valid? && m.arena.nodes[child.part].parent.Some?
    ensures r.Valid? ==> Some(r.part) == m.arena.nodes[child.part].parent && r.row == m.arena.nodes[child.part].row
  {
    if child.Invalid? then Invalid
    else
      var n := m.arena.nodes[child.part];
      if n.parent.None? then Invalid else Valid(n.row, 0, n.parent.value)
  }

  datatype RowCountResult = RowCountResult(model: Model, count: nat, build: bool)

  /** MessageModel::rowCount. Counting the rows of a local part that was never loaded marks it
      LOADING and asks the factory to build its subtree (`build`); the count returned is the number
      of children before any build. */
  function RowCount(m: Model, parent: Index): (r: RowCountResult)
    requires ModelWf(m)
    requires parent.Valid? ==> parent.part in m.arena.nodes
    ensures ModelWf(r.model) && r.model.root == m.root && r.model.mapping == m.mapping && r.model.log == m.log
    ensures parent.Invalid? ==> r.count == (if m.root.None? then 0 else 1)
    ensures parent.Valid? ==> r.count == ChildCount(m.arena, parent.part)
    ensures r.build <==> parent.Valid? && IsLocal(m.arena, parent.part) && FieldsOf(m.arena, parent.part).state == NONE
    ensures r.build ==> r.model.arena == SetFetchingState(m.arena, parent.part, LOADING)
    ensures !r.build ==> r.model == m
  {
    if parent.Invalid? then RowCountResult(m, if m.root.None? then 0 else 1, false)
    else
      var h := parent.part;
      var count := ChildCount(m.arena, h);
      if IsLocal(m.arena, h) && FieldsOf(m.arena, h).state == NONE then
        RowCountResult(m.(arena := SetFetchingState(m.arena, h, LOADING)), count, true)
      else RowCountResult(m, count, false)
  }

  /** MessageModel::columnCount */
  function ColumnCount(m: Model): (r: nat)
    ensures r <= 1 && (r == 1 <==> m.root.Some?)
  {
    if m.root.None? then 0 else 1
  }

  /** MessageModel::data: the message-wide roles are answered by the message, all others by the
      indexed part. */
  function ModelData(m: Model, t: SourceTree, idx: Index, role: Role): Value
    requires ModelWf(m) && idx.Valid? && idx.part in m.arena.nodes
    requires !role.IsMessageRole() ==> DataDefined(m.arena, t, idx.part, role)
  {
    if role == RolePartMessageIndex then MessageIndexValue
    else if role.IsMessageRole() then SourceData(t, [], role)
    else Data(m.arena, t, idx.part, role)
  }

  /** MessageModel::addIndexMapping */
  function AddIndexMapping(m: Model, s: SourceIndex, h: Handle): (r: Model)
    ensures r == m.(mapping := m.mapping[s := Some(h)])
    ensures h in m.arena.nodes && m.arena.nodes[h].kind == Proxy(s) && ModelWf(m) ==> ModelWf(r)
  {
    m.(mapping := m.mapping[s := Some(h)])
  }

  predicate Distinct(s: seq<Handle>) {
    forall i, j | 0 <= i < j < |s| :: s[i] != s[j]
  }

  /** What the first `i` steps of insertSubtree's loop leave behind, starting from `a0`: the shape of
      the parent, the links of the attached parts, and everything else untouched. */
  predicate Attached(a0: Arena, a: Arena, p: Handle, children: seq<Handle>, i: nat)
    requires p in a0.nodes && i <= |children|
  {
    AttachedShape(a0, a, p, children, i) && AttachedLinks(a0, a, p, children, i) && AttachedFrame(a0, a, p, children, i)
  }

  predicate AttachedShape(a0: Arena, a: Arena, p: Handle, children: seq<Handle>, i: nat)
    requires p in a0.nodes && i <= |children|
  {
    Wf(a) && a.nodes.Keys == a0.nodes.Keys && a.next == a0.next
    && a.nodes[p].children == children[..i]
    && a.nodes[p].parent == a0.nodes[p].parent && a.nodes[p].row == a0.nodes[p].row
  }

  predicate AttachedLinks(a0: Arena, a: Arena, p: Handle, children: seq<Handle>, i: nat)
    requires p in a0.nodes && i <= |children|
  {
    (forall j | 0 <= j < i :: children[j] in a.nodes && a.nodes[children[j]].parent == Some(p))
    && (Distinct(children) ==> forall j | 0 <= j < i :: children[j] in a.nodes && a.nodes[children[j]].row == j)
  }

  predicate AttachedFrame(a0: Arena, a: Arena, p: Handle, children: seq<Handle>, i: nat)
    requires p in a0.nodes && i <= |children|
  {
    KindsKept(a0, a) && OtherChildrenKept(a0, a, p)
    && (forall x | x in a0.nodes && x != p && x !in children[..i] :: x in a.nodes && a.nodes[x] == a0.nodes[x])
  }

  /** Every part of `a0` is still there, with its kind and raw part. */
  predicate KindsKept(a0: Arena, a: Arena) {
    forall x | x in a0.nodes :: x in a.nodes && a.nodes[x].kind == a0.nodes[x].kind && a.nodes[x].raw == a0.nodes[x].raw
  }

  /** Every part of `a0` other than `p` keeps its children. */
  predicate OtherChildrenKept(a0: Arena, a: Arena, p: Handle) {
    forall x | x in a0.nodes && x != p :: x in a.nodes && a.nodes[x].children == a0.nodes[x].children
  }

  lemma {:induction false} AttachStep(a0: Arena, a: Arena, p: Handle, children: seq<Handle>, i: nat)
    requires p in a0.nodes && i < |children| && children[i] in a0.nodes && p < children[i]
    requires Attached(a0, a, p, children, i)
    ensures Attached(a0, SetChild(a, p, i, children[i]), p, children, i + 1)
  {
    SliceSnoc(children, i);
    AttachShapeStep(a0, a, p, children, i);
    AttachLinksStep(a0, a, p, children, i);
    KindsStep(a0, a, p, children[i], i);
    OtherChildrenStep(a0, a, p, children[i], i);
    AttachRestStep(a0, a, p, children, i);
  }

  lemma {:induction false} SliceSnoc(s: seq<Handle>, i: nat)
    requires i < |s|
    ensures s[..i + 1] == s[..i] + [s[i]]
  {
  }

  lemma {:induction false} AttachShapeStep(a0: Arena, a: Arena, p: Handle, children: seq<Handle>, i: nat)
    requires p in a0.nodes && i < |children| && children[i] in a0.nodes && p < children[i]
    requires children[..i + 1] == children[..i] + [children[i]]
    requires AttachedShape(a0, a, p, children, i)
    ensures AttachedShape(a0, SetChild(a, p, i, children[i]), p, children, i + 1)
  {
  }

  lemma {:induction false} AttachLinksStep(a0: Arena, a: Arena, p: Handle, children: seq<Handle>, i: nat)
    requires p in a0.nodes && i < |children| && children[i] in a0.nodes && p < children[i]
    requires AttachedShape(a0, a, p, children, i) && AttachedLinks(a0, a, p, children, i)
    ensures AttachedLinks(a0, SetChild(a, p, i, children[i]), p, children, i + 1)
  {
  }

  lemma {:induction false} KindsStep(a0: Arena, a: Arena, p: Handle, c: Handle, i: nat)
    requires p in a.nodes && c in a.nodes && p < c && i <= |a.nodes[p].children|
    requires KindsKept(a0, a)
    ensures KindsKept(a0, SetChild(a, p, i, c))
  {
  }

  lemma {:induction false} OtherChildrenStep(a0: Arena, a: Arena, p: Handle, c: Handle, i: nat)
    requires p in a.nodes && c in a.nodes && p < c && i <= |a.nodes[p].children|
    requires OtherChildrenKept(a0, a, p)
    ensures OtherChildrenKept(a0, SetChild(a, p, i, c), p)
  {
  }

  lemma {:induction false} AttachRestStep(a0: Arena, a: Arena, p: Handle, children: seq<Handle>, i: nat)
    requires p in a0.nodes && i < |children| && children[i] in a0.nodes && p < children[i]
    requires children[..i + 1] == children[..i] + [children[i]]
    requires AttachedShape(a0, a, p, children, i)
    requires forall x | x in a0.nodes && x != p && x !in children[..i] :: x in a.nodes && a.nodes[x] == a0.nodes[x]
    ensures var b := SetChild(a, p, i, children[i]);
            forall x | x in a0.nodes && x != p && x !in children[..i + 1] :: x in b.nodes && b.nodes[x] == a0.nodes[x]
  {
    var b := SetChild(a, p, i, children[i]);
    forall x | x in a0.nodes && x != p && x !in children[..i + 1]
      ensures x in b.nodes && b.nodes[x] == a0.nodes[x]
    {
      assert x !in children[..i];
    }
  }

  /** The part-side loop of insertSubtree from step `i` on: setChild(j, 0, children[j]) for every
      remaining j in order. */
  function AttachChildren(a0: Arena, a: Arena, p: Handle, children: seq<Handle>, i: nat): (r: Arena)
    requires p in a0.nodes && i <= |children|
    requires forall c | c in children :: c in a0.nodes && p < c
    requires Attached(a0, a, p, children, i)
    ensures Attached(a0, r, p, children, |children|)
    decreases |children| - i
  {
    if i == |children| then a
    else
      assert children[i] in children;
      AttachStep(a0, a, p, children, i);
      AttachChildren(a0, SetChild(a, p, i, children[i]), p, children, i + 1)
  }

  /** The arena after grafting `children` below the part `p`: they are its children in order, each
      has `p` as parent (and its position as row, when no part is given twice), a local `p` becomes
      DONE, and no other part changes except for the parent and row of the grafted parts. */
  predicate Grafted(a0: Arena, a: Arena, p: Handle, children: seq<Handle>)
    requires p in a0.nodes
  {
    Wf(a) && a.nodes.Keys == a0.nodes.Keys && a.next == a0.next
    && a.nodes[p].children == children
    && (forall c | c in children :: a.nodes[c].parent == Some(p))
    && (Distinct(children) ==> forall i | 0 <= i < |children| :: a.nodes[children[i]].row == i)
    && a.nodes[p].parent == a0.nodes[p].parent && a.nodes[p].row == a0.nodes[p].row && a.nodes[p].raw == a0.nodes[p].raw
    && (IsLocal(a0, p) ==> IsLocal(a, p) && FieldsOf(a, p) == FieldsOf(a0, p).(state := DONE))
    && (!IsLocal(a0, p) ==> a.nodes[p].kind == a0.nodes[p].kind)
    && (forall x | x in a0.nodes && x != p ::
          a.nodes[x].kind == a0.nodes[x].kind && a.nodes[x].raw == a0.nodes[x].raw && a.nodes[x].children == a0.nodes[x].children)
    && (forall x | x in a0.nodes && x != p && x !in children :: a.nodes[x] == a0.nodes[x])
  }

  function Graft(a0: Arena, p: Handle, children: seq<Handle>): (r: Arena)
    requires Wf(a0) && p in a0.nodes && ChildCount(a0, p) == 0
    requires forall c | c in children :: c in a0.nodes && p < c
    ensures Grafted(a0, r, p, children)
  {
    assert Attached(a0, a0, p, children, 0) by {
      assert children[..0] == [];
    }
    var a1 := AttachChildren(a0, a0, p, children, 0);
    GraftDone(a0, a1, p, children);
    if IsLocal(a1, p) then SetFetchingState(a1, p, DONE) else a1
  }

  lemma {:induction false} GraftDone(a0: Arena, a1: Arena, p: Handle, children: seq<Handle>)
    requires p in a0.nodes && forall c | c in children :: c in a0.nodes && p < c
    requires Attached(a0, a1, p, children, |children|)
    ensures Grafted(a0, if IsLocal(a1, p) then SetFetchingState(a1, p, DONE) else a1, p, children)
  {
    SliceAll(children);
    ParentsLinked(a0, a1, p, children);
  }

  lemma {:induction false} SliceAll(s: seq<Handle>)
    ensures s[..|s|] == s
  {
  }

  lemma {:induction false} ParentsLinked(a0: Arena, a1: Arena, p: Handle, children: seq<Handle>)
    requires p in a0.nodes && children[..|children|] == children
    requires AttachedLinks(a0, a1, p, children, |children|)
    ensures forall c | c in children :: c in a1.nodes && a1.nodes[c].parent == Some(p)
  {
    forall c | c in children
      ensures c in a1.nodes && a1.nodes[c].parent == Some(p)
    {
      var j :| 0 <= j < |children| && children[j] == c;
    }
  }

  /** MessageModel::insertSubtree. Below a part (which must have no children yet), the given parts
      are grafted as its children; below the invalid index the first given part becomes the root.
      The announced row range runs from 0 to the number of parts, one row more than is inserted. */
  function InsertSubtree(m: Model, parent: Index, children: seq<Handle>): (r: Model)
    requires ModelWf(m)
    requires parent.Valid? ==> parent.part in m.arena.nodes && ChildCount(m.arena, parent.part) == 0
    requires parent.Valid? ==> forall c | c in children :: c in m.arena.nodes && parent.part < c
    requires parent.Invalid? ==> m.root.None? && |children| > 0 && children[0] in m.arena.nodes
    ensures ModelWf(r) && r.mapping == m.mapping
    ensures r.log == m.log + [RowsAboutToBeInserted(parent, 0, |children|), RowsInserted(parent, 0, |children|)]
    ensures parent.Invalid? ==> r.root == Some(children[0]) && r.arena == m.arena
    ensures parent.Valid? ==> r.root == m.root && Grafted(m.arena, r.arena, parent.part, children)
  {
    var log := m.log + [RowsAboutToBeInserted(parent, 0, |children|), RowsInserted(parent, 0, |children|)];
    if parent.Invalid? then m.(root := Some(children[0]), log := log)
    else GraftModel(m, parent.part, children).(log := log)
  }

  /** The rows a rows-inserted notification announces, `first` to `last` with both ends included,
      as Qt's beginInsertRows counts them. */
  function AnnouncedRows(n: Notification): int
    requires n.RowsInserted?
  {
    n.last - n.first + 1
  }

  /** As written, insertSubtree below a part announces one row more than the part then has: the
      last announced row does not exist. */
  lemma {:induction false} InsertAnnouncesMissingRow(m: Model, parent: Index, children: seq<Handle>)
    requires ModelWf(m) && parent.Valid? && parent.part in m.arena.nodes && ChildCount(m.arena, parent.part) == 0
    requires forall c | c in children :: c in m.arena.nodes && parent.part < c
    ensures var r := InsertSubtree(m, parent, children);
            var n := r.log[|r.log| - 1];
            n.RowsInserted? && n.parent == parent && n.first == 0
            && AnnouncedRows(n) == ChildCount(r.arena, parent.part) + 1
            && Child(r.arena, parent.part, n.last, 0).None?
  {
    var r := InsertSubtree(m, parent, children);
    assert r.arena.nodes[parent.part].children == children;
  }

  /** insertSubtree as evidently intended: the same graft, announced as the rows 0 to the number of
      parts minus one, and not announced at all when there are no parts. */
  function InsertSubtreeIntended(m: Model, parent: Index, children: seq<Handle>): (r: Model)
    requires ModelWf(m)
    requires parent.Valid? ==> parent.part in m.arena.nodes && ChildCount(m.arena, parent.part) == 0
    requires parent.Valid? ==> forall c | c in children :: c in m.arena.nodes && parent.part < c
    requires parent.Invalid? ==> m.root.None? && |children| > 0 && children[0] in m.arena.nodes
    ensures r == InsertSubtree(m, parent, children).(log := r.log)
    ensures children == [] ==> r.log == m.log
    ensures children != [] ==>
              |r.log| == |m.log| + 2 && r.log[..|m.log|] == m.log
              && r.log[|m.log|].RowsAboutToBeInserted? && r.log[|m.log|].parent == parent
              && r.log[|m.log| + 1].RowsInserted? && r.log[|m.log| + 1].parent == parent
              && r.log[|m.log| + 1].first == 0 == r.log[|m.log|].first && r.log[|m.log| + 1].last == r.log[|m.log|].last
    ensures children != [] && parent.Valid? ==>
              var n := r.log[|r.log| - 1];
              AnnouncedRows(n) == ChildCount(r.arena, parent.part)
              && forall k: nat | n.first <= k <= n.last :: Child(r.arena, parent.part, k, 0).Some?
  {
    var g := InsertSubtree(m, parent, children);
    if children == [] then g.(log := m.log)
    else
      var n := |children| - 1;
      g.(log := m.log + [RowsAboutToBeInserted(parent, 0, n), RowsInserted(parent, 0, n)])
  }

  /** The valid-parent branch of insertSubtree on the model's arena. */
  function GraftModel(m: Model, p: Handle, children: seq<Handle>): (r: Model)
    requires ModelWf(m) && p in m.arena.nodes && ChildCount(m.arena, p) == 0
    requires forall c | c in children :: c in m.arena.nodes && p < c
    ensures ModelWf(r) && r.mapping == m.mapping && r.root == m.root && r.log == m.log
    ensures Grafted(m.arena, r.arena, p, children)
  {
    var a := Graft(m.arena, p, children);
    GraftKeepsMap(m, a, p, children);
    m.(arena := a)
  }

  /** Grafting changes no part's proxy or local nature, so the map stays consistent. */
  lemma {:induction false} GraftKeepsMap(m: Model, a: Arena, p: Handle, children: seq<Handle>)
    requires ModelWf(m) && p in m.arena.nodes && Grafted(m.arena, a, p, children)
    ensures MapConsistent(a, m.mapping) && ProxiesMapped(a, m.mapping)
  {
    forall x | x in m.arena.nodes
      ensures a.nodes[x].kind.Proxy? == m.arena.nodes[x].kind.Proxy?
      ensures a.nodes[x].kind.Proxy? ==> a.nodes[x].kind == m.arena.nodes[x].kind
    {
      if x == p && IsLocal(m.arena, p) {
        assert IsLocal(a, p);
      }
    }
  }

  /** MessageModel::mapDataChanged. When the root exists and the top-left source index is mapped,
      the change is re-emitted for the mapped parts, keeping the source rows and columns. Looking up
      the bottom-right index adds an empty entry for it when it was not mapped. */
  function MapDataChanged(m: Model, t: SourceTree, topLeft: SourceIndex, bottomRight: SourceIndex): (r: Model)
    requires ModelWf(m)
    requires ParentIndex(topLeft) == ParentIndex(bottomRight)
    ensures ModelWf(r) && r.arena == m.arena && r.root == m.root
    ensures m.root.Some? && topLeft in m.mapping ==>
              bottomRight in r.mapping &&
              r.log == m.log + [DataChanged(Cell(IndexRow(t, topLeft), IndexColumn(topLeft), m.mapping[topLeft]),
                                            Cell(IndexRow(t, bottomRight), IndexColumn(bottomRight), r.mapping[bottomRight]))]
              && r.mapping.Keys == m.mapping.Keys + {bottomRight}
              && (bottomRight in m.mapping ==> r.mapping == m.mapping)
              && (bottomRight !in m.mapping ==> r.mapping[bottomRight] == None)
    ensures !(m.root.Some? && topLeft in m.mapping) ==> r == m
  {
    if m.root.None? || topLeft !in m.mapping then m
    else
      var mp := if bottomRight in m.mapping then m.mapping else m.mapping[bottomRight := None];
      m.(mapping := mp,
         log := m.log + [DataChanged(Cell(IndexRow(t, topLeft), IndexColumn(topLeft), m.mapping[topLeft]),
                                     Cell(IndexRow(t, bottomRight), IndexColumn(bottomRight), mp[bottomRight]))])
  }
}

=== FILE: message_part.dfy ===
/** The nodes of the cryptographic message-part tree (src/Cryptography/MessagePart.cpp).

    The tree is an arena: every part lives in `nodes` under a handle, and parts refer to each other
    by handle, as the source's parts refer to each other by address. Handles are handed out in
    increasing order; a part's parent always has a smaller handle than the part itself, because the
    source only ever attaches an existing parent to a part created after it. */
module MessagePart {
  import opened Wrappers
  import opened Text
  import opened ImapMessage
  import opened ItemRoles
  import opened SourceModel

  type Handle = nat

  /** Availability of a local part's content. */
  datatype FetchingState = NONE | UNAVAILABLE | LOADING | DONE

  /** The attributes a locally built part stores. `octets` and `hdrListPostNo` are not initialised by
      the source's constructor; a new part here starts with 0 and false. */
  datatype LocalFields = LocalFields(
    mimeType: string,
    charset: string,
    contentFormat: string,
    delSp: string,
    data: string,
    encoding: string,
    bodyFldId: string,
    bodyDisposition: string,
    multipartRelatedStartPart: string,
    filename: string,
    octets: nat,
    envelope: Option<Envelope>,
    hdrReferences: seq<string>,
    hdrListPost: seq<string>,
    hdrListPostNo: bool,
    state: FetchingState)

  /** A proxy part reads through to one index of the remote structure; a local part answers from its
      own fields. */
  datatype Kind = Proxy(source: SourceIndex) | Local(fields: LocalFields)

  datatype Node = Node(parent: Option<Handle>, children: seq<Handle>, raw: Option<Handle>, row: nat, kind: Kind)

  datatype Arena = Arena(nodes: map<Handle, Node>, next: Handle)

  const EmptyArena := Arena(map[], 0)

  predicate NodeWf(a: Arena, h: Handle)
    requires h in a.nodes
  {
    var n := a.nodes[h];
    h < a.next
    && (n.parent.Some? ==> n.parent.value in a.nodes && n.parent.value < h)
    && (forall c | c in n.children :: c in a.nodes)
    && (n.raw.Some? ==> n.raw.value in a.nodes)
  }

  /** Every handle in use is below `next`, and every reference points at a live part; parents come
      before their children. */
  predicate Wf(a: Arena) {
    forall h | h in a.nodes :: NodeWf(a, h)
  }

  predicate IsLocal(a: Arena, h: Handle) {
    h in a.nodes && a.nodes[h].kind.Local?
  }

  function FieldsOf(a: Arena, h: Handle): LocalFields
    requires IsLocal(a, h)
  {
    a.nodes[h].kind.fields
  }

  /** A freshly constructed local part of the given MIME type: no envelope, state NONE. */
  function NewLocalFields(mimeType: string): (f: LocalFields)
    ensures f.mimeType == mimeType && f.state == NONE && f.envelope == None && f.data == []
  {
    LocalFields(mimeType, [], [], [], [], [], [], [], [], [], 0, None, [], [], false, NONE)
  }

  /** Allocation of a new part below `parent`; it has no children, no raw part and row 0. */
  function Alloc(a: Arena, parent: Option<Handle>, kind: Kind): (r: (Arena, Handle))
    requires Wf(a)
    requires parent.Some? ==> parent.value in a.nodes
    ensures Wf(r.0) && r.1 == a.next && r.0.next == a.next + 1
    ensures r.1 !in a.nodes && r.0.nodes == a.nodes[r.1 := Node(parent, [], None, 0, kind)]
  {
    (Arena(a.nodes[a.next := Node(parent, [], None, 0, kind)], a.next + 1), a.next)
  }

  /** MessagePart::child: the raw part in column OFFSET_RAW_CONTENTS, a child in column 0 when the
      row exists, nothing otherwise. */
  function Child(a: Arena, h: Handle, row: nat, column: int): (r: Option<Handle>)
    requires h in a.nodes
    requires column == OFFSET_RAW_CONTENTS ==> row == 0
    requires column != OFFSET_RAW_CONTENTS ==> column == 0
    ensures Wf(a) && r.Some? ==> r.value in a.nodes
    ensures column == 0 ==> (r.Some? <==> row < |a.nodes[h].children|)
  {
    var n := a.nodes[h];
    if column == OFFSET_RAW_CONTENTS then n.raw
    else if |n.children| <= row then None
    else Some(n.children[row])
  }

  /** MessagePart::rowCount */
  function ChildCount(a: Arena, h: Handle): nat
    requires h in a.nodes
  {
    |a.nodes[h].children|
  }

  /** MessagePart::setChild: inserts `p` at `row`, makes `h` its parent and stamps it with `row`.
      Siblings that move up keep their old row. */
  function SetChild(a: Arena, h: Handle, row: nat, p: Handle): (r: Arena)
    requires h in a.nodes && p in a.nodes
    requires row <= |a.nodes[h].children|
    ensures r.next == a.next && r.nodes.Keys == a.nodes.Keys
    ensures r.nodes[h].children == a.nodes[h].children[..row] + [p] + a.nodes[h].children[row..]
    ensures r.nodes[p].parent == Some(h) && r.nodes[p].row == row
    ensures forall x | x in a.nodes && x != h && x != p :: r.nodes[x] == a.nodes[x]
    ensures r.nodes[p].kind == a.nodes[p].kind && r.nodes[p].raw == a.nodes[p].raw
    ensures r.nodes[h].kind == a.nodes[h].kind && r.nodes[h].raw == a.nodes[h].raw
    ensures h != p ==> r.nodes[p].children == a.nodes[p].children
    ensures h != p ==> r.nodes[h].parent == a.nodes[h].parent && r.nodes[h].row == a.nodes[h].row
    ensures Wf(a) && h < p ==> Wf(r)
  {
    var n := a.nodes[h];
    var a1 := a.(nodes := a.nodes[h := n.(children := n.children[..row] + [p] + n.children[row..])]);
    var pn := a1.nodes[p];
    a1.(nodes := a1.nodes[p := pn.(parent := Some(h), row := row)])
  }

  /** MessagePart::setRawPart; the source asserts that no raw part was set before. */
  function SetRawPart(a: Arena, h: Handle, p: Handle): (r: Arena)
    requires h in a.nodes && p in a.nodes
    requires a.nodes[h].raw.None?
    ensures r.next == a.next && r.nodes.Keys == a.nodes.Keys
    ensures r.nodes[h] == a.nodes[h].(raw := Some(p))
    ensures forall x | x in a.nodes && x != h :: r.nodes[x] == a.nodes[x]
    ensures Wf(a) ==> Wf(r)
  {
    a.(nodes := a.nodes[h := a.nodes[h].(raw := Some(p))])
  }

  /** Replaces the stored fields of a local part, keeping its place in the tree. */
  function SetFields(a: Arena, h: Handle, f: LocalFields): (r: Arena)
    requires IsLocal(a, h)
    ensures r.next == a.next && r.nodes.Keys == a.nodes.Keys
    ensures IsLocal(r, h) && FieldsOf(r, h) == f
    ensures var n := a.nodes[h]; var m := r.nodes[h];
            m.parent == n.parent && m.children == n.children && m.raw == n.raw && m.row == n.row
    ensures forall x | x in a.nodes && x != h :: r.nodes[x] == a.nodes[x]
    ensures Wf(a) ==> Wf(r)
  {
    a.(nodes := a.nodes[h := a.nodes[h].(kind := Local(f))])
  }

  /** LocalMessagePart::setFetchingState */
  function SetFetchingState(a: Arena, h: Handle, s: FetchingState): (r: Arena)
    requires IsLocal(a, h)
    ensures IsLocal(r, h) && FieldsOf(r, h) == FieldsOf(a, h).(state := s)
    ensures r.nodes.Keys == a.nodes.Keys && r.next == a.next
    ensures forall x | x in a.nodes && x != h :: r.nodes[x] == a.nodes[x]
    ensures Wf(a) ==> Wf(r)
  {
    SetFields(a, h, FieldsOf(a, h).(state := s))
  }

  /** LocalMessagePart::setData: storing the content also marks the part as available. */
  function SetData(a: Arena, h: Handle, d: string): (r: Arena)
    requires IsLocal(a, h)
    ensures IsLocal(r, h) && FieldsOf(r, h) == FieldsOf(a, h).(data := d, state := DONE)
    ensures r.nodes.Keys == a.nodes.Keys && r.next == a.next
    ensures forall x | x in a.nodes && x != h :: r.nodes[x] == a.nodes[x]
    ensures Wf(a) ==> Wf(r)
  {
    SetFields(a, h, FieldsOf(a, h).(data := d, state := DONE))
  }

  // ---------------------------------------------------------------------------------------------
  // Derived attributes

  /** The MIME type any part reports (the RolePartMimeType answer as bytes). */
  function MimeTypeOf(a: Arena, t: SourceTree, h: Handle): string
    requires h in a.nodes
  {
    match a.nodes[h].kind
    case Proxy(s) => ToBytes(SourceData(t, s, RolePartMimeType))
    case Local(f) => f.mimeType
  }

  /** The top-level check dereferences the parent of a local multipart part: it needs one. */
  predicate TopCheckDefined(a: Arena, h: Handle)
    requires h in a.nodes
  {
    var n := a.nodes[h];
    n.kind.Local? && StartsWith(n.kind.fields.mimeType, "multipart/") ==> n.parent.Some?
  }

  /** LocalMessagePart::isTopLevelMultipart: a multipart directly below the message or directly below
      an embedded message/... part. */
  function IsTopLevelMultipart(a: Arena, t: SourceTree, h: Handle): bool
    requires Wf(a) && IsLocal(a, h) && TopCheckDefined(a, h)
  {
    var n := a.nodes[h];
    StartsWith(n.kind.fields.mimeType, "multipart/")
    && (var p := n.parent.value;
        a.nodes[p].parent.None? || StartsWith(MimeTypeOf(a, t, p), "message/"))
  }

  /** The RolePartIsTopLevelMultipart answer of any part. */
  function TopLevelFlag(a: Arena, t: SourceTree, h: Handle): bool
    requires Wf(a) && h in a.nodes && TopCheckDefined(a, h)
  {
    match a.nodes[h].kind
    case Proxy(s) => ToBool(SourceData(t, s, RolePartIsTopLevelMultipart))
    case Local(_) => IsTopLevelMultipart(a, t, h)
  }

  /** Whether LocalMessagePart::partId, as written, can be evaluated without dereferencing a missing
      parent. */
  predicate PartIdAsWrittenDefined(a: Arena, t: SourceTree, h: Handle)
    requires Wf(a) && h in a.nodes
    decreases h
  {
    var n := a.nodes[h];
    n.kind.Local? ==>
      TopCheckDefined(a, h)
      && (IsTopLevelMultipart(a, t, h) || n.parent.None? || PartIdAsWrittenDefined(a, t, n.parent.value))
  }

  /** LocalMessagePart::partId as written: "" for a top-level multipart, otherwise the row (1-based)
      appended to the parent's identifier when that is not empty. Below a top-level multipart that
      sits inside an embedded message the parent's identifier is empty, so the embedded message's own
      number is lost. */
  function PartIdAsWritten(a: Arena, t: SourceTree, h: Handle): string
    requires Wf(a) && IsLocal(a, h) && PartIdAsWrittenDefined(a, t, h)
    decreases h
  {
    var n := a.nodes[h];
    if IsTopLevelMultipart(a, t, h) then []
    else
      var id := Decimal(n.row + 1);
      match n.parent
      case None => id
      case Some(p) =>
        var pid := match a.nodes[p].kind
                   case Proxy(s) => ToBytes(SourceData(t, s, RolePartId))
                   case Local(_) => PartIdAsWritten(a, t, p);
        if pid == [] then id else pid + "." + id
  }

  /** The part whose identifier prefixes the identifiers of `p`'s children: `p` itself, or, when `p`
      is a top-level multipart with a parent, that parent (the embedded message or the message). */
  function NumberingBase(a: Arena, t: SourceTree, p: Handle): (b: Handle)
    requires Wf(a) && p in a.nodes
    ensures b in a.nodes && b <= p
  {
    var n := a.nodes[p];
    if n.parent.Some? && TopLevelFlag(a, t, p) then n.parent.value else p
  }

  predicate PartIdDefined(a: Arena, t: SourceTree, h: Handle)
    requires Wf(a) && h in a.nodes
    decreases h
  {
    var n := a.nodes[h];
    n.kind.Local? ==>
      TopCheckDefined(a, h)
      && (IsTopLevelMultipart(a, t, h) || n.parent.None? || PartIdDefined(a, t, NumberingBase(a, t, n.parent.value)))
  }

  /** The IMAP part number of a local part (section 6.4.5 of RFC 3501): "" for a top-level multipart,
      otherwise the 1-based row appended to the number of the part that prefixes its siblings.
      This is the corrected form of LocalMessagePart::partId; see PartIdAsWritten. */
  function PartId(a: Arena, t: SourceTree, h: Handle): string
    requires Wf(a) && IsLocal(a, h) && PartIdDefined(a, t, h)
    decreases h
  {
    var n := a.nodes[h];
    if IsTopLevelMultipart(a, t, h) then []
    else
      var id := Decimal(n.row + 1);
      match n.parent
      case None => id
      case Some(p) =>
        var b := NumberingBase(a, t, p);
        var base := match a.nodes[b].kind
                    case Proxy(s) => ToBytes(SourceData(t, s, RolePartId))
                    case Local(_) => PartId(a, t, b);
        if base == [] then id else base + "." + id
  }

  /** LocalMessagePart::pathToPart: the parent's path followed by "/" and this part's row. */
  function PathToPart(a: Arena, t: SourceTree, h: Handle): string
    requires Wf(a) && IsLocal(a, h)
    decreases h
  {
    var n := a.nodes[h];
    var parentPath := match n.parent
                      case None => []
                      case Some(p) => match a.nodes[p].kind
                                      case Proxy(s) => ToBytes(SourceData(t, s, RolePartPathToPart))
                                      case Local(_) => PathToPart(a, t, p);
    parentPath + "/" + Decimal(n.row)
  }

  // ---------------------------------------------------------------------------------------------
  // The data() dispatch

  /** The roles whose answer needs the top-level check or the part identifier. */
  predicate DataDefined(a: Arena, t: SourceTree, h: Handle, role: Role)
    requires Wf(a) && h in a.nodes
  {
    a.nodes[h].kind.Local? && role != RoleIsFetched ==>
      (role in {DisplayRole, RolePartId} ==> PartIdAsWrittenDefined(a, t, h))
      && (role == RolePartIsTopLevelMultipart ==> TopCheckDefined(a, h))
  }

  /** MessagePart::data: a proxy answers what its source index answers; a local part answers from its
      fields. */
  function Data(a: Arena, t: SourceTree, h: Handle, role: Role): Value
    requires Wf(a) && h in a.nodes && DataDefined(a, t, h, role)
  {
    match a.nodes[h].kind
    case Proxy(s) => SourceData(t, s, role)
    case Local(f) => LocalData(a, t, h, role)
  }

  function LocalData(a: Arena, t: SourceTree, h: Handle, role: Role): Value
    requires Wf(a) && IsLocal(a, h) && DataDefined(a, t, h, role)
  {
    var f := FieldsOf(a, h);
    if role == RoleIsFetched then Bool(f.state == DONE)
    else if role == DisplayRole then
      if IsTopLevelMultipart(a, t, h) then Bytes(f.mimeType)
      else Bytes(PartIdAsWritten(a, t, h) + ": " + f.mimeType)
    else if role == ToolTipRole then
      if f.octets > 10000 then Bytes(Decimal(f.octets) + " bytes of data") else Bytes(f.data)
    else if role == FontRole then ItalicFont
    else if role.IsRfc822Role() && ToLower(f.mimeType) == "message/rfc822" then
      match role
      case RoleMessageEnvelope => if f.envelope.Some? then EnvelopeValue(f.envelope.value) else Null
      case RoleMessageHeaderReferences => ByteList(f.hdrReferences)
      case RoleMessageHeaderListPost => UrlList(f.hdrListPost)
      case RoleMessageHeaderListPostNo => Bool(f.hdrListPostNo)
    else
      match role
      case RoleIsUnavailable => Bool(f.state == UNAVAILABLE)
      case RolePartData => Bytes(f.data)
      case RolePartUnicodeText => if StartsWith(f.mimeType, "text/") then DecodedText(f.data, f.charset) else Null
      case RolePartMimeType => Bytes(f.mimeType)
      case RolePartCharset => Bytes(f.charset)
      case RolePartContentFormat => Bytes(f.contentFormat)
      case RolePartContentDelSp => Bytes(f.delSp)
      case RolePartEncoding => Bytes(f.encoding)
      case RolePartBodyFldId => Bytes(f.bodyFldId)
      case RolePartBodyDisposition => Bytes(f.bodyDisposition)
      case RolePartFileName => Bytes(f.filename)
      case RolePartOctets => Number(f.octets)
      case RolePartId => Bytes(PartIdAsWritten(a, t, h))
      case RolePartPathToPart => Bytes(PathToPart(a, t, h))
      case RolePartMultipartRelatedMainCid =>
        if f.multipartRelatedStartPart == [] then Bytes(f.multipartRelatedStartPart) else Null
      case RolePartIsTopLevelMultipart => Bool(IsTopLevelMultipart(a, t, h))
      case RolePartBufferPtr => BufferAddress(f.data)
      case _ => Null
  }
}

=== FILE: message_part_factory.dfy ===
/** Building the part tree from the remote structure (src/Cryptography/MessagePartFactory.cpp,
    buildProxyTree and the non-encrypted branch of buildSubtree). Every remote part gets a proxy,
    registered in the model's map; an encrypted part is replaced by a local placeholder of the same
    MIME type that keeps the proxy as its raw part. */
module MessagePartFactory {
  import opened Wrappers
  import opened ItemRoles
  import opened SourceModel
  import opened MessagePart
  import opened MessageModel

  /** The two MIME types the factory hands to a decryption helper. */
  predicate IsEncryptedType(mime: string) {
    mime == "multipart/encrypted" || mime == "application/pkcs7-mime"
  }

  /** ProxyMessagePart's constructor: a new proxy below `parent`, registered for `s`. */
  function NewProxy(m: Model, parent: Option<Handle>, s: SourceIndex): (r: (Model, Handle))
    requires ModelWf(m) && (parent.Some? ==> parent.value in m.arena.nodes)
    ensures ModelWf(r.0) && r.1 == m.arena.next && r.1 !in m.arena.nodes
    ensures r.0.arena.next == m.arena.next + 1
    ensures r.0.arena.nodes == m.arena.nodes[r.1 := Node(parent, [], None, 0, Proxy(s))]
    ensures r.0.mapping == m.mapping[s := Some(r.1)] && r.0.root == m.root && r.0.log == m.log
  {
    var (a, h) := Alloc(m.arena, parent, Proxy(s));
    (AddIndexMapping(m.(arena := a), s, h), h)
  }

  /** What building below `dest` may change: parts below `lo` other than `dest` are left alone,
      `dest` only gains children after its first `keep`, parts are only added, and the map only gains
      entries. */
  predicate BuildFrame(m: Model, r: Model, dest: Handle, keep: nat, lo: Handle)
    requires dest in m.arena.nodes && keep <= |m.arena.nodes[dest].children|
  {
    ModelWf(r) && r.root == m.root && r.log == m.log
    && r.arena.next >= m.arena.next
    && m.arena.nodes.Keys <= r.arena.nodes.Keys
    && m.mapping.Keys <= r.mapping.Keys
    && (forall x | x in m.arena.nodes && x != dest && x < lo :: r.arena.nodes[x] == m.arena.nodes[x])
    && keep <= |r.arena.nodes[dest].children|
    && r.arena.nodes[dest].children[..keep] == m.arena.nodes[dest].children[..keep]
    && r.arena.nodes[dest] == m.arena.nodes[dest].(children := r.arena.nodes[dest].children)
  }

  /** buildProxyTree(source, destination) from the `i`-th child of `src` on. `node` is the remote
      part at `src`; it only bounds the recursion. */
  function MirrorChildren(m: Model, t: SourceTree, src: SourceIndex, node: SourcePart, dest: Handle, i: nat): (r: Model)
    requires ModelWf(m) && Resolve(t.message, src) == Some(node)
    requires dest in m.arena.nodes && i <= |node.children| && ChildCount(m.arena, dest) == i
    ensures BuildFrame(m, r, dest, i, m.arena.next) && ChildCount(r.arena, dest) == |node.children|
    decreases node, |node.children| - i, 1
  {
    match ChildIndex(t, src, i, 0)
    case None =>
      ChildIndexEnd(t, src, node, i);
      m
    case Some(childSrc) =>
      ChildResolves(t, src, node, i, childSrc);
      MirrorNext(m, t, src, node, dest, i, childSrc)
  }

  /** The loop body for the valid child `childSrc`, then the rest of the loop. */
  function MirrorNext(m: Model, t: SourceTree, src: SourceIndex, node: SourcePart, dest: Handle, i: nat,
                      childSrc: SourceIndex): (r: Model)
    requires ModelWf(m) && i < |node.children| && Resolve(t.message, childSrc) == Some(node.children[i])
    requires Resolve(t.message, src) == Some(node)
    requires dest in m.arena.nodes && ChildCount(m.arena, dest) == i
    ensures BuildFrame(m, r, dest, i, m.arena.next) && ChildCount(r.arena, dest) == |node.children|
    decreases node, |node.children| - i, 0
  {
    var m1 := MirrorOne(m, t, childSrc, node.children[i], dest, i);
    var r := MirrorChildren(m1, t, src, node, dest, i + 1);
    FrameTrans(m, m1, r, dest, i, i + 1, m.arena.next, m1.arena.next);
    r
  }

  /** The first missing child index is the end of the remote part's children. */
  lemma {:induction false} ChildIndexEnd(t: SourceTree, src: SourceIndex, node: SourcePart, i: nat)
    requires Resolve(t.message, src) == Some(node) && ChildIndex(t, src, i, 0).None?
    ensures i >= |node.children|
  {
  }

  lemma {:induction false} ChildResolves(t: SourceTree, src: SourceIndex, node: SourcePart, i: nat, childSrc: SourceIndex)
    requires Resolve(t.message, src) == Some(node) && ChildIndex(t, src, i, 0) == Some(childSrc)
    ensures i < |node.children| && Resolve(t.message, childSrc) == Some(node.children[i])
  {
    ChildIndexResolves(t, src, i, 0);
  }

  /** One iteration of buildProxyTree's loop: the proxy for the child at `childSrc` with its subtree
      and raw part, then its insertion (or its placeholder's) at row `i` of `dest`. */
  function MirrorOne(m: Model, t: SourceTree, childSrc: SourceIndex, child: SourcePart, dest: Handle, i: nat): (r: Model)
    requires ModelWf(m) && Resolve(t.message, childSrc) == Some(child)
    requires dest in m.arena.nodes && ChildCount(m.arena, dest) == i
    ensures BuildFrame(m, r, dest, i, m.arena.next) && ChildCount(r.arena, dest) == i + 1
    ensures r.arena.nodes[dest].children[i] >= m.arena.next
    decreases child, |child.children| + 2
  {
    var (m3, part) := BuildProxy(m, t, childSrc, child, dest);
    var r := Install(m3, ToBytes(SourceData(t, childSrc, RolePartMimeType)), part, dest, i);
    FrameTrans(m, m3, r, dest, i, i, m.arena.next, part);
    r
  }

  /** The proxy for the remote part at `childSrc`, below `dest`, with its mirrored children and, when
      the remote part has raw contents, a proxy for those as its raw part. */
  function BuildProxy(m: Model, t: SourceTree, childSrc: SourceIndex, child: SourcePart, dest: Handle): (r: (Model, Handle))
    requires ModelWf(m) && Resolve(t.message, childSrc) == Some(child)
    requires dest in m.arena.nodes
    ensures BuildFrame(m, r.0, dest, |m.arena.nodes[dest].children|, m.arena.next)
    ensures r.0.arena.nodes[dest] == m.arena.nodes[dest]
    ensures r.1 == m.arena.next && r.1 in r.0.arena.nodes && dest < r.1
    ensures r.0.arena.nodes[r.1].parent == Some(dest) && r.0.arena.nodes[r.1].kind == Proxy(childSrc)
    decreases child, |child.children| + 1
  {
    var (m1, part) := NewProxy(m, Some(dest), childSrc);
    var m2 := MirrorChildren(m1, t, childSrc, child, part, 0);
    var m3 := AttachRawProxy(m2, t, childSrc, part);
    SliceAll(m.arena.nodes[dest].children);
    (m3, part)
  }

  /** The raw-contents proxy of a freshly built proxy, when the remote part has raw contents. */
  function AttachRawProxy(m: Model, t: SourceTree, src: SourceIndex, part: Handle): (r: Model)
    requires ModelWf(m) && part in m.arena.nodes && m.arena.nodes[part].raw.None?
    ensures ModelWf(r) && r.root == m.root && r.log == m.log && r.arena.next >= m.arena.next
    ensures m.arena.nodes.Keys <= r.arena.nodes.Keys && m.mapping.Keys <= r.mapping.Keys
    ensures forall x | x in m.arena.nodes && x != part :: r.arena.nodes[x] == m.arena.nodes[x]
    ensures r.arena.nodes[part] == m.arena.nodes[part].(raw := r.arena.nodes[part].raw)
    ensures r.arena.nodes[part].raw.Some? <==> ChildIndex(t, src, 0, OFFSET_RAW_CONTENTS).Some?
  {
    match ChildIndex(t, src, 0, OFFSET_RAW_CONTENTS)
    case Some(rawSrc) =>
      var (m1, rawPart) := NewProxy(m, Some(part), rawSrc);
      m1.(arena := SetRawPart(m1.arena, part, rawPart))
    case None => m
  }

  /** The end of buildProxyTree's loop body: a part of an encrypted type is wrapped in a local
      placeholder of the same type, with the proxy as its raw part; then the part or the placeholder
      becomes child `i` of `dest`. */
  function Install(m: Model, mime: string, part: Handle, dest: Handle, i: nat): (r: Model)
    requires ModelWf(m) && part in m.arena.nodes && dest in m.arena.nodes && dest < part
    requires ChildCount(m.arena, dest) == i
    ensures BuildFrame(m, r, dest, i, part) && ChildCount(r.arena, dest) == i + 1
    ensures r.arena.nodes[dest].children[i] >= part
  {
    if !IsEncryptedType(mime) then AttachPart(m, part, dest, i)
    else InstallPlaceholder(m, mime, part, dest, i)
  }

  /** The proxy itself becomes child `i` of `dest`. */
  function AttachPart(m: Model, part: Handle, dest: Handle, i: nat): (r: Model)
    requires ModelWf(m) && part in m.arena.nodes && dest in m.arena.nodes && dest < part
    requires ChildCount(m.arena, dest) == i
    ensures BuildFrame(m, r, dest, i, part) && ChildCount(r.arena, dest) == i + 1
    ensures r.arena.nodes[dest].children[i] == part
  {
    m.(arena := SetChild(m.arena, dest, i, part))
  }

  /** A local placeholder of type `mime`, holding the proxy as its raw part, becomes child `i` of
      `dest`. */
  function InstallPlaceholder(m: Model, mime: string, part: Handle, dest: Handle, i: nat): (r: Model)
    requires ModelWf(m) && part in m.arena.nodes && dest in m.arena.nodes && dest < part
    requires ChildCount(m.arena, dest) == i
    ensures BuildFrame(m, r, dest, i, part) && ChildCount(r.arena, dest) == i + 1
    ensures r.arena.nodes[dest].children[i] == m.arena.next && m.arena.next >= part
  {
    var (m2, dummy) := NewPlaceholder(m, mime, part, dest);
    var r := AttachPart(m2, dummy, dest, i);
    FrameTrans(m, m2, r, dest, i, i, part, dummy);
    r
  }

  /** LocalMessagePart's constructor followed by setRawPart(part): a NONE placeholder of type
      `mime` below `dest`, not yet one of its children. */
  function NewPlaceholder(m: Model, mime: string, part: Handle, dest: Handle): (r: (Model, Handle))
    requires ModelWf(m) && part in m.arena.nodes && dest in m.arena.nodes && dest < part
    ensures r.1 == m.arena.next && r.1 > part && r.1 !in m.arena.nodes
    ensures r.0 == m.(arena := r.0.arena) && r.0.arena.next == m.arena.next + 1
    ensures r.0.arena.nodes == m.arena.nodes[r.1 := Node(Some(dest), [], Some(part), 0, Local(NewLocalFields(mime)))]
    ensures ModelWf(r.0) && BuildFrame(m, r.0, dest, ChildCount(m.arena, dest), part)
  {
    var (a1, dummy) := Alloc(m.arena, Some(dest), Local(NewLocalFields(mime)));
    var a2 := SetRawPart(a1, dummy, part);
    SliceAll(m.arena.nodes[dest].children);
    (m.(arena := a2), dummy)
  }

  /** buildSubtree(message) on a new model, where the message is not itself of an encrypted type:
      a parentless proxy for the message, the mirror of its parts below it, and that proxy grafted
      as the root. */
  function BuildMessageTree(m: Model, t: SourceTree): (r: Model)
    requires ModelWf(m) && m.root.None?
    requires !IsEncryptedType(ToBytes(SourceData(t, [], RolePartMimeType)))
    ensures ModelWf(r) && r.root == Some(m.arena.next)
    ensures r.log == m.log + [RowsAboutToBeInserted(Invalid, 0, 1), RowsInserted(Invalid, 0, 1)]
  {
    var (m1, root) := NewProxy(m, None, []);
    var m2 := MirrorChildren(m1, t, [], t.message, root, 0);
    InsertSubtree(m2, Invalid, [root])
  }

  lemma {:induction false} FrameTrans(m0: Model, m1: Model, m2: Model, dest: Handle, k0: nat, k1: nat, lo0: Handle, lo1: Handle)
    requires dest in m0.arena.nodes && k0 <= k1 && k0 <= |m0.arena.nodes[dest].children| && lo0 <= lo1
    requires BuildFrame(m0, m1, dest, k0, lo0)
    requires k1 <= |m1.arena.nodes[dest].children|
    requires BuildFrame(m1, m2, dest, k1, lo1)
    ensures BuildFrame(m0, m2, dest, k0, lo0)
  {
    assert m2.arena.nodes[dest].children[..k0] == m2.arena.nodes[dest].children[..k1][..k0];
    assert m1.arena.nodes[dest].children[..k0] == m1.arena.nodes[dest].children[..k1][..k0];
  }
}

=== FILE: message_system.dfy ===
/** The message model, its factory and the two decryption helpers wired together as the factory's
    constructor connects them (src/Cryptography/MessagePartFactory.cpp:35-42): the helpers listen to
    the model's change notifications while they wait for data, and their `dataDecrypted` signal is
    the only one connected to the model. Everything outside, the view asking for row counts, the
    remote model reporting new data, the key loader and the crypto library finishing, arrives as an
    event. */
module MessageSystem {
  import opened Wrappers
  import opened ItemRoles
  import opened SourceModel
  import opened MimeEntity
  import opened MessagePart
  import opened MessageModel
  import opened MessagePartFactory
  import opened QcaHelper
  import opened DecryptionSession
  import OpenPgpHelper
  import SmimeHelper
  import FactoryProperties

  /** What the build supports: the QCA library at all, its OpenPGP, CMS and PKCS#12 providers, and
      the MIME library. */
  datatype Capabilities = Capabilities(haveQca: bool, openpgp: bool, cms: bool, pkcs12: bool, mimetic: bool)

  /** The libraries the helpers call: the build's capabilities, the header helpers of the MIME
      library, its parser, and the crypto library's base64 decoder. */
  datatype Environment = Environment(caps: Capabilities, oracles: Oracles, parse: string -> MimeEntity,
                                     decode: string -> string)

  datatype Scheme = OpenPgp | Smime

  /** The whole system: the model and the remote structure it mirrors, the factory's two helpers,
      the key loads started and not yet finished, the decryptions each helper has handed to the
      crypto library and that have not finished yet (each is its own `QCA::SecureMessage`, so
      several can be running at once), every effect the helpers produced in order, and the parts
      whose subtree construction a row count has triggered, in order. */
  datatype World = World(
    model: Model,
    source: SourceTree,
    pgp: OpenPgpHelper.PgpHelper,
    smime: SmimeHelper.SmimeHelper,
    keyLoads: nat,
    pgpRunning: nat,
    smimeRunning: nat,
    trace: seq<Effect>,
    builds: seq<Handle>)

  /** A violated assertion of the source, a path the model does not cover, or an event the
      environment cannot produce in the current state. */
  datatype Failure = AssertionFailure | NotModelled | NotDeliverable

  datatype Event =
    | ViewRowCount(index: Index)
    | SourceChanged(tree: SourceTree, topLeft: SourceIndex, bottomRight: SourceIndex)
    | KeyLoadFinished(good: bool)
    | DecryptFinished(scheme: Scheme, result: Result<string, int>)

  /** The allowed moves of a local part's fetching state: none, NONE to LOADING, or anything to DONE. */
  predicate StateStep(s: FetchingState, s': FetchingState) {
    s' == s || (s == NONE && s' == LOADING) || s' == DONE
  }

  /** `b` is a later arena than `a`: no part disappears, local parts stay local and their fetching
      state only makes allowed moves. */
  predicate Advanced(a: Arena, b: Arena) {
    a.nodes.Keys <= b.nodes.Keys
    && forall h | h in a.nodes && IsLocal(a, h) :: IsLocal(b, h) && StateStep(FieldsOf(a, h).state, FieldsOf(b, h).state)
  }

  lemma {:induction false} AdvancedTrans(a: Arena, b: Arena, c: Arena)
    requires Advanced(a, b) && Advanced(b, c)
    ensures Advanced(a, c)
  {
    forall h | h in a.nodes && IsLocal(a, h)
      ensures IsLocal(c, h) && StateStep(FieldsOf(a, h).state, FieldsOf(c, h).state)
    {
      assert IsLocal(b, h);
    }
  }

  /** Every part whose construction was triggered is a local part that has left NONE. */
  predicate BuildsLive(a: Arena, builds: seq<Handle>) {
    forall i | 0 <= i < |builds| :: IsLocal(a, builds[i]) && FieldsOf(a, builds[i]).state != NONE
  }

  predicate Inv(w: World) {
    ModelWf(w.model)
    && IndexIn(w.model, w.pgp.partIndex) && IndexIn(w.model, w.smime.partIndex)
    && BuildsLive(w.model.arena, w.builds) && Distinct(w.builds)
  }

  /** A later arena keeps the invariant's part-related facts. */
  lemma {:induction false} InvKept(w: World, w': World)
    requires Inv(w) && ModelWf(w'.model) && Advanced(w.model.arena, w'.model.arena)
    requires w'.pgp.partIndex == w.pgp.partIndex && w'.smime.partIndex == w.smime.partIndex && w'.builds == w.builds
    ensures Inv(w')
  {
    forall i | 0 <= i < |w.builds|
      ensures IsLocal(w'.model.arena, w.builds[i]) && FieldsOf(w'.model.arena, w.builds[i]).state != NONE
    {
      assert IsLocal(w.model.arena, w.builds[i]);
    }
  }

  /** Adding done local parts keeps the model well formed and only advances it. */
  lemma {:induction false} LocalGrowthKeepsWf(m: Model, b: Arena)
    requires ModelWf(m) && Wf(b) && Grows(m.arena, b) && NewPartsDone(m.arena, b)
    requires forall x | x in m.arena.nodes :: b.nodes[x] == m.arena.nodes[x]
    ensures ModelWf(m.(arena := b)) && Advanced(m.arena, b)
  {
  }

  // ---------------------------------------------------------------------------------------------
  // Opening a message

  /** MessageModel's constructor: the remote message must have its structure loaded, and the factory
      builds the mirror below a new root. A message that is itself of an encrypted type would be
      handed to a helper with an index of the remote model, which this model does not cover. */
  function Open(t: SourceTree): (r: Result<World, Failure>)
    ensures |t.message.children| == 0 ==> r == Err(AssertionFailure)
    ensures r.Ok? <==> |t.message.children| > 0 && !IsEncryptedType(ToBytes(SourceData(t, [], RolePartMimeType)))
    ensures r.Ok? ==>
              var w := r.value;
              Inv(w) && w.source == t && w.trace == [] && w.builds == [] && w.keyLoads == 0
              && w.pgpRunning == 0 && w.smimeRunning == 0
              && w.pgp == OpenPgpHelper.NewPgpHelper && w.smime == SmimeHelper.NewSmimeHelper
              && w.model.root.Some? && w.model.root.value in w.model.arena.nodes
              && w.model.arena.nodes[w.model.root.value].kind == Proxy([])
              && FactoryProperties.ChildrenMirror(w.model.arena, t, w.model.root.value, [], t.message)
  {
    if |t.message.children| == 0 then Err(AssertionFailure)
    else if IsEncryptedType(ToBytes(SourceData(t, [], RolePartMimeType))) then Err(NotModelled)
    else
      FactoryProperties.BuildMessageTreeMirrors(EmptyModel, t);
      Ok(World(BuildMessageTree(EmptyModel, t), t, OpenPgpHelper.NewPgpHelper, SmimeHelper.NewSmimeHelper, 0, 0, 0, [], []))
  }

  // ---------------------------------------------------------------------------------------------
  // Effects of the helpers

  /** What insertSubtree asserts about its arguments. */
  predicate InsertAllowed(m: Model, container: Index, parts: seq<Handle>) {
    if container.Valid? then
      container.part in m.arena.nodes && ChildCount(m.arena, container.part) == 0
      && forall c | c in parts :: c in m.arena.nodes && container.part < c
    else m.root.None? && |parts| > 0 && parts[0] in m.arena.nodes
  }

  predicate NoGraft(effects: seq<Effect>) {
    forall e | e in effects :: !e.DataDecrypted?
  }

  function KeyLoadCount(effects: seq<Effect>): nat {
    if effects == [] then 0 else (if effects[0].LoadKeyBundle? then 1 else 0) + KeyLoadCount(effects[1..])
  }

  /** The decryptions a helper's effects hand to the crypto library. */
  function StartCount(effects: seq<Effect>): nat {
    if effects == [] then 0 else (if effects[0].StartDecrypt? then 1 else 0) + StartCount(effects[1..])
  }

  /** The decryptions of the given scheme that are running. */
  function Running(w: World, scheme: Scheme): nat {
    if scheme == OpenPgp then w.pgpRunning else w.smimeRunning
  }

  /** The world with the given scheme's running decryptions set to `n`. */
  function WithRunning(w: World, scheme: Scheme, n: nat): (r: World)
    ensures Running(r, scheme) == n
  {
    if scheme == OpenPgp then w.(pgpRunning := n) else w.(smimeRunning := n)
  }

  /** A graft only moves the target to DONE. */
  lemma {:induction false} GraftAdvances(a0: Arena, a: Arena, p: Handle, children: seq<Handle>)
    requires p in a0.nodes && Grafted(a0, a, p, children)
    ensures Advanced(a0, a)
  {
    forall h | h in a0.nodes && IsLocal(a0, h)
      ensures IsLocal(a, h) && StateStep(FieldsOf(a0, h).state, FieldsOf(a, h).state)
    {
      if h != p {
        assert a.nodes[h].kind == a0.nodes[h].kind;
      }
    }
  }

  /** One effect as it reaches the model: only `dataDecrypted` is connected, to insertSubtree, whose
      assertions must hold. */
  function GraftOne(m: Model, e: Effect): (r: Result<Model, Failure>)
    requires ModelWf(m)
    ensures r.Ok? ==> ModelWf(r.value) && Advanced(m.arena, r.value.arena)
    ensures !e.DataDecrypted? ==> r == Ok(m)
    ensures e.DataDecrypted? ==> (r.Ok? <==> InsertAllowed(m, e.container, e.parts))
    ensures e.DataDecrypted? && r.Ok? && e.container.Valid? ==>
              r.value.root == m.root && Grafted(m.arena, r.value.arena, e.container.part, e.parts)
    ensures e.DataDecrypted? && r.Ok? && e.container.Invalid? ==>
              r.value.root == Some(e.parts[0]) && r.value.arena == m.arena
  {
    if !e.DataDecrypted? then Ok(m)
    else if !InsertAllowed(m, e.container, e.parts) then Err(AssertionFailure)
    else
      var r := InsertSubtree(m, e.container, e.parts);
      if e.container.Valid? then
        GraftAdvances(m.arena, r.arena, e.container.part, e.parts);
        Ok(r)
      else Ok(r)
  }

  /** The effects of one helper call, in order, as they reach the model; the first violated
      assertion stops the run. */
  function GraftAll(m: Model, effects: seq<Effect>): (r: Result<Model, Failure>)
    requires ModelWf(m)
    ensures r.Ok? ==> ModelWf(r.value) && Advanced(m.arena, r.value.arena)
    ensures NoGraft(effects) ==> r == Ok(m)
    decreases |effects|
  {
    if effects == [] then Ok(m)
    else
      assert effects[0] in effects;
      assert forall e | e in effects[1..] :: e in effects;
      match GraftOne(m, effects[0])
      case Err(f) => Err(f)
      case Ok(m1) =>
        var r := GraftAll(m1, effects[1..]);
        if r.Ok? then
          AdvancedTrans(m.arena, m1.arena, r.value.arena);
          r
        else r
  }

  /** The effects of the given scheme's helper: recorded in the trace, key loads and started
      decryptions counted, grafts applied to the model. */
  function Emit(w: World, scheme: Scheme, effects: seq<Effect>): (r: Result<World, Failure>)
    requires Inv(w)
    ensures r.Ok? ==> Inv(r.value) && Advanced(w.model.arena, r.value.model.arena)
    ensures r.Ok? ==> r.value == WithRunning(w, scheme, Running(w, scheme) + StartCount(effects)).(
                                   model := r.value.model, trace := w.trace + effects,
                                   keyLoads := w.keyLoads + KeyLoadCount(effects))
    ensures NoGraft(effects) ==> r.Ok? && r.value.model == w.model
  {
    match GraftAll(w.model, effects)
    case Err(f) => Err(f)
    case Ok(m) =>
      var w' := WithRunning(w, scheme, Running(w, scheme) + StartCount(effects)).(
                  model := m, trace := w.trace + effects, keyLoads := w.keyLoads + KeyLoadCount(effects));
      InvKept(w, w');
      Ok(w')
  }

  // ---------------------------------------------------------------------------------------------
  // Event handling

  /** MessagePartFactory::buildSubtree on a local part of the model: the exact MIME type chooses the
      helper, which runs its decrypt. A violated assertion of the helper's decrypt stops the run. The
      factory's remaining branch would build a proxy of a part of the model itself; only
      placeholders, which always have an encrypted type, ever reach this point. */
  function BuildSubtree(w: World, env: Environment, idx: Index): (r: Result<World, Failure>)
    requires Inv(w) && idx.Valid? && IsLocal(w.model.arena, idx.part)
    ensures r.Ok? ==> Inv(r.value) && r.value.model == w.model && r.value.builds == w.builds && r.value.source == w.source
    ensures r.Ok? ==> |w.trace| <= |r.value.trace| && r.value.trace[..|w.trace|] == w.trace
    ensures r.Ok? ==> r.value.pgpRunning >= w.pgpRunning && r.value.smimeRunning >= w.smimeRunning
    ensures !IsEncryptedType(FieldsOf(w.model.arena, idx.part).mimeType) ==> r == Err(NotModelled)
    ensures FieldsOf(w.model.arena, idx.part).mimeType == "multipart/encrypted" ==>
              (r.Ok? <==> !(env.caps.haveQca && env.caps.openpgp) || OpenPgpHelper.DecryptAssertions(w.model, idx))
              && (r.Ok? ==> r.value.smime == w.smime)
              && (r.Ok? && env.caps.haveQca && env.caps.openpgp ==>
                    r.value.pgp.partIndex == idx
                    && |r.value.trace| >= |w.trace| + 2
                    && r.value.trace[|w.trace|] == RequestPayload(OpenPgpHelper.ControlIndex(w.model, idx))
                    && r.value.trace[|w.trace| + 1] == RequestPayload(OpenPgpHelper.CipherIndex(w.model, idx)))
    ensures FieldsOf(w.model.arena, idx.part).mimeType == "application/pkcs7-mime" ==>
              (r.Ok? <==> !env.caps.cms || SmimeHelper.CipherIndex(w.model, idx).Valid?)
              && (r.Ok? ==> r.value.pgp == w.pgp)
              && (r.Ok? && env.caps.cms ==>
                    r.value.smime.partIndex == idx
                    && RequestPayload(SmimeHelper.CipherIndex(w.model, idx)) in r.value.trace[|w.trace|..])
  {
    var mime := FieldsOf(w.model.arena, idx.part).mimeType;
    if mime == "multipart/encrypted" then PgpBuild(w, env, idx)
    else if mime == "application/pkcs7-mime" then SmimeBuild(w, env, idx)
    else Err(NotModelled)
  }

  /** The multipart/encrypted branch of buildSubtree: OpenPGPHelper::decrypt. */
  function PgpBuild(w: World, env: Environment, idx: Index): (r: Result<World, Failure>)
    requires Inv(w) && idx.Valid? && IsLocal(w.model.arena, idx.part)
    ensures r.Ok? ==> Inv(r.value) && r.value.model == w.model && r.value.builds == w.builds && r.value.source == w.source
    ensures r.Ok? ==> r.value.smime == w.smime
    ensures r.Ok? ==> r.value.pgpRunning >= w.pgpRunning && r.value.smimeRunning == w.smimeRunning
    ensures r.Ok? ==> |w.trace| <= |r.value.trace| && r.value.trace[..|w.trace|] == w.trace
    ensures r.Ok? <==> !(env.caps.haveQca && env.caps.openpgp) || OpenPgpHelper.DecryptAssertions(w.model, idx)
    ensures r.Ok? && env.caps.haveQca && env.caps.openpgp ==>
              r.value.pgp.partIndex == idx
              && |r.value.trace| >= |w.trace| + 2
              && r.value.trace[|w.trace|] == RequestPayload(OpenPgpHelper.ControlIndex(w.model, idx))
              && r.value.trace[|w.trace| + 1] == RequestPayload(OpenPgpHelper.CipherIndex(w.model, idx))
  {
    var m := w.model;
    if env.caps.haveQca && env.caps.openpgp && !OpenPgpHelper.DecryptAssertions(m, idx) then Err(AssertionFailure)
    else
      var (s, effects) := OpenPgpHelper.Decrypt(w.pgp, m, w.source, idx, env.caps.haveQca, env.caps.openpgp);
      assert NoGraft(effects) by {
        if env.caps.haveQca && env.caps.openpgp {
          assert effects == effects[..2] + effects[2..];
        }
      }
      Emit(w.(pgp := s), OpenPgp, effects)
  }

  /** The application/pkcs7-mime branch of buildSubtree: SMIMEHelper::decrypt. */
  function SmimeBuild(w: World, env: Environment, idx: Index): (r: Result<World, Failure>)
    requires Inv(w) && idx.Valid? && IsLocal(w.model.arena, idx.part)
    ensures r.Ok? ==> Inv(r.value) && r.value.model == w.model && r.value.builds == w.builds && r.value.source == w.source
    ensures r.Ok? ==> r.value.pgp == w.pgp
    ensures r.Ok? ==> r.value.smimeRunning >= w.smimeRunning && r.value.pgpRunning == w.pgpRunning
    ensures r.Ok? ==> |w.trace| <= |r.value.trace| && r.value.trace[..|w.trace|] == w.trace
    ensures r.Ok? <==> !env.caps.cms || SmimeHelper.CipherIndex(w.model, idx).Valid?
    ensures r.Ok? && env.caps.cms ==>
              r.value.smime.partIndex == idx
              && RequestPayload(SmimeHelper.CipherIndex(w.model, idx)) in r.value.trace[|w.trace|..]
  {
    var m := w.model;
    if env.caps.cms && !SmimeHelper.CipherIndex(m, idx).Valid? then Err(AssertionFailure)
    else
      var (s, effects) := SmimeHelper.Decrypt(w.smime, m, w.source, idx, env.caps.cms, env.decode);
      assert NoGraft(effects) by {
        if env.caps.cms {
          var load := if w.smime.privateKeys == 0 then [LoadKeyBundle([])] else [];
          assert effects == effects[..|load|] + [effects[|load|]] + effects[|load| + 1..];
        }
      }
      Emit(w.(smime := s), Smime, effects)
  }

  /** A local part in NONE: the only kind of part a row count triggers. */
  predicate Untouched(m: Model, idx: Index) {
    idx.Valid? && IsLocal(m.arena, idx.part) && FieldsOf(m.arena, idx.part).state == NONE
  }

  /** The view asks MessageModel::rowCount. On an untouched placeholder the model moves it to
      LOADING, records the trigger and lets the factory build its subtree; on anything else nothing
      changes. */
  function ViewRowCountStep(w: World, env: Environment, idx: Index): (r: Result<World, Failure>)
    requires Inv(w) && IndexIn(w.model, idx)
    ensures r.Ok? ==> Inv(r.value) && Advanced(w.model.arena, r.value.model.arena) && r.value.source == w.source
    ensures r.Ok? ==> |w.trace| <= |r.value.trace| && r.value.trace[..|w.trace|] == w.trace
    ensures r.Ok? ==> r.value.pgpRunning >= w.pgpRunning && r.value.smimeRunning >= w.smimeRunning
    ensures !Untouched(w.model, idx) ==> r == Ok(w)
    ensures Untouched(w.model, idx) && r.Ok? ==>
              r.value.builds == w.builds + [idx.part]
              && r.value.model.arena == SetFetchingState(w.model.arena, idx.part, LOADING)
    ensures r.Ok? ==> !Untouched(r.value.model, idx)
  {
    var rc := RowCount(w.model, idx);
    if !rc.build then Ok(w)
    else
      var w1 := w.(model := rc.model, builds := w.builds + [idx.part]);
      assert Advanced(w.model.arena, rc.model.arena);
      assert Inv(w1) by {
        assert idx.part !in w.builds by {
          assert forall i | 0 <= i < |w.builds| :: w.builds[i] != idx.part;
        }
        InvKept(w, w1.(builds := w.builds));
      }
      BuildSubtree(w1, env, idx)
  }

  /** The remote model reports that `tree` is its new state and that the cells from `topLeft` to
      `bottomRight` changed. MessageModel::mapDataChanged forwards the notification when it knows
      the part, and each helper that is still listening then runs its completeness check. */
  function SourceChangedStep(w: World, env: Environment, tree: SourceTree, topLeft: SourceIndex, bottomRight: SourceIndex): (r: Result<World, Failure>)
    requires Inv(w) && ParentIndex(topLeft) == ParentIndex(bottomRight)
    ensures r.Ok? && Inv(r.value) && r.value.source == tree && r.value.builds == w.builds
    ensures r.value.model.arena == w.model.arena && r.value.model.root == w.model.root
    ensures |w.trace| <= |r.value.trace| && r.value.trace[..|w.trace|] == w.trace
    ensures r.value.pgpRunning >= w.pgpRunning && r.value.smimeRunning >= w.smimeRunning
    ensures !w.pgp.connected ==> r.value.pgp == w.pgp && r.value.pgpRunning == w.pgpRunning
    ensures !w.smime.connected ==> r.value.smime == w.smime
    ensures !(w.pgp.connected || w.smime.connected) ==> r.value.trace == w.trace
    ensures !(w.model.root.Some? && topLeft in w.model.mapping) ==>
              r.value.pgp == w.pgp && r.value.smime == w.smime && r.value.trace == w.trace
  {
    var m := MapDataChanged(w.model, tree, topLeft, bottomRight);
    var w1 := w.(model := m, source := tree);
    if !(w.model.root.Some? && topLeft in w.model.mapping) then Ok(w1)
    else
      var w2 := PgpDataChanged(w1, env);
      var r := SmimeDataChanged(w2, env);
      PrefixTrans(w.trace, w2.trace, r.trace);
      Ok(r)
  }

  /** The OpenPGP helper's slot for the forwarded change, when it is connected. */
  function PgpDataChanged(w: World, env: Environment): (r: World)
    requires Inv(w)
    ensures Inv(r) && r == w.(pgp := r.pgp, trace := r.trace, keyLoads := r.keyLoads, pgpRunning := r.pgpRunning)
    ensures r.pgpRunning >= w.pgpRunning
    ensures |w.trace| <= |r.trace| && r.trace[..|w.trace|] == w.trace
    ensures !w.pgp.connected ==> r == w
  {
    if w.pgp.connected then
      var (s, effects) := OpenPgpHelper.HandleDataChanged(w.pgp, w.model, w.source, env.caps.haveQca);
      Emit(w.(pgp := s), OpenPgp, effects).value
    else w
  }

  /** The S/MIME helper's slot for the forwarded change, when it is connected. */
  function SmimeDataChanged(w: World, env: Environment): (r: World)
    requires Inv(w)
    ensures Inv(r) && r == w.(smime := r.smime, trace := r.trace, keyLoads := r.keyLoads, smimeRunning := r.smimeRunning)
    ensures r.smimeRunning >= w.smimeRunning
    ensures |w.trace| <= |r.trace| && r.trace[..|w.trace|] == w.trace
    ensures !w.smime.connected ==> r == w
  {
    if w.smime.connected then
      var (s, effects) := SmimeHelper.HandleDataChanged(w.smime, w.model, w.source, env.decode);
      Emit(w.(smime := s), Smime, effects).value
    else w
  }

  /** A prefix of a prefix is a prefix. */
  lemma {:induction false} PrefixTrans<T>(x: seq<T>, y: seq<T>, z: seq<T>)
    requires |x| <= |y| && y[..|x|] == x && |y| <= |z| && z[..|y|] == y
    ensures |x| <= |z| && z[..|x|] == x
  {
    assert z[..|x|] == z[..|y|][..|x|];
  }

  /** The key loader finishes (connected only when PKCS#12 is supported): SMIMEHelper::privateKeyLoaded. */
  function KeyLoadStep(w: World, env: Environment, good: bool): (r: Result<World, Failure>)
    requires Inv(w) && w.keyLoads > 0
    ensures r.Ok? && Inv(r.value) && r.value.model == w.model && r.value.pgp == w.pgp
    ensures r.value.pgpRunning == w.pgpRunning && r.value.smimeRunning >= w.smimeRunning
    ensures r.value.keyLoads == w.keyLoads - 1 && r.value.builds == w.builds && r.value.source == w.source
    ensures !env.caps.pkcs12 ==> r.value == w.(keyLoads := w.keyLoads - 1)
    ensures env.caps.pkcs12 && !good ==> r.value.trace == w.trace + [DecryptionFailed(SmimeHelper.KeyLoadFailedText)]
    ensures env.caps.pkcs12 && good ==>
              r.value.smime.privateKeys == 1 && |w.trace| <= |r.value.trace| && r.value.trace[..|w.trace|] == w.trace
  {
    var w1 := w.(keyLoads := w.keyLoads - 1);
    if !env.caps.pkcs12 then Ok(w1)
    else
      var (s, effects) := SmimeHelper.PrivateKeyLoaded(w1.smime, w1.model, w1.source, good, env.decode);
      assert KeyLoadCount(effects) == 0 by {
        assert effects == [] || (|effects| == 1 && !effects[0].LoadKeyBundle? && effects[1..] == []);
      }
      Emit(w1.(smime := s), Smime, effects)
  }

  /** The progress of the given scheme's helper. */
  function PhaseOf(w: World, scheme: Scheme): Phase {
    if scheme == OpenPgp then w.pgp.phase else w.smime.phase
  }

  /** The crypto library finishes one of the scheme's running decryptions: the helper's
      decryptionFinished, whose new parts join the arena and whose `dataDecrypted` reaches
      insertSubtree for the container the helper remembers now, whichever container the finished
      decryption was started for. */
  function DecryptFinishedStep(w: World, env: Environment, scheme: Scheme, result: Result<string, int>): (r: Result<World, Failure>)
    requires Inv(w) && Running(w, scheme) > 0
    ensures r.Ok? ==> Inv(r.value) && Advanced(w.model.arena, r.value.model.arena)
    ensures r.Ok? ==> Running(r.value, scheme) == Running(w, scheme) - 1
    ensures r.Ok? ==> r.value.source == w.source && r.value.builds == w.builds
    ensures r.Ok? ==> |w.trace| < |r.value.trace| && r.value.trace[..|w.trace|] == w.trace
    ensures scheme == OpenPgp && r.Ok? ==> r.value.smime == w.smime
    ensures scheme == Smime && r.Ok? ==> r.value.pgp == w.pgp
    ensures result.Err? ==>
              r.Ok? && r.value.model == w.model && PhaseOf(r.value, scheme) == Failed
              && r.value.trace == w.trace + [DecryptionFailed(ErrorText(true, result.error))]
    ensures result.Ok? && r.Ok? ==> r.value.trace[|w.trace|].DataDecrypted? && PhaseOf(r.value, scheme) == Emitted
  {
    match scheme
    case OpenPgp =>
      var f := OpenPgpHelper.DecryptionFinished(w.pgp, w.model.arena, result, env.parse, env.oracles);
      LocalGrowthKeepsWf(w.model, f.arena);
      var w1 := w.(model := w.model.(arena := f.arena), pgp := f.helper, pgpRunning := w.pgpRunning - 1);
      InvKept(w, w1);
      assert StartCount(f.effects) == 0 by { assert f.effects == [f.effects[0]]; }
      var r := Emit(w1, OpenPgp, f.effects);
      if r.Ok? then AdvancedTrans(w.model.arena, w1.model.arena, r.value.model.arena); r else r
    case Smime =>
      var f := SmimeHelper.DecryptionFinished(w.smime, w.model.arena, result, env.parse, env.oracles, env.caps.mimetic);
      LocalGrowthKeepsWf(w.model, f.arena);
      var w1 := w.(model := w.model.(arena := f.arena), smime := f.helper, smimeRunning := w.smimeRunning - 1);
      InvKept(w, w1);
      assert StartCount(f.effects) == 0 by { assert f.effects == [f.effects[0]]; }
      var r := Emit(w1, Smime, f.effects);
      if r.Ok? then AdvancedTrans(w.model.arena, w1.model.arena, r.value.model.arena); r else r
  }

  /** The events the environment can produce: the view asks only about indexes of the model, the
      remote model reports ranges below one parent, the key loader finishes a load that was started,
      and the crypto library finishes one of the decryptions a helper started, in whatever state
      that helper is now. */
  predicate Deliverable(w: World, e: Event) {
    match e
    case ViewRowCount(idx) => IndexIn(w.model, idx)
    case SourceChanged(_, topLeft, bottomRight) => ParentIndex(topLeft) == ParentIndex(bottomRight)
    case KeyLoadFinished(_) => w.keyLoads > 0
    case DecryptFinished(scheme, _) => Running(w, scheme) > 0
  }

  /** One event. */
  function Deliver(w: World, env: Environment, e: Event): (r: Result<World, Failure>)
    requires Inv(w)
    ensures r.Ok? ==> Inv(r.value) && Advanced(w.model.arena, r.value.model.arena)
    ensures r.Ok? ==> |w.trace| <= |r.value.trace| && r.value.trace[..|w.trace|] == w.trace
    ensures r.Ok? ==> |w.builds| <= |r.value.builds| && r.value.builds[..|w.builds|] == w.builds
    ensures !Deliverable(w, e) ==> r == Err(NotDeliverable)
    ensures r.Ok? && e.DecryptFinished? ==> Running(r.value, e.scheme) == Running(w, e.scheme) - 1
    ensures r.Ok? && !e.DecryptFinished? ==> r.value.pgpRunning >= w.pgpRunning && r.value.smimeRunning >= w.smimeRunning
  {
    if !Deliverable(w, e) then Err(NotDeliverable)
    else
      match e
      case ViewRowCount(idx) => ViewRowCountStep(w, env, idx)
      case SourceChanged(tree, topLeft, bottomRight) => SourceChangedStep(w, env, tree, topLeft, bottomRight)
      case KeyLoadFinished(good) => KeyLoadStep(w, env, good)
      case DecryptFinished(scheme, result) => DecryptFinishedStep(w, env, scheme, result)
  }

  /** A sequence of events, stopping at the first failure. */
  function Run(w: World, env: Environment, events: seq<Event>): (r: Result<World, Failure>)
    requires Inv(w)
    ensures r.Ok? ==> Inv(r.value) && Advanced(w.model.arena, r.value.model.arena)
    ensures r.Ok? ==> |w.trace| <= |r.value.trace| && r.value.trace[..|w.trace|] == w.trace
    ensures r.Ok? ==> |w.builds| <= |r.value.builds| && r.value.builds[..|w.builds|] == w.builds
    decreases |events|
  {
    if events == [] then Ok(w)
    else
      match Deliver(w, env, events[0])
      case Err(f) => Err(f)
      case Ok(w1) =>
        var r := Run(w1, env, events[1..]);
        if r.Ok? then
          AdvancedTrans(w.model.arena, w1.model.arena, r.value.model.arena);
          PrefixTrans(w.trace, w1.trace, r.value.trace);
          PrefixTrans(w.builds, w1.builds, r.value.builds);
          r
        else r
  }
}

=== FILE: mime_entity.dfy ===
/** The parsed MIME entity the decryption helpers receive from the MIME library (mimetic::MimeEntity
    and its header types), reduced to what the core reads. The parser itself is not modelled: a
    decrypted plaintext is turned into a MimeEntity by a function the caller supplies. */
module MimeEntity {
  import opened Wrappers
  import opened Text

  datatype Param = Param(name: string, value: string)

  /** mimetic::Mailbox */
  datatype Mailbox = Mailbox(name: string, sourceroute: string, mailbox: string, domain: string)

  /** mimetic::Address: one mailbox or a named group of mailboxes. */
  datatype Address = Single(mb: Mailbox) | Group(members: seq<Mailbox>)

  datatype Header = Header(
    contentType: string,
    contentSubtype: string,
    contentTypeParams: seq<Param>,
    dispositionType: string,
    dispositionParams: seq<Param>,
    transferEncoding: string,
    contentId: string,
    date: string,
    subject: string,
    from: seq<Mailbox>,
    sender: Option<Mailbox>,
    replyTo: seq<Address>,
    to: seq<Address>,
    cc: seq<Address>,
    bcc: seq<Address>,
    inReplyTo: Option<string>,
    messageId: string)

  /** An entity: its header, its raw body, its sub-entities (for multipart and message/rfc822
      bodies) and its size in bytes. */
  datatype MimeEntity = MimeEntity(header: Header, body: string, parts: seq<MimeEntity>, size: nat)

  /** The value of the first parameter with the given name, compared without regard to ASCII case;
      empty when there is none. */
  function ParamValue(params: seq<Param>, name: string): (v: string)
    ensures v != [] ==> exists i | 0 <= i < |params| :: ToLower(params[i].name) == ToLower(name) && params[i].value == v
  {
    if params == [] then []
    else if ToLower(params[0].name) == ToLower(name) then params[0].value
    else ParamValue(params[1..], name)
  }

  /** The parameters as a QMap: a later parameter of the same name replaces an earlier one. */
  function ParamMap(params: seq<Param>): (m: map<string, string>)
    ensures m.Keys == set i | 0 <= i < |params| :: params[i].name
  {
    if params == [] then map[]
    else ParamMap(params[..|params| - 1])[params[|params| - 1].name := params[|params| - 1].value]
  }

  /** The library routines the core calls but this model does not describe. */
  datatype Oracles = Oracles(
    /** Imap::extractRfc2231Param: a parameter value, reassembled from RFC 2231 continuations. */
    extractRfc2231Param: (map<string, string>, string) -> string,
    /** Imap::decodeContentTransferEncoding: the body decoded under the named transfer encoding. */
    decodeContentTransferEncoding: (string, string) -> string)
}

=== FILE: mime_parser.dfy ===
/** Imap::MimeParser: converts a message parsed by the MIME library (mimetic) into the IMAP model's
    own part items (Mailbox::TreeItemPart). The library's parser is a function the caller supplies;
    an item's parent is the item whose `children` hold it. */
module MimeParser {
  import opened Wrappers
  import opened Text
  import opened MimeEntity
  import MP = MessagePart

  /** Mailbox::TreeItemPart, reduced to what the parser writes. The charset, protocol and file name
      are `None` until their setter runs; the item starts with no children and no data. */
  datatype TreeItemPart = TreeItemPart(
    mimeType: string,
    charset: Option<string>,
    protocol: Option<string>,
    fileName: Option<string>,
    encoding: string,
    bodyDisposition: string,
    rawData: string,
    data: string,
    children: seq<TreeItemPart>,
    status: MP.FetchingState)

  /** A freshly constructed item of the given MIME type. */
  function NewItem(mimeType: string): TreeItemPart {
    TreeItemPart(mimeType, None, None, None, [], [], [], [], [], MP.NONE)
  }

  /** The library routines the parser calls but this model does not describe. */
  datatype ParserOracles = ParserOracles(
    /** Imap::decodeTransportEncoding: the raw body decoded under the named transfer encoding. */
    decodeTransportEncoding: (string, string) -> string,
    /** mimetic::ContentDisposition::str: the disposition header value as written. */
    dispositionText: Header -> string,
    /** `QString::fromStdString(s).toLatin1()`: the bytes read as UTF-8, then written as Latin-1, so
        that a character above U+00FF, or an invalid UTF-8 sequence, comes out as '?'. */
    latin1OfUtf8: string -> string)

  /** The `type/subtype` of an entity. */
  function MimeTypeOf(h: Header): string {
    h.contentType + "/" + h.contentSubtype
  }

  /** mimetic::ContentType::isMultipart: the type is "multipart", compared without regard to case. */
  predicate IsMultipart(h: Header) {
    ToLower(h.contentType) == "multipart"
  }

  /** Sets an optional field to `v` when `v` is non-empty and leaves it alone otherwise. */
  function SetIfNonEmpty(old_: Option<string>, v: string): (r: Option<string>)
    ensures v != [] ==> r == Some(v)
    ensures v == [] ==> r == old_
  {
    if v != [] then Some(v) else old_
  }

  /** MimeParser::storeInterestingFields. Charset, protocol and file name (the content-type `name`
      parameter) are copied only when non-empty; the transfer encoding and the disposition always,
      after the UTF-8 to Latin-1 round trip. */
  function StoreInterestingFields(part: TreeItemPart, h: Header, o: ParserOracles): (r: TreeItemPart)
    ensures r.(charset := part.charset, protocol := part.protocol, fileName := part.fileName,
               encoding := part.encoding, bodyDisposition := part.bodyDisposition) == part
    ensures r.charset.Some? <==> part.charset.Some? || ParamValue(h.contentTypeParams, "charset") != []
    ensures r.protocol.Some? <==> part.protocol.Some? || ParamValue(h.contentTypeParams, "protocol") != []
    ensures r.fileName.Some? <==> part.fileName.Some? || ParamValue(h.contentTypeParams, "name") != []
    ensures r.charset != part.charset ==> r.charset.value == ParamValue(h.contentTypeParams, "charset")
    ensures r.protocol != part.protocol ==> r.protocol.value == ParamValue(h.contentTypeParams, "protocol")
    ensures r.fileName != part.fileName ==> r.fileName.value == ParamValue(h.contentTypeParams, "name")
    ensures r.encoding == o.latin1OfUtf8(h.transferEncoding) && r.bodyDisposition == o.latin1OfUtf8(o.dispositionText(h))
  {
    part.(charset := SetIfNonEmpty(part.charset, ParamValue(h.contentTypeParams, "charset")),
          protocol := SetIfNonEmpty(part.protocol, ParamValue(h.contentTypeParams, "protocol")),
          fileName := SetIfNonEmpty(part.fileName, ParamValue(h.contentTypeParams, "name")),
          encoding := o.latin1OfUtf8(h.transferEncoding),
          bodyDisposition := o.latin1OfUtf8(o.dispositionText(h)))
  }

  /** Storing the same header's fields twice stores nothing more. */
  lemma {:induction false} StoreFieldsIdempotent(part: TreeItemPart, h: Header, o: ParserOracles)
    ensures StoreInterestingFields(StoreInterestingFields(part, h, o), h, o) == StoreInterestingFields(part, h, o)
  {
  }

  /** MimeParser::createTreeItems. A multipart entity gets its sub-entities as children, in order;
      any other entity keeps its raw body, after the UTF-8 to Latin-1 round trip, and the
      transfer-decoded form of those same bytes. Every item ends in DONE. */
  function CreateTreeItems(me: MimeEntity, o: ParserOracles): (r: TreeItemPart)
    ensures r.mimeType == MimeTypeOf(me.header) && r.status == MP.DONE
    ensures r.encoding == o.latin1OfUtf8(me.header.transferEncoding)
            && r.bodyDisposition == o.latin1OfUtf8(o.dispositionText(me.header))
    ensures IsMultipart(me.header) ==> |r.children| == |me.parts| && r.rawData == [] && r.data == []
    ensures !IsMultipart(me.header) ==>
              r.children == [] && r.rawData == o.latin1OfUtf8(me.body)
              && r.data == o.decodeTransportEncoding(r.rawData, r.encoding)
    decreases me, 1
  {
    var part := StoreInterestingFields(NewItem(MimeTypeOf(me.header)), me.header, o);
    var filled :=
      if IsMultipart(me.header) then part.(children := CreateChildren(me, 0, o))
      else
        var raw := o.latin1OfUtf8(me.body);
        part.(rawData := raw, data := o.decodeTransportEncoding(raw, part.encoding));
    filled.(status := MP.DONE)
  }

  /** The items for the sub-entities of `me` from the i-th on. */
  function CreateChildren(me: MimeEntity, i: nat, o: ParserOracles): (r: seq<TreeItemPart>)
    requires i <= |me.parts|
    ensures |r| == |me.parts| - i
    decreases me, 0, |me.parts| - i
  {
    if i == |me.parts| then [] else [CreateTreeItems(me.parts[i], o)] + CreateChildren(me, i + 1, o)
  }

  /** MimeParser::parseMessage: the parent's children become a one-element list holding the parsed
      root; the previous children are dropped and nothing else of the parent changes. */
  function ParseMessage(message: string, parent: TreeItemPart, parse: string -> MimeEntity, o: ParserOracles): (r: TreeItemPart)
    ensures r.(children := parent.children) == parent
    ensures |r.children| == 1 && r.children[0].status == MP.DONE
    ensures r.children[0].mimeType == MimeTypeOf(parse(message).header)
  {
    parent.(children := [CreateTreeItems(parse(message), o)])
  }

  // ---------------------------------------------------------------------------------------------
  // Properties

  /** Every item of the tree is DONE. */
  predicate AllDone(t: TreeItemPart)
    decreases t
  {
    t.status == MP.DONE && forall i | 0 <= i < |t.children| :: AllDone(t.children[i])
  }

  /** Every optional field that was set holds a non-empty value. */
  predicate SetFieldsNonEmpty(t: TreeItemPart)
    decreases t
  {
    (t.charset.Some? ==> t.charset.value != [])
    && (t.protocol.Some? ==> t.protocol.value != [])
    && (t.fileName.Some? ==> t.fileName.value != [])
    && forall i | 0 <= i < |t.children| :: SetFieldsNonEmpty(t.children[i])
  }

  /** The item reached from `t` by following child positions `path`. */
  function ItemAt(t: TreeItemPart, path: seq<nat>): Option<TreeItemPart>
    decreases |path|
  {
    if path == [] then Some(t)
    else if path[0] < |t.children| then ItemAt(t.children[path[0]], path[1..])
    else None
  }

  /** The entity reached from `me` by following sub-entity positions `path`, descending only into
      multipart entities (the parser treats every other entity as a leaf). */
  function EntityAt(me: MimeEntity, path: seq<nat>): Option<MimeEntity>
    decreases |path|
  {
    if path == [] then Some(me)
    else if IsMultipart(me.header) && path[0] < |me.parts| then EntityAt(me.parts[path[0]], path[1..])
    else None
  }

  /** The j-th sub-entity's item sits at position j - i of the items made from row i on. */
  lemma {:induction false} ChildAt(me: MimeEntity, i: nat, j: nat, o: ParserOracles)
    requires i <= j < |me.parts|
    ensures CreateChildren(me, i, o)[j - i] == CreateTreeItems(me.parts[j], o)
    decreases j - i
  {
    var head := CreateTreeItems(me.parts[i], o);
    var rest := CreateChildren(me, i + 1, o);
    ChildrenStep(me, i, o);
    ConsIndex(head, rest, j - i);
    if i < j {
      ChildAt(me, i + 1, j, o);
    }
  }

  lemma {:induction false} ConsIndex<T>(head: T, rest: seq<T>, k: nat)
    requires k <= |rest|
    ensures ([head] + rest)[k] == if k == 0 then head else rest[k - 1]
  {
  }

  lemma {:induction false} ChildrenStep(me: MimeEntity, i: nat, o: ParserOracles)
    requires i < |me.parts|
    ensures CreateChildren(me, i, o) == [CreateTreeItems(me.parts[i], o)] + CreateChildren(me, i + 1, o)
  {
  }

  /** A multipart entity's items are the conversions of its sub-entities, in order: each child item
      has its sub-entity's MIME type. */
  lemma {:induction false} ChildrenConverted(me: MimeEntity, o: ParserOracles)
    requires IsMultipart(me.header)
    ensures var r := CreateTreeItems(me, o);
            |r.children| == |me.parts|
            && forall j | 0 <= j < |me.parts| ::
                 r.children[j] == CreateTreeItems(me.parts[j], o) && r.children[j].mimeType == MimeTypeOf(me.parts[j].header)
  {
    forall j | 0 <= j < |me.parts|
      ensures CreateTreeItems(me, o).children[j] == CreateTreeItems(me.parts[j], o)
    {
      ChildAt(me, 0, j, o);
    }
  }

  /** Every item the parser creates, at any depth, ends in DONE. */
  lemma {:induction false} CreatedAllDone(me: MimeEntity, o: ParserOracles)
    ensures AllDone(CreateTreeItems(me, o))
    decreases me
  {
    var r := CreateTreeItems(me, o);
    if IsMultipart(me.header) {
      ChildrenConverted(me, o);
      forall i | 0 <= i < |r.children| ensures AllDone(r.children[i]) {
        CreatedAllDone(me.parts[i], o);
      }
    }
  }

  /** Starting from a fresh item, a field the parser sets is never empty. */
  lemma {:induction false} CreatedFieldsNonEmpty(me: MimeEntity, o: ParserOracles)
    ensures SetFieldsNonEmpty(CreateTreeItems(me, o))
    decreases me
  {
    var r := CreateTreeItems(me, o);
    if IsMultipart(me.header) {
      ChildrenConverted(me, o);
      forall i | 0 <= i < |r.children| ensures SetFieldsNonEmpty(r.children[i]) {
        CreatedFieldsNonEmpty(me.parts[i], o);
      }
    }
  }

  /** The parsed tree has the shape of the entity tree: a path leads to an item exactly when it leads
      to an entity through multipart entities, and that item is the conversion of that entity. */
  lemma {:induction false} ItemsFollowEntities(me: MimeEntity, path: seq<nat>, o: ParserOracles)
    ensures ItemAt(CreateTreeItems(me, o), path).Some? <==> EntityAt(me, path).Some?
    ensures EntityAt(me, path).Some? ==> ItemAt(CreateTreeItems(me, o), path).value == CreateTreeItems(EntityAt(me, path).value, o)
    decreases |path|
  {
    if path != [] {
      var r := CreateTreeItems(me, o);
      if IsMultipart(me.header) && path[0] < |me.parts| {
        ChildrenConverted(me, o);
        ItemsFollowEntities(me.parts[path[0]], path[1..], o);
      } else {
        assert !IsMultipart(me.header) ==> r.children == [];
      }
    }
  }
}

=== FILE: model_properties.dfy ===
/** Properties of the message model that relate several of its operations: change forwarding
    against the map the factory fills, and the one-shot nature of the lazy build trigger. */
module ModelProperties {
  import opened Wrappers
  import opened ItemRoles
  import opened SourceModel
  import opened MessagePart
  import opened MessageModel

  /** A forwarded change names, for each mapped source index, the proxy registered for it, and that
      proxy answers every role as the changed remote part does. */
  lemma {:induction false} ForwardedChange(m: Model, t: SourceTree, topLeft: SourceIndex, bottomRight: SourceIndex, role: Role)
    requires ModelWf(m) && ParentIndex(topLeft) == ParentIndex(bottomRight)
    requires m.root.Some? && topLeft in m.mapping
    ensures var r := MapDataChanged(m, t, topLeft, bottomRight);
            |r.log| == |m.log| + 1 && r.log[|m.log|].DataChanged?
            && var cells := r.log[|m.log|];
               (cells.topLeft.part.Some? ==>
                  var h := cells.topLeft.part.value;
                  h in m.arena.nodes && m.arena.nodes[h].kind == Proxy(topLeft)
                  && Data(m.arena, t, h, role) == SourceData(t, topLeft, role))
               && (cells.bottomRight.part.Some? ==>
                  var h := cells.bottomRight.part.value;
                  h in m.arena.nodes && m.arena.nodes[h].kind == Proxy(bottomRight)
                  && Data(m.arena, t, h, role) == SourceData(t, bottomRight, role))
  {
    var r := MapDataChanged(m, t, topLeft, bottomRight);
    var cells := r.log[|m.log|];
    assert cells.topLeft.part == m.mapping[topLeft];
    if cells.bottomRight.part.Some? {
      assert bottomRight in m.mapping && cells.bottomRight.part == m.mapping[bottomRight];
    }
  }

  /** Looking up an unmapped bottom-right index leaves an empty entry behind, so a later change that
      starts at that index is forwarded, with cells that name no part. */
  lemma {:induction false} EmptyEntryForwardedLater(m: Model, t: SourceTree, topLeft: SourceIndex, bottomRight: SourceIndex)
    requires ModelWf(m) && ParentIndex(topLeft) == ParentIndex(bottomRight)
    requires m.root.Some? && topLeft in m.mapping && bottomRight !in m.mapping
    ensures var r1 := MapDataChanged(m, t, topLeft, bottomRight);
            var r2 := MapDataChanged(r1, t, bottomRight, bottomRight);
            |r2.log| == |m.log| + 2
            && r2.log[|m.log| + 1] == DataChanged(Cell(IndexRow(t, bottomRight), IndexColumn(bottomRight), None),
                                                   Cell(IndexRow(t, bottomRight), IndexColumn(bottomRight), None))
  {
    var r1 := MapDataChanged(m, t, topLeft, bottomRight);
    assert bottomRight in r1.mapping && r1.mapping[bottomRight] == None;
  }

  /** Counting the rows of the same index twice triggers the build at most once: the second count
      changes nothing and returns the same number. */
  lemma {:induction false} RowCountTwice(m: Model, parent: Index)
    requires ModelWf(m) && (parent.Valid? ==> parent.part in m.arena.nodes)
    ensures var r1 := RowCount(m, parent);
            var r2 := RowCount(r1.model, parent);
            !r2.build && r2.model == r1.model && r2.count == r1.count
  {
    var r1 := RowCount(m, parent);
    if r1.build {
      assert IsLocal(r1.model.arena, parent.part) && FieldsOf(r1.model.arena, parent.part).state == LOADING;
    }
  }
}

=== FILE: openpgp_helper.dfy ===
/** Cryptography::OpenPGPHelper: decryption of a multipart/encrypted container (section 4 of
    RFC 3156). The container's raw part mirrors the two remote body parts: the control part, which
    must announce "Version: 1", and the ciphertext. */
module OpenPgpHelper {
  import opened Wrappers
  import opened Text
  import opened SourceModel
  import opened MimeEntity
  import opened MessagePart
  import opened MessageModel
  import opened QcaHelper
  import opened DecryptionSession

  const UnsupportedVersionText := "Unable to decrypt message: Unsupported PGP/MIME version"
  const VersionMarker := "Version: 1"

  /** The helper's state: the container it works for (m_partIndex), whether it listens to the
      model's change notifications, and how far the last decryption got. */
  datatype PgpHelper = PgpHelper(partIndex: Index, connected: bool, phase: Phase)

  const NewPgpHelper := PgpHelper(Invalid, false, Idle)

  /** The raw part of the container: the mirror of the remote multipart/encrypted part. */
  function SourceIndexOf(m: Model, container: Index): Index
    requires ModelWf(m) && IndexIn(m, container)
  {
    ChildOf(m, container, 0, OFFSET_RAW_CONTENTS)
  }

  /** The control part (first child of the raw part) and the ciphertext (second child). */
  function ControlIndex(m: Model, container: Index): Index
    requires ModelWf(m) && IndexIn(m, container)
  {
    ChildOf(m, SourceIndexOf(m, container), 0, 0)
  }

  function CipherIndex(m: Model, container: Index): Index
    requires ModelWf(m) && IndexIn(m, container)
  {
    ChildOf(m, SourceIndexOf(m, container), 1, 0)
  }

  predicate BothFetched(m: Model, t: SourceTree, container: Index)
    requires ModelWf(m) && IndexIn(m, container)
  {
    Fetched(m, t, ControlIndex(m, container)) && Fetched(m, t, CipherIndex(m, container))
  }

  /** OpenPGPHelper::handleDataChanged. Nothing happens until both body parts are fetched; then the
      helper stops listening and either rejects an unsupported control part or hands the ciphertext
      to the decryptor. The ciphertext goes through `QByteArray::data()`, a C string, so the
      decryptor sees it only up to its first NUL byte; an ASCII-armored ciphertext has none and
      arrives whole (`Text.UpToNul`). */
  function HandleDataChanged(s: PgpHelper, m: Model, t: SourceTree, haveQca: bool): (r: (PgpHelper, seq<Effect>))
    requires ModelWf(m) && IndexIn(m, s.partIndex)
    ensures r.0.partIndex == s.partIndex
    ensures !(haveQca && BothFetched(m, t, s.partIndex)) <==> r == (s, [])
    ensures haveQca && BothFetched(m, t, s.partIndex) ==> !r.0.connected && |r.1| == 1
    ensures forall e | e in r.1 :: e.StartDecrypt? ==>
              r.0.phase == Decrypting && e.input == UpToNul(Payload(m, t, CipherIndex(m, s.partIndex)))
              && Contains(Payload(m, t, ControlIndex(m, s.partIndex)), VersionMarker)
    ensures forall e | e in r.1 :: e.DecryptionFailed? ==>
              r.0.phase == Failed && e.message == UnsupportedVersionText
              && !Contains(Payload(m, t, ControlIndex(m, s.partIndex)), VersionMarker)
    ensures forall e | e in r.1 :: e.StartDecrypt? || e.DecryptionFailed?
  {
    if !(haveQca && BothFetched(m, t, s.partIndex)) then (s, [])
    else
      var s1 := s.(connected := false);
      if !Contains(Payload(m, t, ControlIndex(m, s.partIndex)), VersionMarker) then
        (s1.(phase := Failed), [DecryptionFailed(UnsupportedVersionText)])
      else
        (s1.(phase := Decrypting), [StartDecrypt(UpToNul(Payload(m, t, CipherIndex(m, s.partIndex))))])
  }

  /** What OpenPGPHelper::decrypt asserts about the container: it has a raw part, a mirror with
      exactly two children. */
  predicate DecryptAssertions(m: Model, container: Index)
    requires ModelWf(m) && IndexIn(m, container)
  {
    var src := SourceIndexOf(m, container);
    src.Valid? && m.arena.nodes[src.part].kind.Proxy? && ChildCount(m.arena, src.part) == 2
  }

  /** OpenPGPHelper::decrypt. Without OpenPGP support it only reports the failure. Otherwise it
      remembers the container, starts listening, requests both body parts and checks once whether
      they are already there. */
  function Decrypt(s: PgpHelper, m: Model, t: SourceTree, container: Index, haveQca: bool, openpgp: bool): (r: (PgpHelper, seq<Effect>))
    requires ModelWf(m) && container.Valid? && IndexIn(m, container)
    requires haveQca && openpgp ==> DecryptAssertions(m, container)
    ensures !(haveQca && openpgp) ==> r == (s, [DecryptionFailed(ErrorText(haveQca, ErrorPassphrase))])
    ensures haveQca && openpgp ==>
              r.0.partIndex == container
              && |r.1| >= 2
              && r.1[0] == RequestPayload(ControlIndex(m, container)) && r.1[0].index.Valid?
              && r.1[1] == RequestPayload(CipherIndex(m, container)) && r.1[1].index.Valid?
              && (r.0, r.1[2..]) == HandleDataChanged(PgpHelper(container, true, AwaitingData), m, t, true)
  {
    if !(haveQca && openpgp) then (s, [DecryptionFailed(ErrorText(haveQca, ErrorPassphrase))])
    else
      var requests := [RequestPayload(ControlIndex(m, container)), RequestPayload(CipherIndex(m, container))];
      var (s1, effects) := HandleDataChanged(PgpHelper(container, true, AwaitingData), m, t, true);
      (s1, requests + effects)
  }

  /** The outcome of a finished decryption: the helper, the arena with any parts built, the effects. */
  datatype Finished = Finished(helper: PgpHelper, arena: Arena, effects: seq<Effect>)

  /** OpenPGPHelper::decryptionFinished as evidently intended: the parts are handed over for
      `container`, the container whose ciphertext this decryption was started for. A failure is
      reported with the library's error text. A success is parsed as a MIME entity (`parse` stands
      for the MIME library), converted to parts with the helper's own conversion, which records no
      envelopes, and the children of the parsed root, not the root itself, are handed over. The
      helper's remembered container plays no part. */
  function DecryptionFinishedFor(s: PgpHelper, container: Index, a: Arena, result: Result<string, int>,
                                 parse: string -> MimeEntity, o: Oracles): (r: Finished)
    requires Wf(a)
    ensures Wf(r.arena) && Grows(a, r.arena) && NewPartsDone(a, r.arena)
    ensures forall x | x in a.nodes :: r.arena.nodes[x] == a.nodes[x]
    ensures r.helper == s.(phase := r.helper.phase) && |r.effects| == 1
    ensures result.Err? ==>
              r.arena == a && r.helper.phase == Failed
              && r.effects == [DecryptionFailed(ErrorText(true, result.error))]
    ensures result.Ok? ==>
              var me := parse(result.value);
              r.helper.phase == Emitted
              && r.effects[0].DataDecrypted? && r.effects[0].container == container
              && |r.effects[0].parts| == |me.parts|
              && forall i | 0 <= i < |me.parts| ::
                   var p := r.effects[0].parts[i];
                   p in r.arena.nodes && a.next < p && Built(r.arena, p, me.parts[i], Adapter(o, false))
  {
    match result
    case Err(code) => Finished(s.(phase := Failed), a, [DecryptionFailed(ErrorText(true, code))])
    case Ok(plaintext) =>
      var me := parse(plaintext);
      var (a1, root) := MimeEntityToPart(a, me, Adapter(o, false));
      var parts := a1.nodes[root].children;
      BuiltChildren(a1, root, me, Adapter(o, false));
      Finished(s.(phase := Emitted), a1, [DataDecrypted(container, parts)])
  }

  /** OpenPGPHelper::decryptionFinished as written: the parts are handed over for the container
      the helper remembers when the decryption finishes (`m_partIndex`), which a later `decrypt`
      for another container has overwritten while this decryption was running. */
  function DecryptionFinished(s: PgpHelper, a: Arena, result: Result<string, int>,
                              parse: string -> MimeEntity, o: Oracles): (r: Finished)
    requires Wf(a)
    ensures r == DecryptionFinishedFor(s, s.partIndex, a, result, parse, o)
    ensures result.Ok? ==> r.effects[0].DataDecrypted? && r.effects[0].container == s.partIndex
  {
    DecryptionFinishedFor(s, s.partIndex, a, result, parse, o)
  }
}

=== FILE: part_properties.dfy ===
/** Properties of the part tree: what the structural setters leave behind, how the derived
    identifiers relate to the tree, and the part-number discrepancy of LocalMessagePart::partId. */
module PartProperties {
  import opened Wrappers
  import opened Text
  import opened ItemRoles
  import opened SourceModel
  import opened MessagePart

  /** After setChild the new part is found at its row; earlier children stay, later ones move up by
      one. */
  lemma {:induction false} SetChildThenChild(a: Arena, h: Handle, row: nat, p: Handle)
    requires h in a.nodes && p in a.nodes
    requires row <= |a.nodes[h].children|
    ensures var r := SetChild(a, h, row, p);
            Child(r, h, row, 0) == Some(p)
            && ChildCount(r, h) == ChildCount(a, h) + 1
            && (forall j | 0 <= j < row :: Child(r, h, j, 0) == Child(a, h, j, 0))
            && (forall j | row < j <= ChildCount(a, h) :: Child(r, h, j, 0) == Child(a, h, j - 1, 0))
  {
  }

  /** setChild stamps only the inserted part: when a parent's children carried their rows, inserting
      before the end leaves every child that moved up with its old row. */
  lemma {:induction false} InsertLeavesStaleRows(a: Arena, h: Handle, row: nat, p: Handle)
    requires h in a.nodes && p in a.nodes && h != p
    requires row <= |a.nodes[h].children|
    requires p !in a.nodes[h].children && h !in a.nodes[h].children
    requires forall i | 0 <= i < |a.nodes[h].children| ::
               a.nodes[h].children[i] in a.nodes && a.nodes[a.nodes[h].children[i]].row == i
    ensures var r := SetChild(a, h, row, p);
            forall j | row < j < |r.nodes[h].children| :: r.nodes[r.nodes[h].children[j]].row == j - 1
  {
    var r := SetChild(a, h, row, p);
    var cs := a.nodes[h].children;
    forall j | row < j < |r.nodes[h].children|
      ensures r.nodes[r.nodes[h].children[j]].row == j - 1
    {
      assert r.nodes[h].children[j] == cs[j - 1];
      assert cs[j - 1] in cs;
    }
  }

  /** setRawPart fills the raw slot, which is then read back in column OFFSET_RAW_CONTENTS; the slot
      is no longer empty, so a second setRawPart on the same part violates its precondition. */
  lemma {:induction false} SetRawPartThenChild(a: Arena, h: Handle, p: Handle)
    requires h in a.nodes && p in a.nodes && a.nodes[h].raw.None?
    ensures var r := SetRawPart(a, h, p);
            Child(r, h, 0, OFFSET_RAW_CONTENTS) == Some(p) && r.nodes[h].raw.Some?
            && r.nodes[h].children == a.nodes[h].children
  {
  }

  /** A proxy part answers every role exactly as its source index does. */
  lemma {:induction false} ProxyReadsThrough(a: Arena, t: SourceTree, h: Handle, role: Role)
    requires Wf(a) && h in a.nodes && a.nodes[h].kind.Proxy?
    ensures DataDefined(a, t, h, role)
    ensures Data(a, t, h, role) == SourceData(t, a.nodes[h].kind.source, role)
  {
  }

  /** setData makes the content readable and the part fetched; it changes no other part's answers. */
  lemma {:induction false} SetDataThenData(a: Arena, t: SourceTree, h: Handle, d: string)
    requires Wf(a) && IsLocal(a, h)
    ensures var r := SetData(a, h, d);
            Wf(r) && Data(r, t, h, RolePartData) == Bytes(d) && Data(r, t, h, RoleIsFetched) == Bool(true)
            && Data(r, t, h, RoleIsUnavailable) == Bool(false)
  {
  }

  /** The fetched and unavailable flags of a local part reflect its fetching state, and are never both
      set. */
  lemma {:induction false} FetchFlags(a: Arena, t: SourceTree, h: Handle)
    requires Wf(a) && IsLocal(a, h)
    ensures Data(a, t, h, RoleIsFetched) == Bool(FieldsOf(a, h).state == DONE)
    ensures Data(a, t, h, RoleIsUnavailable) == Bool(FieldsOf(a, h).state == UNAVAILABLE)
    ensures !(ToBool(Data(a, t, h, RoleIsFetched)) && ToBool(Data(a, t, h, RoleIsUnavailable)))
  {
  }

  /** The multipart/related start part is reported only while it is empty: a part that names its
      start part answers nothing. */
  lemma {:induction false} MainCidOnlyWhenEmpty(a: Arena, t: SourceTree, h: Handle)
    requires Wf(a) && IsLocal(a, h)
    ensures IsValid(Data(a, t, h, RolePartMultipartRelatedMainCid)) <==> FieldsOf(a, h).multipartRelatedStartPart == []
  {
  }

  /** The embedded-message roles are answered only by a message/rfc822 part (compared without
      regard to case); such a part answers all of them, the envelope only when it has one. */
  lemma {:induction false} Rfc822RolesOnlyForMessages(a: Arena, t: SourceTree, h: Handle, role: Role)
    requires Wf(a) && IsLocal(a, h) && role.IsRfc822Role()
    ensures DataDefined(a, t, h, role)
    ensures ToLower(FieldsOf(a, h).mimeType) != "message/rfc822" ==> Data(a, t, h, role) == Null
    ensures ToLower(FieldsOf(a, h).mimeType) == "message/rfc822" ==>
              (Data(a, t, h, role) != Null <==> role != RoleMessageEnvelope || FieldsOf(a, h).envelope.Some?)
  {
    assert !(role in {DisplayRole, RolePartId}) && role != RolePartIsTopLevelMultipart;
    assert role != RoleIsFetched && role != DisplayRole && role != ToolTipRole && role != FontRole;
  }

  /** Decoded text is offered only for text/... parts, and then it is the content decoded under the
      part's charset. */
  lemma {:induction false} UnicodeTextOnlyForText(a: Arena, t: SourceTree, h: Handle)
    requires Wf(a) && IsLocal(a, h)
    ensures DataDefined(a, t, h, RolePartUnicodeText)
    ensures Data(a, t, h, RolePartUnicodeText) != Null <==> StartsWith(FieldsOf(a, h).mimeType, "text/")
    ensures StartsWith(FieldsOf(a, h).mimeType, "text/") ==>
              Data(a, t, h, RolePartUnicodeText) == DecodedText(FieldsOf(a, h).data, FieldsOf(a, h).charset)
  {
    assert !RolePartUnicodeText.IsRfc822Role();
  }

  /** The roles a local part has an answer for, apart from the embedded-message roles. */
  predicate LocalRole(role: Role) {
    role in {RoleIsFetched, RoleIsUnavailable, RolePartData, RolePartUnicodeText, RolePartMimeType,
             RolePartCharset, RolePartContentFormat, RolePartContentDelSp, RolePartEncoding,
             RolePartBodyFldId, RolePartBodyDisposition, RolePartFileName, RolePartOctets, RolePartId,
             RolePartPathToPart, RolePartMultipartRelatedMainCid, RolePartIsTopLevelMultipart,
             RolePartBufferPtr, DisplayRole, ToolTipRole, FontRole}
  }

  /** Every other role (RolePartForceFetchFromCache among them), and an embedded-message role asked
      of a part that is not message/rfc822, gets the empty answer. */
  lemma {:induction false} UnknownRolesAnswerNothing(a: Arena, t: SourceTree, h: Handle, role: Role)
    requires Wf(a) && IsLocal(a, h)
    requires !LocalRole(role)
    requires role.IsRfc822Role() ==> ToLower(FieldsOf(a, h).mimeType) != "message/rfc822"
    ensures DataDefined(a, t, h, role) && Data(a, t, h, role) == Null
  {
    assert role != RoleIsFetched && role != DisplayRole && role != ToolTipRole && role != FontRole;
    assert role != RolePartId && role != RolePartIsTopLevelMultipart;
    if role.IsRfc822Role() {
      Rfc822RolesOnlyForMessages(a, t, h, role);
    }
  }

  /** The display text of a part that is not a top-level multipart starts with its part number. */
  lemma {:induction false} DisplayShowsPartId(a: Arena, t: SourceTree, h: Handle)
    requires Wf(a) && IsLocal(a, h) && PartIdAsWrittenDefined(a, t, h)
    requires !IsTopLevelMultipart(a, t, h)
    ensures StartsWith(ToBytes(Data(a, t, h, DisplayRole)), PartIdAsWritten(a, t, h) + ": ")
  {
    var s := PartIdAsWritten(a, t, h) + ": ";
    assert ToBytes(Data(a, t, h, DisplayRole)) == s + FieldsOf(a, h).mimeType;
    assert (s + FieldsOf(a, h).mimeType)[..|s|] == s;
  }

  /** The path of a local part ends with "/" and its own row. */
  lemma {:induction false} PathEndsWithRow(a: Arena, t: SourceTree, h: Handle)
    requires Wf(a) && IsLocal(a, h)
    ensures EndsWith(PathToPart(a, t, h), "/" + Decimal(a.nodes[h].row))
  {
    var n := a.nodes[h];
    var pp := PathToPart(a, t, h)[..|PathToPart(a, t, h)| - |"/" + Decimal(n.row)|];
    assert PathToPart(a, t, h) == pp + ("/" + Decimal(n.row));
  }

  /** The path a local part's parent contributes to its own path. */
  function ParentPath(a: Arena, t: SourceTree, h: Handle): string
    requires Wf(a) && IsLocal(a, h)
  {
    match a.nodes[h].parent
    case None => []
    case Some(p) => match a.nodes[p].kind
                    case Proxy(s) => ToBytes(SourceData(t, s, RolePartPathToPart))
                    case Local(_) => PathToPart(a, t, p)
  }

  /** Two local siblings in different rows have different paths. */
  lemma {:induction false} SiblingPathsDiffer(a: Arena, t: SourceTree, h1: Handle, h2: Handle)
    requires Wf(a) && IsLocal(a, h1) && IsLocal(a, h2)
    requires a.nodes[h1].parent == a.nodes[h2].parent
    requires a.nodes[h1].row != a.nodes[h2].row
    ensures PathToPart(a, t, h1) != PathToPart(a, t, h2)
  {
    var r1, r2 := a.nodes[h1].row, a.nodes[h2].row;
    var pp := ParentPath(a, t, h1);
    assert ParentPath(a, t, h2) == pp;
    assert PathToPart(a, t, h1) == pp + ("/" + Decimal(r1));
    assert PathToPart(a, t, h2) == pp + ("/" + Decimal(r2));
    if PathToPart(a, t, h1) == PathToPart(a, t, h2) {
      PrefixCancel(pp, "/" + Decimal(r1), "/" + Decimal(r2));
      PrefixCancel("/", Decimal(r1), Decimal(r2));
      DecimalInjective(r1, r2);
    }
  }

  // ---------------------------------------------------------------------------------------------
  // Part numbers below an embedded message

  /** An empty remote structure, for trees made only of local parts. */
  const NoSource := SourceTree(0, SourcePart(map[], [], None))

  /** A decrypted message/rfc822 part in row 1 (part 2) whose body is a multipart/mixed holding a
      text/plain part: handles 0, 1 and 2. */
  const ForwardedArena := Arena(map[
      0 := Node(None, [1], None, 1, Local(NewLocalFields("message/rfc822"))),
      1 := Node(Some(0), [2], None, 0, Local(NewLocalFields("multipart/mixed"))),
      2 := Node(Some(1), [], None, 0, Local(NewLocalFields("text/plain")))], 3)

  lemma {:induction false} MimeTypePrefixes()
    ensures !StartsWith("message/rfc822", "multipart/") && !StartsWith("text/plain", "multipart/")
    ensures StartsWith("multipart/mixed", "multipart/") && StartsWith("message/rfc822", "message/")
  {
    assert "message/rfc822"[1] != "multipart/"[1];
    assert "text/plain"[0] != "multipart/"[0];
    assert "multipart/mixed"[..10] == "multipart/";
    assert "message/rfc822"[..8] == "message/";
  }

  /** partId as written labels the text part of the embedded message "1", and that is what the part
      answers for RolePartId; its IMAP number is "2.1". */
  lemma {:induction false} PartIdAsWrittenDropsMessageNumber()
    ensures Wf(ForwardedArena) && PartIdAsWrittenDefined(ForwardedArena, NoSource, 2)
    ensures PartIdAsWrittenDefined(ForwardedArena, NoSource, 0)
    ensures PartIdAsWritten(ForwardedArena, NoSource, 2) == "1"
    ensures PartIdAsWritten(ForwardedArena, NoSource, 0) == "2"
  {
    var a := ForwardedArena;
    MimeTypePrefixes();
    assert Decimal(1) == "1" && Decimal(2) == "2";
    assert !IsTopLevelMultipart(a, NoSource, 0);
    assert IsTopLevelMultipart(a, NoSource, 1);
    assert PartIdAsWritten(a, NoSource, 1) == [];
  }

  /** The part answers RolePartId with the identifier as written. */
  lemma {:induction false} ForwardedTextAnswersAsWritten()
    ensures Wf(ForwardedArena) && DataDefined(ForwardedArena, NoSource, 2, RolePartId)
    ensures Data(ForwardedArena, NoSource, 2, RolePartId) == Bytes("1")
  {
    PartIdAsWrittenDropsMessageNumber();
    assert !RolePartId.IsRfc822Role();
  }

  /** The corrected part number of the same part carries the embedded message's number. */
  lemma {:induction false} PartIdKeepsMessageNumber()
    ensures Wf(ForwardedArena) && PartIdDefined(ForwardedArena, NoSource, 2)
    ensures PartId(ForwardedArena, NoSource, 2) == "2.1"
  {
    var a := ForwardedArena;
    MimeTypePrefixes();
    assert Decimal(1) == "1" && Decimal(2) == "2";
    assert !IsTopLevelMultipart(a, NoSource, 0);
    assert IsTopLevelMultipart(a, NoSource, 1);
    assert NumberingBase(a, NoSource, 1) == 0;
    assert PartId(a, NoSource, 0) == "2";
  }

  /** In general, below a local top-level multipart whose parent is a local part with a number, a
      part's number is that number followed by its own 1-based row. */
  lemma {:induction false} PartIdBelowEmbeddedMessage(a: Arena, t: SourceTree, h: Handle)
    requires Wf(a) && IsLocal(a, h) && PartIdDefined(a, t, h)
    requires !IsTopLevelMultipart(a, t, h)
    requires a.nodes[h].parent.Some?
    requires var p := a.nodes[h].parent.value;
             IsLocal(a, p) && a.nodes[p].parent.Some? && IsLocal(a, a.nodes[p].parent.value)
             && TopCheckDefined(a, p) && IsTopLevelMultipart(a, t, p)
    ensures var g := a.nodes[a.nodes[h].parent.value].parent.value;
            PartIdDefined(a, t, g)
            && (PartId(a, t, g) != [] ==> PartId(a, t, h) == PartId(a, t, g) + "." + Decimal(a.nodes[h].row + 1))
  {
  }

  /** The path of the text part above is the chain of rows from the topmost local part. */
  lemma {:induction false} ForwardedPath()
    ensures Wf(ForwardedArena) && PathToPart(ForwardedArena, NoSource, 2) == "/1/0/0"
  {
    assert Decimal(0) == "0" && Decimal(1) == "1";
  }
}

=== FILE: part_widget.dfy ===
/** The selection rules of the multipart widgets (Gui::MultipartAlternativeWidget and
    Gui::MultipartSignedWidget): which child of a multipart/alternative is shown, which children are
    created hidden, which tabs carry a warning, and how a multipart/signed part is laid out by its
    number of children. Widgets themselves are not modelled; a child is described by its MIME type. */
module PartWidget {
  import opened Text

  /** A PartWidgetFactory::PartLoadingOption. The two options the rules read or set are named; the
      others are told apart by their bit. The numeric values are declared in PartWidgetFactory.h,
      which is not part of this model. */
  datatype LoadingOption = PART_PREFER_PLAINTEXT_OVER_HTML | PART_IS_HIDDEN | OtherOption(bit: nat)

  /** A PartLoadingOptions value: the set of options whose bit is set. */
  type LoadingOptions = set<LoadingOption>

  /** filteredForEmbedding: the options that only make sense for one level of nesting are dropped,
      that is, only those in MASK_PROPAGATE_WHEN_EMBEDDING (the parameter `mask`) survive. */
  function FilteredForEmbedding(options: LoadingOptions, mask: LoadingOptions): (r: LoadingOptions)
    ensures forall o :: o in r <==> o in options && o in mask
  {
    options * mask
  }

  const PlainType := "text/plain"
  const HtmlType := "text/html"

  /** The MIME type the first loop of MultipartAlternativeWidget looks for. */
  function PreferredTextType(options: LoadingOptions): string {
    if PART_PREFER_PLAINTEXT_OVER_HTML in options then PlainType else HtmlType
  }

  /** Reference definition: the position of the last child of the given type, or -1 when there is none. */
  function LastIndexOf(types: seq<string>, t: string): (r: int)
    ensures -1 <= r < |types|
    decreases |types|
  {
    if types == [] then -1
    else if types[|types| - 1] == t then |types| - 1
    else LastIndexOf(types[..|types| - 1], t)
  }

  /** The first loop of MultipartAlternativeWidget: every child of the liked textual type overwrites
      the candidate, so the last one wins; -1 when there is none. */
  method PreferredTextIndex(types: seq<string>, options: LoadingOptions) returns (preferredTextIndex: int)
    ensures preferredTextIndex == LastIndexOf(types, PreferredTextType(options))
  {
    var plaintextIsPreferred := PART_PREFER_PLAINTEXT_OVER_HTML in options;
    preferredTextIndex := -1;
    var i := 0;
    while i < |types|
      invariant 0 <= i <= |types|
      invariant preferredTextIndex == LastIndexOf(types[..i], PreferredTextType(options))
    {
      var isPlainText := types[i] == PlainType;
      var isHtml := types[i] == HtmlType;
      if isPlainText && plaintextIsPreferred {
        preferredTextIndex := i;
      } else if isHtml && !plaintextIsPreferred {
        preferredTextIndex := i;
      }
      assert types[..i + 1][..i] == types[..i];
      i := i + 1;
    }
    assert types[..|types|] == types;
  }

  /** The tab shown first: the preferred textual child, or the last child when there is none (so -1
      for a multipart/alternative without children). */
  function PreferredIndex(types: seq<string>, options: LoadingOptions): int {
    var t := LastIndexOf(types, PreferredTextType(options));
    if t == -1 then |types| - 1 else t
  }

  /** The options a child is created with: the parent's options, with PART_IS_HIDDEN added for every
      child except the preferred one, then filtered for embedding. */
  function ChildOptions(types: seq<string>, i: int, options: LoadingOptions, mask: LoadingOptions): LoadingOptions {
    FilteredForEmbedding(if i == PreferredIndex(types, options) then options else options + {PART_IS_HIDDEN}, mask)
  }

  /** The tab caption: short names for the two textual types, the MIME type otherwise. */
  function TabCaption(mimeType: string): string {
    if mimeType == PlainType then "Plaintext"
    else if mimeType == HtmlType then "HTML"
    else mimeType
  }

  /** A child that is neither text/plain nor text/html is not really an alternative and gets the
      "emblem-important" icon on its tab. */
  predicate HasWarningIcon(mimeType: string) {
    mimeType != PlainType && mimeType != HtmlType
  }

  /** One tab of the widget: the options its part widget is created with, its caption and whether it
      carries the warning icon. */
  datatype Tab = Tab(options: LoadingOptions, caption: string, warning: bool)

  /** The second loop of MultipartAlternativeWidget and the final setCurrentIndex. */
  method AlternativeTabs(types: seq<string>, options: LoadingOptions, mask: LoadingOptions)
    returns (tabs: seq<Tab>, current: int)
    ensures |tabs| == |types| && current == PreferredIndex(types, options)
    ensures forall i | 0 <= i < |types| ::
              tabs[i] == Tab(ChildOptions(types, i, options, mask), TabCaption(types[i]), HasWarningIcon(types[i]))
  {
    var preferredTextIndex := PreferredTextIndex(types, options);
    var preferredIndex := if preferredTextIndex == -1 then |types| - 1 else preferredTextIndex;
    tabs := [];
    var i := 0;
    while i < |types|
      invariant 0 <= i <= |types| && |tabs| == i
      invariant forall j | 0 <= j < i ::
                  tabs[j] == Tab(ChildOptions(types, j, options, mask), TabCaption(types[j]), HasWarningIcon(types[j]))
    {
      var childOptions := FilteredForEmbedding(if i == preferredIndex then options else options + {PART_IS_HIDDEN}, mask);
      var isPlainText := types[i] == PlainType;
      var isHtml := types[i] == HtmlType;
      var caption := if isPlainText then "Plaintext" else if isHtml then "HTML" else types[i];
      tabs := tabs + [Tab(childOptions, caption, !isPlainText && !isHtml)];
      i := i + 1;
    }
    current := preferredIndex;
  }

  /** How MultipartSignedWidget lays out a multipart/signed part by its number of children. */
  datatype SignedLayout =
    | OnlyOneNested(title: string, childOptions: LoadingOptions)
    | MalformedCount(text: string)
    | Verified(childOptions: LoadingOptions)

  const OnlyOneNestedTitle := "Malformed multipart/signed message: only one nested part"
  const CountLabelPrefix := "Malformed multipart/signed message: "
  const CountLabelSuffix := " nested parts"

  function CountLabel(n: nat): string {
    CountLabelPrefix + Decimal(n) + CountLabelSuffix
  }

  /** One child is shown under a title calling the message malformed; any count other than one or two
      yields only a label naming the count; two children go to signature verification, whose outcome
      is not modelled. */
  function SignedWidgetLayout(childrenCount: nat, options: LoadingOptions, mask: LoadingOptions): (r: SignedLayout)
    ensures r.OnlyOneNested? <==> childrenCount == 1
    ensures r.Verified? <==> childrenCount == 2
    ensures !r.MalformedCount? ==> r.childOptions == FilteredForEmbedding(options, mask)
  {
    if childrenCount == 1 then OnlyOneNested(OnlyOneNestedTitle, FilteredForEmbedding(options, mask))
    else if childrenCount != 2 then MalformedCount(CountLabel(childrenCount))
    else Verified(FilteredForEmbedding(options, mask))
  }

  // ---------------------------------------------------------------------------------------------
  // Properties

  /** Filtering is idempotent: an embedded part filtered again at the next level loses nothing more. */
  lemma {:induction false} FilteredTwice(options: LoadingOptions, mask: LoadingOptions)
    ensures FilteredForEmbedding(FilteredForEmbedding(options, mask), mask) == FilteredForEmbedding(options, mask)
  {
    var once := FilteredForEmbedding(options, mask);
    assert forall o :: o in FilteredForEmbedding(once, mask) <==> o in once;
  }

  /** The reference definition: the index holds the type, and no later child does; -1 exactly when no
      child has the type. */
  lemma {:induction false} LastIndexOfIsLast(types: seq<string>, t: string)
    ensures var r := LastIndexOf(types, t);
            (r == -1 <==> forall j | 0 <= j < |types| :: types[j] != t)
            && (r != -1 ==> types[r] == t && forall j | r < j < |types| :: types[j] != t)
    decreases |types|
  {
    if types != [] && types[|types| - 1] != t {
      var init := types[..|types| - 1];
      LastIndexOfIsLast(init, t);
      forall j | 0 <= j < |init| ensures types[j] == init[j] {
      }
    }
  }

  /** The shown tab: the last child of the liked type when there is one, otherwise the last child. */
  lemma {:induction false} PreferredIndexChoice(types: seq<string>, options: LoadingOptions)
    ensures var p := PreferredIndex(types, options);
            var t := PreferredTextType(options);
            -1 <= p < |types|
            && ((exists j | 0 <= j < |types| :: types[j] == t) ==>
                  types[p] == t && forall j | p < j < |types| :: types[j] != t)
            && ((forall j | 0 <= j < |types| :: types[j] != t) ==> p == |types| - 1)
  {
    LastIndexOfIsLast(types, PreferredTextType(options));
  }

  /** Later parts win: a child of the liked type appended at the end becomes the shown one. */
  lemma {:induction false} AppendedPreferredWins(types: seq<string>, options: LoadingOptions)
    ensures PreferredIndex(types + [PreferredTextType(options)], options) == |types|
  {
    var t := PreferredTextType(options);
    assert (types + [t])[|types|] == t;
  }

  /** Exactly the preferred child is created without PART_IS_HIDDEN, provided the embedding mask lets
      the flag through and the parent itself is not hidden. */
  lemma {:induction false} OnlyPreferredVisible(types: seq<string>, i: int, options: LoadingOptions, mask: LoadingOptions)
    requires PART_IS_HIDDEN in mask && PART_IS_HIDDEN !in options
    ensures PART_IS_HIDDEN !in ChildOptions(types, i, options, mask) <==> i == PreferredIndex(types, options)
  {
    if i != PreferredIndex(types, options) {
      assert PART_IS_HIDDEN in options + {PART_IS_HIDDEN};
    }
  }

  /** Apart from PART_IS_HIDDEN every child gets the same options: the parent's, filtered. */
  lemma {:induction false} ChildOptionsDifferOnlyInHidden(types: seq<string>, i: int, options: LoadingOptions, mask: LoadingOptions)
    ensures ChildOptions(types, i, options, mask) - {PART_IS_HIDDEN} == FilteredForEmbedding(options, mask) - {PART_IS_HIDDEN}
  {
  }

  /** The warning icon and the caption agree: a tab carries the icon exactly when its caption is the
      MIME type itself rather than one of the two short names. */
  lemma {:induction false} WarningMatchesCaption(mimeType: string)
    requires mimeType != "Plaintext" && mimeType != "HTML"
    ensures HasWarningIcon(mimeType) <==> TabCaption(mimeType) == mimeType
  {
    if !HasWarningIcon(mimeType) {
      assert TabCaption(mimeType) in {"Plaintext", "HTML"};
    }
  }

  /** The label for a malformed count names that count: the digits between the fixed texts read back
      as the number of children. */
  lemma {:induction false} CountLabelNamesCount(n: nat)
    ensures var l := CountLabel(n);
            |CountLabelPrefix| + |CountLabelSuffix| <= |l|
            && DigitsValue(l[|CountLabelPrefix|..|l| - |CountLabelSuffix|]) == n
  {
    var l := CountLabel(n);
    assert l[|CountLabelPrefix|..|l| - |CountLabelSuffix|] == Decimal(n);
    DecimalRoundTrip(n);
  }
}

=== FILE: qca_helper.dfy ===
/** Cryptography::QCAHelper: the part of the decryption helpers shared by OpenPGP and S/MIME. It turns
    a decrypted MIME entity into a tree of local parts, names crypto library errors and answers the
    library's password and token requests. */
module QcaHelper {
  import opened Wrappers
  import opened Text
  import opened ImapMessage
  import opened MimeEntity
  import opened MessagePart

  /** QCA::SecureMessage::Error, numbered in declaration order. */
  const ErrorPassphrase := 0
  const ErrorFormat := 1
  const ErrorSignerExpired := 2
  const ErrorSignerInvalid := 3
  const ErrorEncryptExpired := 4
  const ErrorEncryptUntrusted := 5
  const ErrorEncryptInvalid := 6
  const ErrorNeedCard := 7
  const ErrorCertKeyMismatch := 8
  const ErrorUnknown := 9

  const MissingSupportText := "Trojitá is missing support for OpenPGP."

  /** QCAHelper::qcaErrorStrings. A build with the crypto library maps each known error code to its
      own description and any other code to the empty string; a build without it has one fixed
      message. */
  function ErrorText(haveQca: bool, code: int): (s: string)
    ensures !haveQca ==> s == MissingSupportText
    ensures haveQca ==> (s != [] <==> ErrorPassphrase <= code <= ErrorUnknown)
  {
    if !haveQca then MissingSupportText
    else if code == ErrorPassphrase then "passphrase was either wrong or not provided"
    else if code == ErrorFormat then "input format was bad"
    else if code == ErrorSignerExpired then "signing key is expired"
    else if code == ErrorSignerInvalid then "signing key is invalid in some way"
    else if code == ErrorEncryptExpired then "encrypting key is expired"
    else if code == ErrorEncryptUntrusted then "encrypting key is untrusted"
    else if code == ErrorEncryptInvalid then "encrypting key is invalid in some way"
    else if code == ErrorNeedCard then "pgp card is missing"
    else if code == ErrorCertKeyMismatch then "certificate and private key don't match"
    else if code == ErrorUnknown then "other error"
    else []
  }

  /** Different known error codes are never described by the same text. */
  lemma {:induction false} ErrorTextsDistinct(c1: int, c2: int)
    requires ErrorPassphrase <= c1 <= ErrorUnknown && ErrorPassphrase <= c2 <= ErrorUnknown
    requires c1 != c2
    ensures ErrorText(true, c1) != ErrorText(true, c2)
  {
    ErrorTextIdentifiesCode(c1);
    ErrorTextIdentifiesCode(c2);
  }

  /** The ten descriptions all have different lengths, so the length alone names the code. */
  function CodeOfLength(n: nat): int {
    if n == 43 then ErrorPassphrase
    else if n == 20 then ErrorFormat
    else if n == 22 then ErrorSignerExpired
    else if n == 34 then ErrorSignerInvalid
    else if n == 25 then ErrorEncryptExpired
    else if n == 27 then ErrorEncryptUntrusted
    else if n == 37 then ErrorEncryptInvalid
    else if n == 19 then ErrorNeedCard
    else if n == 39 then ErrorCertKeyMismatch
    else ErrorUnknown
  }

  lemma {:induction false} ErrorTextIdentifiesCode(c: int)
    requires ErrorPassphrase <= c <= ErrorUnknown
    ensures CodeOfLength(|ErrorText(true, c)|) == c
  {
    if c < ErrorEncryptUntrusted {
      SignerErrorsIdentified(c);
    } else {
      EncryptErrorsIdentified(c);
    }
  }

  lemma {:induction false} SignerErrorsIdentified(c: int)
    requires ErrorPassphrase <= c < ErrorEncryptUntrusted
    ensures CodeOfLength(|ErrorText(true, c)|) == c
  {
  }

  lemma {:induction false} EncryptErrorsIdentified(c: int)
    requires ErrorEncryptUntrusted <= c <= ErrorUnknown
    ensures CodeOfLength(|ErrorText(true, c)|) == c
  {
  }

  /** A request from the crypto library's event handler. */
  datatype Event = NullEvent | PasswordEvent | TokenEvent

  /** What the helper answers to a request. */
  datatype Answer = NoAnswer | SubmitPassword(id: int, password: string) | Reject(id: int)

  /** QCAHelper::handleEventReady: a null event is ignored, a password request is answered with the
      empty password and every other request is rejected. */
  function HandleEventReady(id: int, e: Event): (r: Answer)
    ensures r.NoAnswer? <==> e.NullEvent?
    ensures !r.NoAnswer? ==> r.id == id
    ensures r.SubmitPassword? <==> e.PasswordEvent?
    ensures r.SubmitPassword? ==> r.password == []
  {
    match e
    case NullEvent => NoAnswer
    case PasswordEvent => SubmitPassword(id, [])
    case TokenEvent => Reject(id)
  }

  /** Imap::Message::MailAddress built from a parsed mailbox. */
  function ToMailAddress(mb: Mailbox): (r: MailAddress)
    ensures r.name == mb.name && r.adl == mb.sourceroute && r.mailbox == mb.mailbox && r.host == mb.domain
  {
    MailAddress(mb.name, mb.sourceroute, mb.mailbox, mb.domain)
  }

  /** QCAHelper::mailboxListToQList: one address per mailbox, in order. */
  function MailboxListToQList(list: seq<Mailbox>): (r: seq<MailAddress>)
    ensures |r| == |list|
    ensures forall i | 0 <= i < |list| :: r[i] == ToMailAddress(list[i])
  {
    if list == [] then [] else [ToMailAddress(list[0])] + MailboxListToQList(list[1..])
  }

  /** Number of mailboxes an address list names: a group counts its members. */
  function MailboxCount(list: seq<Address>): nat {
    if list == [] then 0
    else (match list[0] case Single(_) => 1 case Group(ms) => |ms|) + MailboxCount(list[1..])
  }

  /** QCAHelper::addressListToQList: groups are flattened into their members; the group itself leaves
      no trace. */
  function AddressListToQList(list: seq<Address>): (r: seq<MailAddress>)
  {
    if list == [] then []
    else
      var head := match list[0]
        case Single(mb) => [ToMailAddress(mb)]
        case Group(ms) => MailboxListToQList(ms);
      head + AddressListToQList(list[1..])
  }

  /** Flattening keeps exactly one entry per mailbox named. */
  lemma {:induction false} AddressListLength(list: seq<Address>)
    ensures |AddressListToQList(list)| == MailboxCount(list)
  {
    if list != [] {
      AddressListLength(list[1..]);
    }
  }

  /** Flattening distributes over concatenation of address lists. */
  lemma {:induction false} AddressListAppend(l1: seq<Address>, l2: seq<Address>)
    ensures AddressListToQList(l1 + l2) == AddressListToQList(l1) + AddressListToQList(l2)
  {
    if l1 == [] {
      assert l1 + l2 == l2;
    } else {
      assert (l1 + l2)[1..] == l1[1..] + l2;
      AddressListAppend(l1[1..], l2);
    }
  }

  /** A list of plain mailboxes gives the same addresses through either conversion, and so does a
      single group holding them. */
  lemma {:induction false} MailboxesAsAddresses(ms: seq<Mailbox>)
    ensures AddressListToQList(seq(|ms|, i requires 0 <= i < |ms| => Single(ms[i]))) == MailboxListToQList(ms)
    ensures AddressListToQList([Group(ms)]) == MailboxListToQList(ms)
  {
    var singles := seq(|ms|, i requires 0 <= i < |ms| => Single(ms[i]));
    if ms != [] {
      MailboxesAsAddresses(ms[1..]);
      assert singles[1..] == seq(|ms[1..]|, i requires 0 <= i < |ms[1..]| => Single(ms[1..][i]));
    }
    assert [Group(ms)][1..] == [];
  }

  /** MIME type string "type/subtype" of an entity, as the part constructor receives it. */
  function MimeTypeName(h: Header): string {
    h.contentType + "/" + h.contentSubtype
  }

  function FilenameFromDisposition(h: Header, o: Oracles): string {
    if h.dispositionType == [] then [] else o.extractRfc2231Param(ParamMap(h.dispositionParams), "filename")
  }

  function FilenameFromContentType(h: Header, o: Oracles): string {
    o.extractRfc2231Param(ParamMap(h.contentTypeParams), "name")
  }

  /** QCAHelper::storeInterestingFields applied to a blank part's fields `f`. The filename comes from
      the Content-Disposition "filename" parameter and, failing that, from the Content-Type "name"
      parameter; content format and DelSp are only recorded when a format is given. */
  function StoreInterestingFields(h: Header, f: LocalFields, o: Oracles): (r: LocalFields)
    ensures r.charset == ParamValue(h.contentTypeParams, "charset")
    ensures ParamValue(h.contentTypeParams, "format") == [] ==> r.contentFormat == f.contentFormat && r.delSp == f.delSp
    ensures ParamValue(h.contentTypeParams, "format") != [] ==>
              r.contentFormat == ParamValue(h.contentTypeParams, "format")
              && r.delSp == ParamValue(h.contentTypeParams, "delsp")
    ensures h.dispositionType != [] ==> r.bodyDisposition == h.dispositionType
    ensures h.dispositionType == [] ==> r.bodyDisposition == f.bodyDisposition
    ensures FilenameFromDisposition(h, o) != [] ==> r.filename == FilenameFromDisposition(h, o)
    ensures FilenameFromDisposition(h, o) == [] && FilenameFromContentType(h, o) != [] ==>
              r.filename == FilenameFromContentType(h, o)
    ensures FilenameFromDisposition(h, o) == [] && FilenameFromContentType(h, o) == [] ==> r.filename == f.filename
    ensures r.encoding == h.transferEncoding && r.bodyFldId == h.contentId
    ensures r.(charset := f.charset, contentFormat := f.contentFormat, delSp := f.delSp,
               bodyDisposition := f.bodyDisposition, filename := f.filename,
               encoding := f.encoding, bodyFldId := f.bodyFldId) == f
  {
    var format := ParamValue(h.contentTypeParams, "format");
    var f1 := f.(charset := ParamValue(h.contentTypeParams, "charset"));
    var f2 := if format == [] then f1 else f1.(contentFormat := format, delSp := ParamValue(h.contentTypeParams, "delsp"));
    var f3 := if h.dispositionType == [] then f2 else f2.(bodyDisposition := h.dispositionType);
    var filename := FilenameFromDisposition(h, o);
    var filename' := if filename == [] then FilenameFromContentType(h, o) else filename;
    var f4 := if filename' == [] then f3 else f3.(filename := filename');
    f4.(encoding := h.transferEncoding, bodyFldId := h.contentId)
  }

  /** Storing the same header's fields twice stores nothing more: every field the header decides is
      decided the same way the second time, and the others are left alone both times. */
  lemma {:induction false} StoreFieldsIdempotent(h: Header, f: LocalFields, o: Oracles)
    ensures StoreInterestingFields(h, StoreInterestingFields(h, f, o), o) == StoreInterestingFields(h, f, o)
  {
  }

  /** The envelope of an embedded message, read from the header of its first sub-entity. */
  function EnvelopeOf(h: Header): (e: Envelope)
    ensures e.from == MailboxListToQList(h.from)
    ensures e.to == AddressListToQList(h.to) && e.cc == AddressListToQList(h.cc)
    ensures e.bcc == AddressListToQList(h.bcc) && e.replyTo == AddressListToQList(h.replyTo)
    ensures |e.sender| <= 1 && (h.sender.Some? <==> |e.sender| == 1)
    ensures h.sender.Some? ==> e.sender[0] == ToMailAddress(h.sender.value)
    ensures h.inReplyTo.Some? ==> e.inReplyTo == [h.inReplyTo.value]
    ensures h.inReplyTo.None? ==> e.inReplyTo == []
    ensures e.subject == h.subject && e.messageId == h.messageId && e.date == h.date
  {
    Envelope(h.date, h.subject, MailboxListToQList(h.from),
             if h.sender.Some? then [ToMailAddress(h.sender.value)] else [],
             AddressListToQList(h.replyTo), AddressListToQList(h.to),
             AddressListToQList(h.cc), AddressListToQList(h.bcc),
             if h.inReplyTo.Some? then [h.inReplyTo.value] else [],
             h.messageId)
  }

  predicate IsMessageRfc822(h: Header) {
    h.contentType == "message" && h.contentSubtype == "rfc822"
  }

  /** How a conversion is configured. QCAHelper::mimeEntityToPart records the envelope of an
      embedded message; the copy of mimeEntityToPart in OpenPGPHelper.cpp does not. */
  datatype Adapter = Adapter(oracles: Oracles, withEnvelope: bool)

  /** What the part built for an entity stores, stated field by field: the MIME type, the size and
      DONE always; a leaf also keeps its interesting header fields and its decoded body; a container
      keeps no body, and an embedded message keeps the envelope of its first sub-entity when the
      adapter records envelopes. */
  predicate FieldsFor(f: LocalFields, me: MimeEntity, o: Adapter) {
    var blank := NewLocalFields(MimeTypeName(me.header));
    f.mimeType == MimeTypeName(me.header) && f.octets == me.size && f.state == DONE
    && (me.parts == [] ==>
          var g := StoreInterestingFields(me.header, blank, o.oracles);
          f == g.(data := o.oracles.decodeContentTransferEncoding(me.body, g.encoding), octets := me.size, state := DONE))
    && (me.parts != [] ==>
          f.data == [] && f.charset == [] && f.filename == [] && f.encoding == []
          && f.envelope == (if o.withEnvelope && IsMessageRfc822(me.header) then Some(EnvelopeOf(me.parts[0].header)) else None))
  }

  /** The subtree at `h` is the image of the entity `me`: a local part with the fields above, no raw
      part, and one child per sub-entity, at the same position, each again the image of its entity. */
  predicate Built(a: Arena, h: Handle, me: MimeEntity, o: Adapter)
    decreases me
  {
    IsLocal(a, h) && FieldsFor(FieldsOf(a, h), me, o)
    && a.nodes[h].raw.None?
    && |a.nodes[h].children| == |me.parts|
    && forall i | 0 <= i < |me.parts| ::
         var c := a.nodes[h].children[i];
         c in a.nodes && a.nodes[c].parent == Some(h) && a.nodes[c].row == i && Built(a, c, me.parts[i], o)
  }

  /** Every part created between `a` and `b` is a local part that finished loading. */
  predicate NewPartsDone(a: Arena, b: Arena) {
    forall x | x in b.nodes && x !in a.nodes :: IsLocal(b, x) && FieldsOf(b, x).state == DONE
  }

  /** `b` extends `a`: the old parts are still there, the new ones were allocated after them. */
  predicate Grows(a: Arena, b: Arena) {
    a.next <= b.next && a.nodes.Keys <= b.nodes.Keys
    && (forall x | x in b.nodes && x !in a.nodes :: a.next <= x)
  }

  /** The children of a built part are the images of the sub-entities, at their positions, and come
      after the part itself. */
  lemma {:induction false} BuiltChildren(a: Arena, h: Handle, me: MimeEntity, o: Adapter)
    requires Wf(a) && Built(a, h, me, o)
    ensures |a.nodes[h].children| == |me.parts|
    ensures forall i | 0 <= i < |me.parts| ::
              var c := a.nodes[h].children[i];
              c in a.nodes && h < c && a.nodes[c].parent == Some(h) && a.nodes[c].row == i && Built(a, c, me.parts[i], o)
  {
    forall i | 0 <= i < |me.parts|
      ensures var c := a.nodes[h].children[i]; c in a.nodes && h < c
    {
      assert NodeWf(a, a.nodes[h].children[i]);
    }
  }

  /** A built subtree stays built while no part at or above its root handle changes. */
  lemma {:induction false} BuiltFrame(a: Arena, b: Arena, h: Handle, me: MimeEntity, o: Adapter)
    requires Wf(a) && Built(a, h, me, o)
    requires forall x | x in a.nodes && h <= x :: x in b.nodes && b.nodes[x] == a.nodes[x]
    ensures Built(b, h, me, o)
    decreases me
  {
    forall i | 0 <= i < |me.parts|
      ensures var c := b.nodes[h].children[i];
              c in b.nodes && b.nodes[c].parent == Some(h) && b.nodes[c].row == i && Built(b, c, me.parts[i], o)
    {
      var c := a.nodes[h].children[i];
      assert NodeWf(a, c);
      BuiltFrame(a, b, c, me.parts[i], o);
    }
  }

  /** QCAHelper::mimeEntityToPart: a new parentless local part for the entity, its sub-entities
      converted recursively and attached in order; every part created is DONE and the parts that
      existed before are untouched. */
  function MimeEntityToPart(a: Arena, me: MimeEntity, o: Adapter): (r: (Arena, Handle))
    requires Wf(a)
    ensures Wf(r.0) && Grows(a, r.0) && NewPartsDone(a, r.0)
    ensures r.1 == a.next && r.1 in r.0.nodes && r.0.nodes[r.1].parent.None? && r.0.nodes[r.1].row == 0
    ensures forall x | x in a.nodes :: r.0.nodes[x] == a.nodes[x]
    ensures Built(r.0, r.1, me, o)
    decreases me, 2, 0
  {
    if me.parts == [] then LeafToPart(a, me, o) else ContainerToPart(a, me, o)
  }

  /** The leaf case: the interesting header fields are stored and the body is decoded under the
      part's transfer encoding. */
  function LeafToPart(a: Arena, me: MimeEntity, o: Adapter): (r: (Arena, Handle))
    requires Wf(a) && me.parts == []
    ensures Wf(r.0) && Grows(a, r.0) && NewPartsDone(a, r.0)
    ensures r.1 == a.next && r.1 in r.0.nodes && r.0.nodes[r.1].parent.None? && r.0.nodes[r.1].row == 0
    ensures forall x | x in a.nodes :: r.0.nodes[x] == a.nodes[x]
    ensures Built(r.0, r.1, me, o)
  {
    var blank := NewLocalFields(MimeTypeName(me.header));
    var (a1, h) := Alloc(a, None, Local(blank));
    var g := StoreInterestingFields(me.header, blank, o.oracles);
    var f := g.(data := o.oracles.decodeContentTransferEncoding(me.body, g.encoding), octets := me.size, state := DONE);
    (SetFields(a1, h, f), h)
  }

  /** The container case: an embedded message records the envelope of its first sub-entity, then
      the sub-entities are attached, then size and state are set. */
  function ContainerToPart(a: Arena, me: MimeEntity, o: Adapter): (r: (Arena, Handle))
    requires Wf(a) && me.parts != []
    ensures Wf(r.0) && Grows(a, r.0) && NewPartsDone(a, r.0)
    ensures r.1 == a.next && r.1 in r.0.nodes && r.0.nodes[r.1].parent.None? && r.0.nodes[r.1].row == 0
    ensures forall x | x in a.nodes :: r.0.nodes[x] == a.nodes[x]
    ensures Built(r.0, r.1, me, o)
    decreases me, 1, 0
  {
    var (a2, h) := ContainerShell(a, me, o);
    var a3 := AttachParts(a2, h, me, 0, o);
    var a4 := SetFields(a3, h, FieldsOf(a3, h).(octets := me.size, state := DONE));
    ContainerDone(a, a2, a3, a4, h, me, o);
    (a4, h)
  }

  /** The fields of a container before its sub-entities are attached: only the MIME type and, for
      an embedded message, the envelope. */
  function ShellFields(me: MimeEntity, o: Adapter): LocalFields
    requires me.parts != []
  {
    var env := if o.withEnvelope && IsMessageRfc822(me.header) then Some(EnvelopeOf(me.parts[0].header)) else None;
    NewLocalFields(MimeTypeName(me.header)).(envelope := env)
  }

  /** The new, still childless container part. */
  function ContainerShell(a: Arena, me: MimeEntity, o: Adapter): (r: (Arena, Handle))
    requires Wf(a) && me.parts != []
    ensures Wf(r.0) && r.1 == a.next && r.0.next == a.next + 1 && r.1 !in a.nodes
    ensures r.0.nodes == a.nodes[r.1 := Node(None, [], None, 0, Local(ShellFields(me, o)))]
  {
    var (a1, h) := Alloc(a, None, Local(NewLocalFields(MimeTypeName(me.header))));
    (SetFields(a1, h, ShellFields(me, o)), h)
  }

  /** The bookkeeping of ContainerToPart, from the allocation to the final state. */
  lemma {:induction false} ContainerDone(a: Arena, a2: Arena, a3: Arena, a4: Arena, h: Handle, me: MimeEntity, o: Adapter)
    requires Wf(a) && me.parts != [] && h == a.next && h !in a.nodes
    requires a2.next == a.next + 1 && a2.nodes == a.nodes[h := Node(None, [], None, 0, Local(ShellFields(me, o)))]
    requires Wf(a3) && Grows(a2, a3) && NewPartsDone(a2, a3)
    requires forall x | x in a2.nodes && x != h :: a3.nodes[x] == a2.nodes[x]
    requires a3.nodes[h] == a2.nodes[h].(children := a3.nodes[h].children)
    requires |a3.nodes[h].children| == |me.parts|
    requires forall j | 0 <= j < |me.parts| ::
               var c := a3.nodes[h].children[j];
               c in a3.nodes && a3.nodes[c].parent == Some(h) && a3.nodes[c].row == j && Built(a3, c, me.parts[j], o)
    requires a4.next == a3.next && a4.nodes.Keys == a3.nodes.Keys && IsLocal(a4, h)
    requires a4.nodes[h] == a3.nodes[h].(kind := a4.nodes[h].kind)
    requires FieldsOf(a4, h) == FieldsOf(a3, h).(octets := me.size, state := DONE)
    requires forall x | x in a3.nodes && x != h :: a4.nodes[x] == a3.nodes[x]
    ensures Wf(a4) && Grows(a, a4) && NewPartsDone(a, a4)
    ensures h in a4.nodes && a4.nodes[h].parent.None? && a4.nodes[h].row == 0
    ensures forall x | x in a.nodes :: a4.nodes[x] == a.nodes[x]
    ensures Built(a4, h, me, o)
  {
    ContainerFrame(a, a2, a3, a4, h);
    assert FieldsFor(FieldsOf(a4, h), me, o);
    BuiltChildrenKept(a3, a4, h, me, o);
  }

  /** Rewriting a part's own fields keeps its children built. */
  lemma {:induction false} BuiltChildrenKept(a: Arena, b: Arena, h: Handle, me: MimeEntity, o: Adapter)
    requires Wf(a) && IsLocal(a, h)
    requires a.nodes[h].raw.None? && |a.nodes[h].children| == |me.parts|
    requires forall i | 0 <= i < |me.parts| ::
               var c := a.nodes[h].children[i];
               c in a.nodes && a.nodes[c].parent == Some(h) && a.nodes[c].row == i && Built(a, c, me.parts[i], o)
    requires b.nodes.Keys == a.nodes.Keys && IsLocal(b, h)
    requires b.nodes[h] == a.nodes[h].(kind := b.nodes[h].kind)
    requires forall x | x in a.nodes && x != h :: b.nodes[x] == a.nodes[x]
    requires FieldsFor(FieldsOf(b, h), me, o)
    ensures Built(b, h, me, o)
  {
    forall i | 0 <= i < |me.parts|
      ensures var c := b.nodes[h].children[i];
              c in b.nodes && b.nodes[c].parent == Some(h) && b.nodes[c].row == i && Built(b, c, me.parts[i], o)
    {
      var c := a.nodes[h].children[i];
      assert NodeWf(a, c);
      BuiltFrame(a, b, c, me.parts[i], o);
    }
  }

  /** The well-formedness and growth half of ContainerDone. */
  lemma {:induction false} ContainerFrame(a: Arena, a2: Arena, a3: Arena, a4: Arena, h: Handle)
    requires Wf(a) && h == a.next
    requires a2.next == a.next + 1 && a2.nodes.Keys == a.nodes.Keys + {h} && IsLocal(a2, h)
    requires forall x | x in a.nodes :: a2.nodes[x] == a.nodes[x]
    requires Wf(a3) && Grows(a2, a3) && NewPartsDone(a2, a3)
    requires forall x | x in a2.nodes && x != h :: a3.nodes[x] == a2.nodes[x]
    requires a4.next == a3.next && a4.nodes.Keys == a3.nodes.Keys && IsLocal(a4, h) && IsLocal(a3, h)
    requires a4.nodes[h] == a3.nodes[h].(kind := a4.nodes[h].kind) && FieldsOf(a4, h).state == DONE
    requires forall x | x in a3.nodes && x != h :: a4.nodes[x] == a3.nodes[x]
    ensures Wf(a4) && Grows(a, a4) && NewPartsDone(a, a4)
    ensures forall x | x in a.nodes :: a4.nodes[x] == a.nodes[x]
  {
    assert Wf(a4) by {
      forall x | x in a4.nodes ensures NodeWf(a4, x) {
        assert NodeWf(a3, x);
      }
    }
    forall x | x in a.nodes ensures a4.nodes[x] == a.nodes[x] {
      assert NodeWf(a, x);
    }
  }

  /** The children loop of mimeEntityToPart: sub-entities i.. are converted and appended to `h`. */
  function AttachParts(a: Arena, h: Handle, me: MimeEntity, i: nat, o: Adapter): (r: Arena)
    requires Wf(a) && IsLocal(a, h) && i <= |me.parts|
    requires |a.nodes[h].children| == i
    ensures Wf(r) && Grows(a, r) && NewPartsDone(a, r)
    ensures forall x | x in a.nodes && x != h :: r.nodes[x] == a.nodes[x]
    ensures r.nodes[h] == a.nodes[h].(children := r.nodes[h].children)
    ensures |r.nodes[h].children| == |me.parts| && r.nodes[h].children[..i] == a.nodes[h].children
    ensures forall j | i <= j < |me.parts| ::
              var c := r.nodes[h].children[j];
              c !in a.nodes && c in r.nodes && r.nodes[c].parent == Some(h) && r.nodes[c].row == j
              && Built(r, c, me.parts[j], o)
    decreases me, 0, |me.parts| - i, 1
  {
    if i == |me.parts| then a
    else
      var a2 := AppendPart(a, h, me, i, o);
      var r := AttachParts(a2, h, me, i + 1, o);
      AttachRest(a, a2, r, h, a.next, me, i, o);
      r
  }

  /** One iteration of mimeEntityToPart's loop: sub-entity `i` converted and appended to `h`. */
  function AppendPart(a: Arena, h: Handle, me: MimeEntity, i: nat, o: Adapter): (a2: Arena)
    requires Wf(a) && IsLocal(a, h) && i < |me.parts| && |a.nodes[h].children| == i
    ensures Wf(a2) && Grows(a, a2) && NewPartsDone(a, a2) && IsLocal(a2, h) && |a2.nodes[h].children| == i + 1
    ensures a.next !in a.nodes && a.next in a2.nodes
    ensures forall x | x in a.nodes && x != h :: a2.nodes[x] == a.nodes[x]
    ensures a2.nodes[h] == a.nodes[h].(children := a.nodes[h].children + [a.next])
    ensures a2.nodes[a.next].parent == Some(h) && a2.nodes[a.next].row == i
    ensures Built(a2, a.next, me.parts[i], o)
    decreases me, 0, |me.parts| - i, 0
  {
    var (a1, c) := MimeEntityToPart(a, me.parts[i], o);
    var a2 := SetChild(a1, h, i, c);
    AttachStep(a, a1, a2, h, c, me, i, o);
    a2
  }

  /** One converted sub-entity appended: `a2` extends `a` by the subtree at `c`, now child `i` of `h`. */
  lemma {:induction false} AttachStep(a: Arena, a1: Arena, a2: Arena, h: Handle, c: Handle, me: MimeEntity, i: nat, o: Adapter)
    requires Wf(a) && IsLocal(a, h) && i < |me.parts| && |a.nodes[h].children| == i
    requires Wf(a1) && Grows(a, a1) && NewPartsDone(a, a1)
    requires c == a.next && c in a1.nodes && a1.nodes[c].parent.None? && a1.nodes[c].row == 0
    requires forall x | x in a.nodes :: a1.nodes[x] == a.nodes[x]
    requires Built(a1, c, me.parts[i], o)
    requires a2.next == a1.next && a2.nodes.Keys == a1.nodes.Keys
    requires a2.nodes[h].children == a1.nodes[h].children + [c]
    requires a2.nodes[c].parent == Some(h) && a2.nodes[c].row == i
    requires forall x | x in a1.nodes && x != h && x != c :: a2.nodes[x] == a1.nodes[x]
    requires a2.nodes[c].kind == a1.nodes[c].kind && a2.nodes[c].raw == a1.nodes[c].raw
    requires a2.nodes[h].kind == a1.nodes[h].kind && a2.nodes[h].raw == a1.nodes[h].raw
    requires a2.nodes[c].children == a1.nodes[c].children
    requires a2.nodes[h].parent == a1.nodes[h].parent && a2.nodes[h].row == a1.nodes[h].row
    requires Wf(a2)
    ensures Grows(a, a2) && NewPartsDone(a, a2) && IsLocal(a2, h) && |a2.nodes[h].children| == i + 1
    ensures c !in a.nodes && c in a2.nodes
    ensures forall x | x in a.nodes && x != h :: a2.nodes[x] == a.nodes[x]
    ensures a2.nodes[h] == a.nodes[h].(children := a.nodes[h].children + [c])
    ensures Built(a2, c, me.parts[i], o)
  {
    assert NodeWf(a, h);
    assert Built(a1, c, me.parts[i], o);
    var mc := me.parts[i];
    forall j | 0 <= j < |mc.parts|
      ensures var d := a2.nodes[c].children[j];
              d in a2.nodes && a2.nodes[d].parent == Some(c) && a2.nodes[d].row == j && Built(a2, d, mc.parts[j], o)
    {
      var d := a1.nodes[c].children[j];
      assert NodeWf(a1, d);
      BuiltFrame(a1, a2, d, mc.parts[j], o);
    }
  }

  /** The remaining sub-entities appended after child `i` leave that child's subtree built. */
  lemma {:induction false} AttachRest(a: Arena, a2: Arena, r: Arena, h: Handle, c: Handle, me: MimeEntity, i: nat, o: Adapter)
    requires Wf(a) && IsLocal(a, h) && i < |me.parts|
    requires Grows(a, a2) && NewPartsDone(a, a2) && IsLocal(a2, h) && |a2.nodes[h].children| == i + 1
    requires c !in a.nodes && c in a2.nodes && Wf(a2)
    requires forall x | x in a.nodes && x != h :: a2.nodes[x] == a.nodes[x]
    requires a2.nodes[h] == a.nodes[h].(children := a.nodes[h].children + [c])
    requires a2.nodes[c].parent == Some(h) && a2.nodes[c].row == i
    requires Built(a2, c, me.parts[i], o)
    requires Wf(r) && Grows(a2, r) && NewPartsDone(a2, r)
    requires forall x | x in a2.nodes && x != h :: r.nodes[x] == a2.nodes[x]
    requires r.nodes[h] == a2.nodes[h].(children := r.nodes[h].children)
    requires |r.nodes[h].children| == |me.parts| && r.nodes[h].children[..i + 1] == a2.nodes[h].children
    requires forall j | i + 1 <= j < |me.parts| ::
               var d := r.nodes[h].children[j];
               d !in a2.nodes && d in r.nodes && r.nodes[d].parent == Some(h) && r.nodes[d].row == j
               && Built(r, d, me.parts[j], o)
    ensures Grows(a, r) && NewPartsDone(a, r)
    ensures forall x | x in a.nodes && x != h :: r.nodes[x] == a.nodes[x]
    ensures r.nodes[h] == a.nodes[h].(children := r.nodes[h].children)
    ensures |r.nodes[h].children| == |me.parts| && r.nodes[h].children[..i] == a.nodes[h].children
    ensures forall j | i <= j < |me.parts| ::
              var d := r.nodes[h].children[j];
              d !in a.nodes && d in r.nodes && r.nodes[d].parent == Some(h) && r.nodes[d].row == j
              && Built(r, d, me.parts[j], o)
  {
    assert r.nodes[h].children[i] == c by {
      assert r.nodes[h].children[..i + 1][i] == c;
    }
    assert r.nodes[h].children[..i] == r.nodes[h].children[..i + 1][..i];
    assert NodeWf(a2, c);
    BuiltFrame(a2, r, c, me.parts[i], o);
  }
}

=== FILE: smime_helper.dfy ===
/** Cryptography::SMIMEHelper: decryption of an application/pkcs7-mime container. The ciphertext is
    the raw contents of the remote part, base64 text (section 6.8 of RFC 2045); decryption needs a
    private key, loaded from a key bundle on first use. */
module SmimeHelper {
  import opened Wrappers
  import opened Text
  import opened SourceModel
  import opened MimeEntity
  import opened MessagePart
  import opened MessageModel
  import opened QcaHelper
  import opened DecryptionSession

  const KeyLoadFailedText := "Unable to load S/MIME key"

  /** The helper's state: the container it works for, whether it listens to the model's change
      notifications, how far the last decryption got, and how many private keys the CMS context
      holds. */
  datatype SmimeHelper = SmimeHelper(partIndex: Index, connected: bool, phase: Phase, privateKeys: nat)

  const NewSmimeHelper := SmimeHelper(Invalid, false, Idle, 0)

  /** The ciphertext's index: the raw part of the container's raw part. */
  function CipherIndex(m: Model, container: Index): Index
    requires ModelWf(m) && IndexIn(m, container)
  {
    ChildOf(m, ChildOf(m, container, 0, OFFSET_RAW_CONTENTS), 0, OFFSET_RAW_CONTENTS)
  }

  predicate Ready(s: SmimeHelper, m: Model, t: SourceTree)
    requires ModelWf(m) && IndexIn(m, s.partIndex)
  {
    Fetched(m, t, CipherIndex(m, s.partIndex)) && s.privateKeys > 0
  }

  /** SMIMEHelper::handleDataChanged. Once the ciphertext is fetched and a private key is present,
      the helper stops listening and starts decrypting; before that it waits. The ciphertext has its
      CR LF pairs turned into LF and is then base64-decoded (section 6.8 of RFC 2045) by `decode`,
      which stands for the crypto library's decoder with line breaks enabled. */
  function HandleDataChanged(s: SmimeHelper, m: Model, t: SourceTree, decode: string -> string): (r: (SmimeHelper, seq<Effect>))
    requires ModelWf(m) && IndexIn(m, s.partIndex)
    ensures r.0.partIndex == s.partIndex && r.0.privateKeys == s.privateKeys
    ensures !Ready(s, m, t) <==> r == (s, [])
    ensures Ready(s, m, t) ==>
              !r.0.connected && r.0.phase == Decrypting
              && r.1 == [StartDecrypt(decode(CrlfToLf(Payload(m, t, CipherIndex(m, s.partIndex)))))]
  {
    if Ready(s, m, t) then
      (s.(connected := false, phase := Decrypting),
       [StartDecrypt(decode(CrlfToLf(Payload(m, t, CipherIndex(m, s.partIndex)))))])
    else (s, [])
  }

  /** SMIMEHelper::decrypt. Without CMS support it only reports the failure. Otherwise it starts a
      key load when no key is present, remembers the container, starts listening, requests the
      ciphertext and checks once whether everything is already there. */
  function Decrypt(s: SmimeHelper, m: Model, t: SourceTree, container: Index, cms: bool, decode: string -> string): (r: (SmimeHelper, seq<Effect>))
    requires ModelWf(m) && container.Valid? && IndexIn(m, container)
    requires cms ==> CipherIndex(m, container).Valid?
    ensures !cms ==> r == (s, [DecryptionFailed(ErrorText(true, ErrorPassphrase))])
    ensures cms ==>
              var load := if s.privateKeys == 0 then [LoadKeyBundle([])] else [];
              r.0.partIndex == container
              && |r.1| >= |load| + 1 && r.1[..|load|] == load
              && r.1[|load|] == RequestPayload(CipherIndex(m, container))
              && (r.0, r.1[|load| + 1..]) == HandleDataChanged(s.(partIndex := container, connected := true, phase := AwaitingData), m, t, decode)
  {
    if !cms then (s, [DecryptionFailed(ErrorText(true, ErrorPassphrase))])
    else
      var load := if s.privateKeys == 0 then [LoadKeyBundle([])] else [];
      var s1 := s.(partIndex := container, connected := true, phase := AwaitingData);
      var (s2, effects) := HandleDataChanged(s1, m, t, decode);
      (s2, load + [RequestPayload(CipherIndex(m, container))] + effects)
  }

  /** SMIMEHelper::privateKeyLoaded. A good bundle becomes the context's only key and the
      completeness check runs again, whether or not the helper is listening; a bad one is
      reported. */
  function PrivateKeyLoaded(s: SmimeHelper, m: Model, t: SourceTree, good: bool, decode: string -> string): (r: (SmimeHelper, seq<Effect>))
    requires ModelWf(m) && IndexIn(m, s.partIndex)
    ensures !good ==> r == (s, [DecryptionFailed(KeyLoadFailedText)])
    ensures good ==> r.0.privateKeys == 1 && r == HandleDataChanged(s.(privateKeys := 1), m, t, decode)
  {
    if good then HandleDataChanged(s.(privateKeys := 1), m, t, decode)
    else (s, [DecryptionFailed(KeyLoadFailedText)])
  }

  datatype Finished = Finished(helper: SmimeHelper, arena: Arena, effects: seq<Effect>)

  /** SMIMEHelper::decryptionFinished as evidently intended: the new part is handed over for
      `container`, the container whose ciphertext this decryption was started for. A failure is
      reported with the library's error text. A success becomes one new part: the parsed MIME
      entity converted with envelopes, or, in a build without the MIME library, a text/plain part
      holding the plaintext. */
  function DecryptionFinishedFor(s: SmimeHelper, container: Index, a: Arena, result: Result<string, int>,
                                 parse: string -> MimeEntity, o: Oracles, mimetic: bool): (r: Finished)
    requires Wf(a)
    ensures Wf(r.arena) && Grows(a, r.arena) && NewPartsDone(a, r.arena)
    ensures forall x | x in a.nodes :: r.arena.nodes[x] == a.nodes[x]
    ensures r.helper == s.(phase := r.helper.phase) && |r.effects| == 1
    ensures result.Err? ==>
              r.arena == a && r.helper.phase == Failed
              && r.effects == [DecryptionFailed(ErrorText(true, result.error))]
    ensures result.Ok? ==>
              r.helper.phase == Emitted
              && r.effects == [DataDecrypted(container, [a.next])]
              && a.next in r.arena.nodes && r.arena.nodes[a.next].parent.None?
    ensures result.Ok? && mimetic ==> Built(r.arena, a.next, parse(result.value), Adapter(o, true))
    ensures result.Ok? && !mimetic ==>
              IsLocal(r.arena, a.next) && FieldsOf(r.arena, a.next).mimeType == "text/plain"
              && FieldsOf(r.arena, a.next).data == result.value && FieldsOf(r.arena, a.next).state == DONE
  {
    match result
    case Err(code) => Finished(s.(phase := Failed), a, [DecryptionFailed(ErrorText(true, code))])
    case Ok(plaintext) =>
      if mimetic then
        var (a1, root) := MimeEntityToPart(a, parse(plaintext), Adapter(o, true));
        Finished(s.(phase := Emitted), a1, [DataDecrypted(container, [root])])
      else
        var (a1, root) := Alloc(a, None, Local(NewLocalFields("text/plain")));
        var a2 := SetData(a1, root, plaintext);
        Finished(s.(phase := Emitted), a2, [DataDecrypted(container, [root])])
  }

  /** SMIMEHelper::decryptionFinished as written: the part is handed over for the container the
      helper remembers when the decryption finishes (`m_partIndex`). */
  function DecryptionFinished(s: SmimeHelper, a: Arena, result: Result<string, int>,
                              parse: string -> MimeEntity, o: Oracles, mimetic: bool): (r: Finished)
    requires Wf(a)
    ensures r == DecryptionFinishedFor(s, s.partIndex, a, result, parse, o, mimetic)
    ensures result.Ok? ==> r.effects[0].DataDecrypted? && r.effects[0].container == s.partIndex
  {
    DecryptionFinishedFor(s, s.partIndex, a, result, parse, o, mimetic)
  }
}

=== FILE: source_model.dfy ===
/** The remote IMAP structure the part tree mirrors. It is read-only for the core: a tree of parts,
    each answering a fixed table of role values, with an optional raw-contents child
    (column OFFSET_RAW_CONTENTS). Fetching changes the values, never the shape. */
module SourceModel {
  import opened Wrappers
  import opened ItemRoles

  /** Column of the raw-contents child (TreeItem::OFFSET_RAW_CONTENTS in MailboxTree.h, which is not
      part of this model; it follows OFFSET_MIME = 3, see src/Gui/PartWidget.cpp:188). */
  const OFFSET_RAW_CONTENTS: int := 4

  datatype SourcePart = SourcePart(values: map<Role, Value>, children: seq<SourcePart>, raw: Option<SourcePart>)

  /** The message the model is built for, and its row in the mailbox's message list. */
  datatype SourceTree = SourceTree(messageRow: nat, message: SourcePart)

  /** One step from a source index to one of its children. */
  datatype Step = ChildStep(row: nat) | RawStep

  /** A source index, as the path of steps from the message. */
  type SourceIndex = seq<Step>

  function Resolve(p: SourcePart, idx: SourceIndex): Option<SourcePart>
    decreases |idx|
  {
    if idx == [] then Some(p)
    else match idx[0]
      case ChildStep(r) => if r < |p.children| then Resolve(p.children[r], idx[1..]) else None
      case RawStep => if p.raw.Some? then Resolve(p.raw.value, idx[1..]) else None
  }

  predicate IsValidIndex(t: SourceTree, idx: SourceIndex) {
    Resolve(t.message, idx).Some?
  }

  /** The value a part of the source answers for `role`; an invalid index answers nothing. */
  function Lookup(p: SourcePart, role: Role): Value {
    if role in p.values then p.values[role] else Null
  }

  function SourceData(t: SourceTree, idx: SourceIndex, role: Role): Value {
    match Resolve(t.message, idx)
    case Some(p) => Lookup(p, role)
    case None => Null
  }

  /** QModelIndex::child on the source: the part's children in column 0, its raw contents at
      (0, OFFSET_RAW_CONTENTS); other columns are not used by the core. */
  function ChildIndex(t: SourceTree, idx: SourceIndex, row: nat, column: int): Option<SourceIndex> {
    match Resolve(t.message, idx)
    case None => None
    case Some(p) =>
      if column == 0 && row < |p.children| then Some(idx + [ChildStep(row)])
      else if column == OFFSET_RAW_CONTENTS && row == 0 && p.raw.Some? then Some(idx + [RawStep])
      else None
  }

  function IndexRow(t: SourceTree, idx: SourceIndex): nat {
    if idx == [] then t.messageRow
    else match idx[|idx| - 1]
      case ChildStep(r) => r
      case RawStep => 0
  }

  function IndexColumn(idx: SourceIndex): int {
    if idx != [] && idx[|idx| - 1] == RawStep then OFFSET_RAW_CONTENTS else 0
  }

  /** The parent of a source index; the message itself has an (out-of-model) mailbox parent,
      represented as None. */
  function ParentIndex(idx: SourceIndex): Option<SourceIndex> {
    if idx == [] then None else Some(idx[..|idx| - 1])
  }

  lemma {:induction false} ResolveAppend(p: SourcePart, idx: SourceIndex, step: Step)
    requires Resolve(p, idx).Some?
    ensures Resolve(p, idx + [step]) == Resolve(Resolve(p, idx).value, [step])
    decreases |idx|
  {
    if idx != [] {
      assert (idx + [step])[1..] == idx[1..] + [step];
      match idx[0]
      case ChildStep(r) => ResolveAppend(p.children[r], idx[1..], step);
      case RawStep => ResolveAppend(p.raw.value, idx[1..], step);
    }
  }

  /** A child index resolves to the matching child of the resolved part. */
  lemma {:induction false} ChildIndexResolves(t: SourceTree, idx: SourceIndex, row: nat, column: int)
    requires ChildIndex(t, idx, row, column).Some?
    ensures var p := Resolve(t.message, idx).value;
            var c := Resolve(t.message, ChildIndex(t, idx, row, column).value);
            c.Some? && (column == 0 ==> c.value == p.children[row]) && (column != 0 ==> c == p.raw)
    ensures ParentIndex(ChildIndex(t, idx, row, column).value) == Some(idx)
    ensures IndexRow(t, ChildIndex(t, idx, row, column).value) == row
    ensures IndexColumn(ChildIndex(t, idx, row, column).value) == column
  {
    var step := if column == 0 then ChildStep(row) else RawStep;
    ResolveAppend(t.message, idx, step);
    assert (idx + [step])[..|idx + [step]| - 1] == idx;
  }
}

=== FILE: system_properties.dfy ===
/** Properties of the assembled system over whole runs: the lazy trigger fires once per part, no
    local part goes back, a failed decryption leaves its container as it was, a helper that stopped
    listening starts nothing more, and the decryption scenario of the OpenPGP test
    (tests/Cryptography/test_Cryptography_PGP.cpp:82-103). */
module SystemProperties {
  import opened Wrappers
  import opened ItemRoles
  import opened SourceModel
  import opened MessagePart
  import opened MessageModel
  import opened MessagePartFactory
  import QcaHelper
  import opened DecryptionSession
  import opened MessageSystem
  import OpenPgpHelper
  import SmimeHelper
  import FactoryProperties

  /** Over any run, a DONE part stays DONE and a part that has left NONE never returns to it. */
  lemma {:induction false} StatesNeverGoBack(w: World, env: Environment, events: seq<Event>, h: Handle)
    requires Inv(w) && Run(w, env, events).Ok? && IsLocal(w.model.arena, h)
    ensures var a := Run(w, env, events).value.model.arena;
            IsLocal(a, h)
            && (FieldsOf(w.model.arena, h).state == DONE ==> FieldsOf(a, h).state == DONE)
            && (FieldsOf(w.model.arena, h).state != NONE ==> FieldsOf(a, h).state != NONE)
  {
  }

  /** Over any run, the parts whose construction was triggered are all different, and every one of
      them has left NONE, so no row count can trigger it again. */
  lemma {:induction false} TriggeredOnce(w: World, env: Environment, events: seq<Event>)
    requires Inv(w) && Run(w, env, events).Ok?
    ensures var r := Run(w, env, events).value;
            Distinct(r.builds)
            && forall i | 0 <= i < |r.builds| :: IsLocal(r.model.arena, r.builds[i]) && FieldsOf(r.model.arena, r.builds[i]).state != NONE
  {
  }

  /** Asking for the same row count twice: the second time nothing at all happens. */
  lemma {:induction false} RowCountAgainChangesNothing(w: World, env: Environment, idx: Index)
    requires Inv(w) && IndexIn(w.model, idx) && Deliver(w, env, ViewRowCount(idx)).Ok?
    ensures var w1 := Deliver(w, env, ViewRowCount(idx)).value;
            Deliver(w1, env, ViewRowCount(idx)) == Ok(w1)
  {
    var w1 := Deliver(w, env, ViewRowCount(idx)).value;
    assert IndexIn(w1.model, idx);
  }

  /** A failed decryption leaves the whole model, and with it the LOADING container, as it was; only
      the failure is reported. */
  lemma {:induction false} FailureLeavesModel(w: World, env: Environment, scheme: Scheme, code: int)
    requires Inv(w) && Running(w, scheme) > 0
    ensures var r := Deliver(w, env, DecryptFinished(scheme, Err(code)));
            r.Ok? && r.value.model == w.model && PhaseOf(r.value, scheme) == Failed
            && r.value.trace == w.trace + [DecryptionFailed(QcaHelper.ErrorText(true, code))]
  {
  }

  /** Every event of the list is a change report of the remote model. */
  predicate OnlySourceChanges(events: seq<Event>) {
    forall i | 0 <= i < |events| :: events[i].SourceChanged? && ParentIndex(events[i].topLeft) == ParentIndex(events[i].bottomRight)
  }

  /** Once the OpenPGP helper has stopped listening, no further change report reaches it: it stays
      exactly as it is, so it cannot start a second decryption. When the S/MIME helper is not
      listening either, nothing at all is emitted. */
  lemma {:induction false} NoSecondDecryption(w: World, env: Environment, events: seq<Event>)
    requires Inv(w) && !w.pgp.connected && OnlySourceChanges(events)
    ensures var r := Run(w, env, events);
            r.Ok? && r.value.pgp == w.pgp && r.value.pgpRunning == w.pgpRunning && r.value.model.arena == w.model.arena
            && (!w.smime.connected ==> r.value.smime == w.smime && r.value.trace == w.trace)
    decreases |events|
  {
    if events != [] {
      var e := events[0];
      assert e.SourceChanged? && ParentIndex(e.topLeft) == ParentIndex(e.bottomRight);
      var w1 := Deliver(w, env, e).value;
      assert OnlySourceChanges(events[1..]) by {
        forall i | 0 <= i < |events[1..]|
          ensures events[1..][i].SourceChanged? && ParentIndex(events[1..][i].topLeft) == ParentIndex(events[1..][i].bottomRight)
        {
          assert events[1..][i] == events[i + 1];
        }
      }
      NoSecondDecryption(w1, env, events[1..]);
    }
  }

  /** In a freshly opened message, part `i` of an encrypted type is a childless NONE placeholder of
      that type, whose raw part mirrors the remote part. */
  lemma {:induction false} OpenedPlaceholder(t: SourceTree, i: nat) returns (c: Handle)
    requires Open(t).Ok? && i < |t.message.children|
    requires IsEncryptedType(ToBytes(Lookup(t.message.children[i], RolePartMimeType)))
    ensures var m := Open(t).value.model;
            m.root.Some? && m.root.value in m.arena.nodes
            && Child(m.arena, m.root.value, i, 0) == Some(c)
            && IsLocal(m.arena, c) && FieldsOf(m.arena, c).mimeType == ToBytes(Lookup(t.message.children[i], RolePartMimeType))
            && FieldsOf(m.arena, c).state == NONE && ChildCount(m.arena, c) == 0
            && m.arena.nodes[c].raw.Some?
            && FactoryProperties.Mirrors(m.arena, t, m.arena.nodes[c].raw.value, [ChildStep(i)], t.message.children[i])
  {
    var w := Open(t).value;
    var root := w.model.root.value;
    var a := w.model.arena;
    assert FactoryProperties.ChildrenMirror(a, t, root, [], t.message);
    var csrc: SourceIndex := [] + [ChildStep(i)];
    assert csrc == [ChildStep(i)];
    assert FactoryProperties.ChildMirrors(a, t, root, i, csrc, t.message.children[i]);
    c := a.nodes[root].children[i];
  }

  /** A row count on an untouched multipart/encrypted placeholder whose raw part has the two
      expected children: the placeholder becomes LOADING and the OpenPGP helper takes it on and
      requests both body parts. */
  lemma {:induction false} PgpTrigger(w: World, env: Environment, idx: Index) returns (w1: World)
    requires Inv(w) && idx.Valid? && IsLocal(w.model.arena, idx.part) && FieldsOf(w.model.arena, idx.part).state == NONE
    requires FieldsOf(w.model.arena, idx.part).mimeType == "multipart/encrypted" && OpenPgpHelper.DecryptAssertions(w.model, idx)
    requires env.caps.haveQca && env.caps.openpgp
    ensures Deliver(w, env, ViewRowCount(idx)) == Ok(w1)
    ensures w1.model.arena == SetFetchingState(w.model.arena, idx.part, LOADING)
    ensures w1.builds == w.builds + [idx.part] && w1.pgp.partIndex == idx && w1.pgpRunning >= w.pgpRunning
    ensures |w1.trace| >= |w.trace| + 2
            && w1.trace[|w.trace|] == RequestPayload(OpenPgpHelper.ControlIndex(w1.model, idx))
            && w1.trace[|w.trace| + 1] == RequestPayload(OpenPgpHelper.CipherIndex(w1.model, idx))
  {
    var rc := RowCount(w.model, idx);
    assert rc.build;
    var w0 := w.(model := rc.model, builds := w.builds + [idx.part]);
    assert FieldsOf(w0.model.arena, idx.part).mimeType == "multipart/encrypted";
    assert OpenPgpHelper.DecryptAssertions(w0.model, idx) by {
      assert w0.model.arena.nodes[idx.part].raw == w.model.arena.nodes[idx.part].raw;
    }
    w1 := Deliver(w, env, ViewRowCount(idx)).value;
  }

  /** The first half of the OpenPGP test: a message whose part `i` is a two-part
      multipart/encrypted opens with a NONE placeholder of no rows in that place; asking for its
      rows leaves it with no rows, LOADING, not fetched, and makes the OpenPGP helper request the
      control part and the ciphertext. */
  lemma {:induction false} PgpPlaceholderWaits(t: SourceTree, env: Environment, i: nat) returns (w: World, idx: Index, w1: World)
    requires Open(t).Ok? && i < |t.message.children|
    requires ToBytes(Lookup(t.message.children[i], RolePartMimeType)) == "multipart/encrypted"
    requires |t.message.children[i].children| == 2
    requires env.caps.haveQca && env.caps.openpgp
    ensures Open(t) == Ok(w) && w.model.root.Some? && w.model.root.value in w.model.arena.nodes
    ensures idx.Valid? && idx.row == i && Child(w.model.arena, w.model.root.value, i, 0) == Some(idx.part)
    ensures IsLocal(w.model.arena, idx.part) && FieldsOf(w.model.arena, idx.part).mimeType == "multipart/encrypted"
            && FieldsOf(w.model.arena, idx.part).state == NONE && ChildCount(w.model.arena, idx.part) == 0
    ensures Deliver(w, env, ViewRowCount(idx)) == Ok(w1)
    ensures IsLocal(w1.model.arena, idx.part) && ChildCount(w1.model.arena, idx.part) == 0
            && FieldsOf(w1.model.arena, idx.part).state == LOADING && !Fetched(w1.model, w1.source, idx)
    ensures w1.builds == [idx.part] && w1.pgp.partIndex == idx
            && |w1.trace| >= 2 && w1.trace[0] == RequestPayload(OpenPgpHelper.ControlIndex(w1.model, idx))
            && w1.trace[1] == RequestPayload(OpenPgpHelper.CipherIndex(w1.model, idx))
  {
    w := Open(t).value;
    var c := OpenedPlaceholder(t, i);
    var a := w.model.arena;
    var raw := a.nodes[c].raw.value;
    assert FactoryProperties.ChildrenMirror(a, t, raw, [ChildStep(i)], t.message.children[i]);
    idx := Valid(i, 0, c);
    assert OpenPgpHelper.DecryptAssertions(w.model, idx);
    w1 := PgpTrigger(w, env, idx);
    NotFetchedWhileLoading(w1.model, w1.source, idx);
  }

  /** A local part that is not DONE reads as not fetched. */
  lemma {:induction false} NotFetchedWhileLoading(m: Model, t: SourceTree, idx: Index)
    requires ModelWf(m) && idx.Valid? && IsLocal(m.arena, idx.part) && FieldsOf(m.arena, idx.part).state != DONE
    ensures !Fetched(m, t, idx)
  {
    assert ModelData(m, t, idx, RoleIsFetched) == Bool(false);
  }

  /** The parts a decryption hands over may be grafted below its container: the container is live
      and childless, and every new part comes after it. */
  lemma {:induction false} FreshPartsGraftable(m: Model, b: Arena, container: Index, parts: seq<Handle>)
    requires ModelWf(m) && container.Valid? && container.part in m.arena.nodes && ChildCount(m.arena, container.part) == 0
    requires QcaHelper.Grows(m.arena, b) && forall x | x in m.arena.nodes :: b.nodes[x] == m.arena.nodes[x]
    requires forall i | 0 <= i < |parts| :: parts[i] in b.nodes && m.arena.next <= parts[i]
    ensures InsertAllowed(m.(arena := b), container, parts)
  {
    assert NodeWf(m.arena, container.part);
    forall c | c in parts
      ensures c in b.nodes && container.part < c
    {
      var k :| 0 <= k < |parts| && parts[k] == c;
    }
  }

  /** A local DONE part reads as fetched. */
  lemma {:induction false} FetchedWhenDone(m: Model, t: SourceTree, idx: Index)
    requires ModelWf(m) && idx.Valid? && IsLocal(m.arena, idx.part) && FieldsOf(m.arena, idx.part).state == DONE
    ensures Fetched(m, t, idx)
  {
    assert ModelData(m, t, idx, RoleIsFetched) == Bool(true);
  }

  /** A single `dataDecrypted` whose insertion is allowed grafts its parts below the container. */
  lemma {:induction false} EmitGraft(w: World, scheme: Scheme, e: Effect)
    requires Inv(w) && e.DataDecrypted? && e.container.Valid? && InsertAllowed(w.model, e.container, e.parts)
    ensures Emit(w, scheme, [e]).Ok?
    ensures Grafted(w.model.arena, Emit(w, scheme, [e]).value.model.arena, e.container.part, e.parts)
  {
    assert [e][1..] == [];
    assert GraftAll(w.model, [e]) == GraftOne(w.model, e);
  }

  /** A finished decryption the helper waits for is handled by the helper's step. */
  lemma {:induction false} DeliverFinished(w: World, env: Environment, scheme: Scheme, result: Result<string, int>)
    requires Inv(w) && Running(w, scheme) > 0
    ensures Deliver(w, env, DecryptFinished(scheme, result)) == DecryptFinishedStep(w, env, scheme, result)
  {
  }

  /** Parts handed over for a childless local container, after the arena grew by done parts only,
      are grafted below it and the container becomes DONE. */
  lemma {:induction false} GraftAfterGrowth(w: World, w1: World, scheme: Scheme, container: Index, parts: seq<Handle>)
    requires Inv(w) && container.Valid? && IsLocal(w.model.arena, container.part) && ChildCount(w.model.arena, container.part) == 0
    requires Wf(w1.model.arena) && QcaHelper.Grows(w.model.arena, w1.model.arena) && QcaHelper.NewPartsDone(w.model.arena, w1.model.arena)
    requires forall x | x in w.model.arena.nodes :: w1.model.arena.nodes[x] == w.model.arena.nodes[x]
    requires w1.model == w.model.(arena := w1.model.arena) && w1.builds == w.builds
    requires w1.pgp.partIndex == w.pgp.partIndex && w1.smime.partIndex == w.smime.partIndex
    requires forall i | 0 <= i < |parts| :: parts[i] in w1.model.arena.nodes && w.model.arena.next <= parts[i]
    ensures Inv(w1) && Emit(w1, scheme, [DataDecrypted(container, parts)]).Ok?
    ensures var a := Emit(w1, scheme, [DataDecrypted(container, parts)]).value.model.arena;
            IsLocal(a, container.part) && FieldsOf(a, container.part).state == DONE && a.nodes[container.part].children == parts
  {
    LocalGrowthKeepsWf(w.model, w1.model.arena);
    InvKept(w, w1);
    FreshPartsGraftable(w.model, w1.model.arena, container, parts);
    EmitGraft(w1, scheme, DataDecrypted(container, parts));
  }

  /** A successful OpenPGP decryption for a childless local container grafts one part per part of
      the parsed plaintext below it and marks it DONE. */
  lemma {:induction false} PgpSuccessGrafts(w: World, env: Environment, result: Result<string, int>) returns (r: World)
    requires Inv(w) && w.pgpRunning > 0 && result.Ok? && w.pgp.partIndex.Valid?
    requires IsLocal(w.model.arena, w.pgp.partIndex.part) && ChildCount(w.model.arena, w.pgp.partIndex.part) == 0
    ensures DecryptFinishedStep(w, env, OpenPgp, result) == Ok(r)
    ensures IsLocal(r.model.arena, w.pgp.partIndex.part) && FieldsOf(r.model.arena, w.pgp.partIndex.part).state == DONE
            && ChildCount(r.model.arena, w.pgp.partIndex.part) == |env.parse(result.value).parts|
    ensures forall x | x in w.model.arena.nodes && x != w.pgp.partIndex.part ::
              x in r.model.arena.nodes && r.model.arena.nodes[x].kind == w.model.arena.nodes[x].kind
  {
    var f := OpenPgpHelper.DecryptionFinished(w.pgp, w.model.arena, result, env.parse, env.oracles);
    var e := f.effects[0];
    assert f.effects == [e];
    LocalGrowthKeepsWf(w.model, f.arena);
    var w1 := w.(model := w.model.(arena := f.arena), pgp := f.helper, pgpRunning := w.pgpRunning - 1);
    InvKept(w, w1);
    FreshPartsGraftable(w.model, f.arena, w.pgp.partIndex, e.parts);
    EmitGraft(w1, OpenPgp, e);
    r := Emit(w1, OpenPgp, [e]).value;
  }

  /** The S/MIME step emits the effects of the helper's decryptionFinished over the grown arena. */
  lemma {:induction false} SmimeStepIsEmit(w: World, env: Environment, result: Result<string, int>)
    requires Inv(w) && w.smimeRunning > 0
    ensures var f := SmimeHelper.DecryptionFinished(w.smime, w.model.arena, result, env.parse, env.oracles, env.caps.mimetic);
            var w1 := w.(model := w.model.(arena := f.arena), smime := f.helper, smimeRunning := w.smimeRunning - 1);
            Inv(w1) && DecryptFinishedStep(w, env, Smime, result) == Emit(w1, Smime, f.effects)
  {
    var f := SmimeHelper.DecryptionFinished(w.smime, w.model.arena, result, env.parse, env.oracles, env.caps.mimetic);
    LocalGrowthKeepsWf(w.model, f.arena);
    var w1 := w.(model := w.model.(arena := f.arena), smime := f.helper, smimeRunning := w.smimeRunning - 1);
    InvKept(w, w1);
  }

  /** A successful S/MIME decryption for a childless local container grafts the one new part below
      it and marks it DONE. */
  lemma {:induction false} SmimeSuccessGrafts(w: World, env: Environment, result: Result<string, int>) returns (r: World)
    requires Inv(w) && w.smimeRunning > 0 && result.Ok? && w.smime.partIndex.Valid?
    requires IsLocal(w.model.arena, w.smime.partIndex.part) && ChildCount(w.model.arena, w.smime.partIndex.part) == 0
    ensures DecryptFinishedStep(w, env, Smime, result) == Ok(r)
    ensures IsLocal(r.model.arena, w.smime.partIndex.part) && FieldsOf(r.model.arena, w.smime.partIndex.part).state == DONE
            && r.model.arena.nodes[w.smime.partIndex.part].children == [w.model.arena.next]
  {
    var f := SmimeHelper.DecryptionFinished(w.smime, w.model.arena, result, env.parse, env.oracles, env.caps.mimetic);
    var w1 := w.(model := w.model.(arena := f.arena), smime := f.helper, smimeRunning := w.smimeRunning - 1);
    GraftAfterGrowth(w, w1, Smime, w.smime.partIndex, [w.model.arena.next]);
    r := Emit(w1, Smime, f.effects).value;
    SmimeStepIsEmit(w, env, result);
  }

  /** The second half of the OpenPGP test: when the crypto library finishes for a LOADING,
      childless container, the container ends fetched exactly when decryption succeeded; on success
      it holds one child per part of the parsed plaintext, on failure it is untouched. */
  lemma {:induction false} PgpDecryptionOutcome(w: World, env: Environment, result: Result<string, int>)
    requires Inv(w) && w.pgpRunning > 0 && w.pgp.partIndex.Valid?
    requires IsLocal(w.model.arena, w.pgp.partIndex.part) && FieldsOf(w.model.arena, w.pgp.partIndex.part).state == LOADING
    requires ChildCount(w.model.arena, w.pgp.partIndex.part) == 0
    ensures var r := Deliver(w, env, DecryptFinished(OpenPgp, result));
            var c := w.pgp.partIndex.part;
            r.Ok? && IsLocal(r.value.model.arena, c)
            && (Fetched(r.value.model, r.value.source, w.pgp.partIndex) <==> result.Ok?)
            && (result.Ok? ==> FieldsOf(r.value.model.arena, c).state == DONE
                               && ChildCount(r.value.model.arena, c) == |env.parse(result.value).parts|)
            && (result.Err? ==> r.value.model == w.model)
  {
    DeliverFinished(w, env, OpenPgp, result);
    if result.Ok? {
      var r := PgpSuccessGrafts(w, env, result);
      FetchedWhenDone(r.model, r.source, w.pgp.partIndex);
    } else {
      NotFetchedWhileLoading(w.model, w.source, w.pgp.partIndex);
    }
  }

  /** The same for S/MIME: on success the container holds exactly one child, the converted
      plaintext, and is fetched; on failure it is untouched. */
  lemma {:induction false} SmimeDecryptionOutcome(w: World, env: Environment, result: Result<string, int>)
    requires Inv(w) && w.smimeRunning > 0 && w.smime.partIndex.Valid?
    requires IsLocal(w.model.arena, w.smime.partIndex.part) && FieldsOf(w.model.arena, w.smime.partIndex.part).state == LOADING
    requires ChildCount(w.model.arena, w.smime.partIndex.part) == 0
    ensures var r := Deliver(w, env, DecryptFinished(Smime, result));
            var c := w.smime.partIndex.part;
            r.Ok? && IsLocal(r.value.model.arena, c)
            && (Fetched(r.value.model, r.value.source, w.smime.partIndex) <==> result.Ok?)
            && (result.Ok? ==> FieldsOf(r.value.model.arena, c).state == DONE
                               && r.value.model.arena.nodes[c].children == [w.model.arena.next])
            && (result.Err? ==> r.value.model == w.model)
  {
    DeliverFinished(w, env, Smime, result);
    if result.Ok? {
      var r := SmimeSuccessGrafts(w, env, result);
      FetchedWhenDone(r.model, r.source, w.smime.partIndex);
    } else {
      NotFetchedWhileLoading(w.model, w.source, w.smime.partIndex);
    }
  }

  // ---------------------------------------------------------------------------------------------
  // Decryptions that overlap

  /** As written, a decryption that is still running when the OpenPGP helper is handed another
      container finishes into that other container. The helper has a decryption running (for the
      container it remembered when it started); a row count on a second, untouched placeholder
      re-targets the helper; when the running decryption then succeeds, its plaintext is grafted
      below the second placeholder, which becomes DONE, while every other part, the container the
      decryption belonged to among them, keeps its state. */
  lemma {:induction false} InFlightFinishGraftsAtNewTarget(w: World, env: Environment, idx: Index, plaintext: string)
    returns (w1: World, w2: World)
    requires Inv(w) && w.pgpRunning > 0 && env.caps.haveQca && env.caps.openpgp
    requires idx.Valid? && IsLocal(w.model.arena, idx.part) && FieldsOf(w.model.arena, idx.part).state == NONE
    requires FieldsOf(w.model.arena, idx.part).mimeType == "multipart/encrypted" && OpenPgpHelper.DecryptAssertions(w.model, idx)
    requires ChildCount(w.model.arena, idx.part) == 0
    ensures Deliver(w, env, ViewRowCount(idx)) == Ok(w1) && w1.pgp.partIndex == idx && w1.pgpRunning >= w.pgpRunning
    ensures Deliverable(w1, DecryptFinished(OpenPgp, Ok(plaintext)))
    ensures Deliver(w1, env, DecryptFinished(OpenPgp, Ok(plaintext))) == Ok(w2)
    ensures |w1.trace| < |w2.trace| && w2.trace[|w1.trace|].DataDecrypted? && w2.trace[|w1.trace|].container == idx
    ensures IsLocal(w2.model.arena, idx.part) && FieldsOf(w2.model.arena, idx.part).state == DONE
            && ChildCount(w2.model.arena, idx.part) == |env.parse(plaintext).parts|
    ensures forall x | IsLocal(w.model.arena, x) && x != idx.part ::
              IsLocal(w2.model.arena, x) && FieldsOf(w2.model.arena, x).state == FieldsOf(w.model.arena, x).state
  {
    w1 := PgpTrigger(w, env, idx);
    DeliverFinished(w1, env, OpenPgp, Ok(plaintext));
    w2 := PgpSuccessGrafts(w1, env, Ok(plaintext));
    var f := OpenPgpHelper.DecryptionFinished(w1.pgp, w1.model.arena, Ok(plaintext), env.parse, env.oracles);
    assert f.effects == [f.effects[0]];
    forall x | IsLocal(w.model.arena, x) && x != idx.part
      ensures IsLocal(w2.model.arena, x) && FieldsOf(w2.model.arena, x).state == FieldsOf(w.model.arena, x).state
    {
      assert w1.model.arena.nodes[x] == w.model.arena.nodes[x];
    }
  }

  /** As written, a decryption that finishes for a container which already holds parts (one that
      an earlier, re-targeted decryption filled) violates insertSubtree's assertion that the
      container has no rows yet (src/Cryptography/MessageModel.cpp:154). */
  lemma {:induction false} SecondFinishAsserts(w: World, env: Environment, plaintext: string)
    requires Inv(w) && w.pgpRunning > 0 && w.pgp.partIndex.Valid?
    requires w.pgp.partIndex.part in w.model.arena.nodes && ChildCount(w.model.arena, w.pgp.partIndex.part) > 0
    ensures Deliver(w, env, DecryptFinished(OpenPgp, Ok(plaintext))) == Err(AssertionFailure)
  {
    DeliverFinished(w, env, OpenPgp, Ok(plaintext));
    var f := OpenPgpHelper.DecryptionFinished(w.pgp, w.model.arena, Ok(plaintext), env.parse, env.oracles);
    var e := f.effects[0];
    assert f.effects == [e];
    var w1 := w.(model := w.model.(arena := f.arena), pgp := f.helper, pgpRunning := w.pgpRunning - 1);
    LocalGrowthKeepsWf(w.model, f.arena);
    assert !InsertAllowed(w1.model, e.container, e.parts);
    assert GraftAll(w1.model, [e]) == Err(AssertionFailure) by {
      assert [e][1..] == [];
    }
  }

  /** The evidently intended behaviour: a finished OpenPGP decryption hands its parts over for the
      container it was started for, so that container, if it is a childless local part, gets one
      child per part of the plaintext and becomes DONE, whatever container the helper has been
      handed since. */
  lemma {:induction false} IntendedFinishGraftsOwnContainer(w: World, env: Environment, container: Index, plaintext: string)
    returns (r: World)
    requires Inv(w) && container.Valid? && IsLocal(w.model.arena, container.part)
    requires ChildCount(w.model.arena, container.part) == 0
    ensures var f := OpenPgpHelper.DecryptionFinishedFor(w.pgp, container, w.model.arena, Ok(plaintext), env.parse, env.oracles);
            Emit(w.(model := w.model.(arena := f.arena), pgp := f.helper), OpenPgp, f.effects) == Ok(r)
    ensures IsLocal(r.model.arena, container.part) && FieldsOf(r.model.arena, container.part).state == DONE
            && ChildCount(r.model.arena, container.part) == |env.parse(plaintext).parts|
  {
    var f := OpenPgpHelper.DecryptionFinishedFor(w.pgp, container, w.model.arena, Ok(plaintext), env.parse, env.oracles);
    var e := f.effects[0];
    assert f.effects == [e];
    var w1 := w.(model := w.model.(arena := f.arena), pgp := f.helper);
    assert forall i | 0 <= i < |e.parts| :: e.parts[i] in w1.model.arena.nodes && w.model.arena.next <= e.parts[i];
    GraftAfterGrowth(w, w1, OpenPgp, container, e.parts);
    r := Emit(w1, OpenPgp, [e]).value;
  }
}

=== FILE: text.dfy ===
/** Byte-string helpers shared by the model. QByteArray and QString are both modelled as `string`;
    no character-set conversion is modelled. */
module Text {

  /** QByteArray::startsWith */
  predicate StartsWith(s: string, prefix: string) {
    |prefix| <= |s| && s[..|prefix|] == prefix
  }

  /** QByteArray::endsWith */
  predicate EndsWith(s: string, suffix: string) {
    |suffix| <= |s| && s[|s| - |suffix|..] == suffix
  }

  /** True when `needle` occurs at position `i` of `s`. */
  predicate OccursAt(s: string, needle: string, i: int) {
    0 <= i && i + |needle| <= |s| && s[i..i + |needle|] == needle
  }

  /** QString::contains */
  predicate Contains(s: string, needle: string) {
    exists i | 0 <= i <= |s| :: OccursAt(s, needle, i)
  }

  /** Equal strings with a common prefix have equal remainders. */
  lemma {:induction false} PrefixCancel(p: string, x: string, y: string)
    requires p + x == p + y
    ensures x == y
  {
    assert x == (p + x)[|p|..];
    assert y == (p + y)[|p|..];
  }

  /** ASCII lower-casing, as QByteArray::toLower does. */
  function LowerChar(c: char): char {
    if 'A' <= c <= 'Z' then (c as int + 32) as char else c
  }

  function ToLower(s: string): (r: string)
    ensures |r| == |s|
    ensures forall i :: 0 <= i < |s| ==> r[i] == LowerChar(s[i])
  {
    if s == [] then [] else [LowerChar(s[0])] + ToLower(s[1..])
  }

  function DigitChar(d: nat): char
    requires d < 10
  {
    ['0', '1', '2', '3', '4', '5', '6', '7', '8', '9'][d]
  }

  predicate IsDigit(c: char) {
    '0' <= c <= '9'
  }

  /** QByteArray::number for a non-negative value: its decimal digits, no sign, no leading zeros. */
  function Decimal(n: nat): (r: string)
    ensures |r| > 0
    ensures forall i :: 0 <= i < |r| ==> IsDigit(r[i])
    decreases n
  {
    if n < 10 then [DigitChar(n)] else Decimal(n / 10) + [DigitChar(n % 10)]
  }

  /** Value of a string of decimal digits; the inverse of Decimal. */
  function DigitsValue(s: string): nat
    requires forall i :: 0 <= i < |s| ==> IsDigit(s[i])
  {
    if s == [] then 0
    else
      var d := s[|s| - 1];
      assert IsDigit(d);
      DigitsValue(s[..|s| - 1]) * 10 + (d as int - '0' as int)
  }

  lemma {:induction false} DecimalRoundTrip(n: nat)
    ensures DigitsValue(Decimal(n)) == n
    decreases n
  {
    if n >= 10 {
      var r := Decimal(n);
      assert r[..|r| - 1] == Decimal(n / 10);
      DecimalRoundTrip(n / 10);
    }
  }

  /** Decimal never yields the same text for two different numbers. */
  lemma {:induction false} DecimalInjective(m: nat, n: nat)
    requires Decimal(m) == Decimal(n)
    ensures m == n
  {
    DecimalRoundTrip(m);
    DecimalRoundTrip(n);
  }

  /** Concatenation of `parts` with `sep` between consecutive elements (QStringList::join). */
  function Join(parts: seq<string>, sep: string): (r: string)
    ensures parts == [] ==> r == []
    decreases |parts|
  {
    if parts == [] then []
    else if |parts| == 1 then parts[0]
    else parts[0] + sep + Join(parts[1..], sep)
  }

  /** Concatenation regroups freely. */
  lemma AppendAssoc<T>(a: seq<T>, b: seq<T>, c: seq<T>)
    ensures (a + b) + c == a + (b + c)
  {
  }

  /** Joining one more part appends the separator and the part. */
  lemma {:induction false} JoinSnoc(parts: seq<string>, last: string, sep: string)
    requires parts != []
    ensures Join(parts + [last], sep) == Join(parts, sep) + sep + last
    decreases |parts|
  {
    if |parts| == 1 {
      assert parts + [last] == [parts[0], last];
      assert [parts[0], last][1..] == [last];
    } else {
      assert (parts + [last])[1..] == parts[1..] + [last];
      JoinSnoc(parts[1..], last, sep);
    }
  }

  /** Plain concatenation of all parts. */
  function Concat(parts: seq<string>): string
    decreases |parts|
  {
    if parts == [] then [] else parts[0] + Concat(parts[1..])
  }

  lemma {:induction false} ConcatAppend(xs: seq<string>, ys: seq<string>)
    ensures Concat(xs + ys) == Concat(xs) + Concat(ys)
    decreases |xs|
  {
    if xs != [] {
      assert (xs + ys)[1..] == xs[1..] + ys;
      ConcatAppend(xs[1..], ys);
    } else {
      assert xs + ys == ys;
    }
  }

  /** QByteArray::replace("\r\n", "\n"): every CR immediately followed by LF is dropped, scanning left to right. */
  function CrlfToLf(s: string): (r: string)
    ensures |r| <= |s|
    decreases |s|
  {
    if |s| >= 2 && s[0] == '\r' && s[1] == '\n' then "\n" + CrlfToLf(s[2..])
    else if s == [] then []
    else [s[0]] + CrlfToLf(s[1..])
  }

  /** A CR immediately followed by LF at position i. */
  predicate CrLfAt(s: string, i: int) {
    0 <= i && i + 1 < |s| && s[i] == '\r' && s[i + 1] == '\n'
  }

  /** A CR immediately followed by CR LF at position i: the only source of a CR LF that survives CrlfToLf. */
  predicate CrCrLfAt(s: string, i: int) {
    0 <= i && i + 2 < |s| && s[i] == '\r' && s[i + 1] == '\r' && s[i + 2] == '\n'
  }

  /** After CrlfToLf no CR LF pair is left, unless the input held CR CR LF. */
  lemma {:induction false} CrlfToLfRemovesPairs(s: string)
    requires forall j :: !CrCrLfAt(s, j)
    ensures forall i :: !CrLfAt(CrlfToLf(s), i)
    decreases |s|
  {
    var r := CrlfToLf(s);
    if |s| >= 2 && s[0] == '\r' && s[1] == '\n' {
      var t := s[2..];
      assert forall j :: CrCrLfAt(t, j) ==> CrCrLfAt(s, j + 2);
      CrlfToLfRemovesPairs(t);
      assert r == "\n" + CrlfToLf(t);
      forall i | CrLfAt(r, i) ensures false {
        assert i >= 1 && CrLfAt(CrlfToLf(t), i - 1);
      }
    } else if s != [] {
      var t := s[1..];
      assert forall j :: CrCrLfAt(t, j) ==> CrCrLfAt(s, j + 1);
      CrlfToLfRemovesPairs(t);
      var rt := CrlfToLf(t);
      assert r == [s[0]] + rt;
      if s[0] == '\r' && |rt| > 0 {
        assert !CrCrLfAt(s, 0);
        CrlfFirstChar(t);
        assert !CrLfAt(r, 0);
      }
      forall i | 1 <= i ensures !CrLfAt(r, i) {
        assert !CrLfAt(rt, i - 1);
      }
    }
  }

  /** An output starting with LF comes from an input starting with LF or CR LF. */
  lemma {:induction false} CrlfFirstChar(s: string)
    requires |CrlfToLf(s)| > 0
    ensures CrlfToLf(s)[0] == '\n' <==> (|s| >= 2 && s[0] == '\r' && s[1] == '\n') || s[0] == '\n'
  {
  }

  predicate NoNul(s: string) {
    forall k | 0 <= k < |s| :: s[k] != '\0'
  }

  /** A QByteArray passed on as `const char *` (QCA::MemoryRegion's constructor from a C string):
      only the bytes before the first NUL arrive. */
  function UpToNul(s: string): (r: string)
    ensures |r| <= |s| && r == s[..|r|] && NoNul(r)
    ensures |r| < |s| ==> s[|r|] == '\0'
    ensures r == s <==> NoNul(s)
    decreases |s|
  {
    if s == [] || s[0] == '\0' then []
    else
      var t := UpToNul(s[1..]);
      assert forall k | 1 <= k < |t| + 1 :: ([s[0]] + t)[k] == t[k - 1];
      [s[0]] + t
  }
}

=== FILE: wrappers.dfy ===
/** Option and Result types used throughout the model in place of null references,
    invalid indices and error returns. */
module Wrappers {

  /** A value that may be absent: a null reference, an invalid index, an unset field. */
  datatype Option<+T> = None | Some(value: T) {
    function GetOr(default: T): T {
      match this
      case Some(v) => v
      case None => default
    }
  }

  /** Either a value or an error description. */
  datatype Result<+R, +E> = Ok(value: R) | Err(error: E)
}
